=== FILE: README.md ===
# Shapeshifter document core in Dafny

Shapeshifter edits a hierarchical document. The content tree is built from four node kinds:

- paragraphs;
- sections, which carry one heading, `children` and a `summary`;
- untitled sections;
- section containers, whose children are sections only.

Every node also carries an array of view descriptors (presentation variant plus state) and the name of the active one.

This project is a pure functional model of the repository's core, with proofs about it. The core covers:

- **Node model** (`Views`, `Content`, `Collection`, `Doc`): the node union, the view arrays, and schema validity as predicates.
- **Paragraph edits** (`SectionActions`, `CollectionActions`, `Summary`):
  - splitting a paragraph, in both the focusing and the older non-focusing version;
  - joining a paragraph with the previous one;
  - Enter at the end of a heading;
  - splitting a section at a paragraph.
- **Container edits** (`ContainerActions`):
  - inserting a section at an index, or appending it;
  - creating a container;
  - adding a default section;
  - the sibling moves that heading-level changes use.
- **Heading-level restructuring** (`LevelActions`):
  - Tab moves a section under the preceding section and lifts its own container children up beside it;
  - Backspace moves a section out to its grandparent container.
- **Tree traversal** (`Traversal`): a pre-order walk that runs an optional visitor per node kind. For each node it visits the node, then its `children`, then its `summary`. A traversal is proved to change the tree's view arrays and nothing else, each by its own node type's visitor.
- **Migration engine** (`Migrations`, `SectionMigrations`, `ContainerMigrations`):
  - a registry of versioned steps, kept sorted by a push followed by a stable sort;
  - `migrateDocument`, which runs every step above the document's version, in order, and records each step's version;
  - the three registered steps: to version 1, a section's display state becomes a record with a variation; to version 2, card states gain `multilevel`; to version 3, section records gain `animation`.
- **Markdown extraction** (`Extract`): a serialiser in which the depth passed down decides the number of `#` markers. Each extraction is proved equal to the rendering of a reference outline of the tree.
- **Card view** (`CardNavigation`, `CardUtils`): keyboard navigation between a card's heading, its summary blocks and the neighbouring cards; the read-mode toggle; the add-section button.

How the model stands in for the running program:

- **Mutation and effects.**
  - An in-place mutation becomes a function that returns the new value.
  - Timestamps and fresh uuids are parameters (`now`, `freshId`).
  - A focus request is returned as `Option<Focus>`.
  - The `animateNextChange` flag is an explicit `DocState` in and out.
- **Thrown errors.** A place where the source would throw becomes `None`, or a `thrown` flag where the source has already changed the editing state:
  - `'#'.repeat` with a negative count raises a `RangeError`;
  - indexing past the end of the cards and then reading a field of `undefined` raises a `TypeError`;
  - reading the type of an element past the end of a section's array in `splitParagraph` and `joinWithPreviousParagraph` raises a `TypeError`.
- **Cursor positions.** `At(n)` is the number handed to the editor focus service, which reads it as an editor position, not a text offset. The editor is taken to hold one paragraph, so its size is the text's UTF-16 length (`Doc.Utf16Length`, JavaScript's `length`) plus 2, and text offset `t` is position `t + 1`. `Doc.Landing` gives the text offset where the caret ends up, with `Start`, `End` and the clamp of a number into the range from 1 to the size minus 1. Its length argument is the UTF-16 length of the text the editor shows when the focus call runs, which may be the text before or after the edit.
- **Visitors.** The three concrete migration visitors only rewrite the node's `view` array, so a visitor is modelled as a rewrite `seq<ViewItem> -> seq<ViewItem>`.
- **The engine.** It is generic in the function that applies a step. The repository's registry instantiates it with the three steps above.

Navigation between cards is not symmetric. A heading whose section has an empty summary has no "next" target, yet the following card's heading leads back to it (`CardNavigation.EmptySummaryHeadingIsOneWay`). This is what the code does, and the model keeps it.

Where the code and its documentation disagree, the model follows the code:

- The read-mode toggle turns every state other than `expanded` into `expanded`, so `collapsed` becomes `expanded`. It also overwrites a migrated display record with the bare string `expanded`. Toggling twice therefore restores only `expanded` and `summary` cards (`CardUtils.ToggleSectionTwice`).
- The schema in `src/lib/model/collection.ts` still types a section's display state as a bare string, while the migrations produce a record. The model admits both shapes.
- The join's cursor position is logged under "## Findings".

## Model

| member | source | states |
|---|---|---|
| Seqs.FindIndex | src/lib/actions/collection/section.svelte.ts:26-28 | `findIndex`: the first index whose element satisfies the test, or -1 exactly when none does |
| Views.IndexOfKind | src/lib/view/collection/section-container/Card/cardUtils.ts:48-50 | the first view item of the given kind, or -1 exactly when no item has that kind |
| Collection.IndexOfNode | src/lib/actions/collection/section.svelte.ts:26-28 | `findIndex` by id: the first node with that id, or -1 exactly when none has it |
| Collection.IndexOfSection | src/lib/view/collection/section-container/Card/navigation.ts:23 | `findIndex` by id over a container's sections: the first match, or -1 exactly when none matches |
| Summary.CreateSummaryParagraph | src/lib/actions/content/summary.svelte.ts:8-17 | a valid empty paragraph with the fresh id, both timestamps `now`, and the single paragraph default view active |
| CollectionActions.SplitParagraph | src/lib/actions/collection.svelte.ts:3-38 | on a paragraph at `i`: it keeps the first text, a new paragraph with the second text and the same view follows it, the other items keep their order, and the section's timestamp is refreshed; on any other node the section is unchanged; an index outside the array throws (`thrown`), exactly when `i` is not in `0..length-1`; `animateNextChange` is cleared in every case |
| CollectionActions.AgreesWithFocusingSplit | src/lib/actions/collection.svelte.ts:10-37 | the older split throws on the same indices and otherwise produces the same section and editing state as the focusing split |
| ContainerActions.AddSectionToContainer | src/lib/actions/collection/section-container.svelte.ts:10-23 | with an index in `0..length` the section is at that index and removing it gives back the old children; otherwise it is appended; the timestamp is `now`, nothing else changes, and validity is kept |
| ContainerActions.CreateSectionContainer | src/lib/actions/collection/section-container.svelte.ts:30-51 | a valid empty container with the seven views in schema order, the card state `perRow 2, gap 16` without `multilevel`, and the default view active |
| ContainerActions.PlaceholderParagraph | src/lib/actions/collection/section.svelte.ts:281-290 | a valid paragraph with the given id and text |
| ContainerActions.NewSection | src/lib/actions/collection/section-container.svelte.ts:61-104 | the default section: heading "New Section" at the given level, the three section views with `expanded`, one summary and one child paragraph, and exactly the four fresh ids; valid when the level is at least 1 |
| ContainerActions.AddSection | src/lib/actions/collection/section-container.svelte.ts:60-105 | appends the default section at the given level and leaves every other field alone; the container's ids grow by exactly the four fresh ones; validity is kept for levels of at least 1 |
| ContainerActions.Adopt | src/lib/actions/collection/section.svelte.ts:195-196 | the siblings after a section become its last container's sections, or a new container's when its last child is not a container; nothing changes when there are no siblings |
| ContainerActions.MoveSiblingsToSection | src/lib/actions/collection/section.svelte.ts:195-196 | the container keeps the sections up to the named one, which adopts the rest; nothing changes when the id is absent |
| ContainerActions.RemoveSectionFromContainer | src/lib/actions/collection/section.svelte.ts:199-200 | removes the first section with the id and refreshes the timestamp; nothing changes when the id is absent |
| ContainerActions.AddSectionAfter | src/lib/actions/collection/section.svelte.ts:203-204 | inserts the section right after the first one with the given id, or appends it when there is none; the timestamp is `now` |
| SectionActions.MoveChildrenToSection | src/lib/actions/collection/section.svelte.ts:21-44 | the parent keeps its children up to the container and the target gains the rest, in order; nothing moves when the container is absent |
| SectionActions.JoinWithPreviousParagraph | src/lib/actions/collection/section.svelte.ts:56-89 | throws (`thrown`) exactly when the previous id is found before a current index past the end of the array; succeeds exactly when the previous id is set, found before the current index, and both nodes are paragraphs; then the previous paragraph holds both texts, the current one is removed, and focus goes to the join point, the editor position after the previous text (its UTF-16 length plus one); otherwise nothing changes |
| SectionActions.JoinWithPreviousParagraphAsWritten | src/lib/actions/collection/section.svelte.ts:84-86 | the same edit, success and error cases, but the number passed as the cursor position is the UTF-16 length of the joined text |
| SectionActions.AsWrittenLanding | src/lib/actions/collection/section.svelte.ts:84-86 | the source's number is the join point's position plus the appended text's length minus one; in an editor showing the joined text the caret lands one code unit before its end, in one still showing the previous text it lands at the join point when text was appended, and with nothing appended it lands one code unit before the join point in both |
| SectionActions.JoinLandsAtJoinPoint | src/lib/actions/collection/section.svelte.ts:84-86 | the corrected join's caret lands exactly at the end of the previous text, whether the editor shows the previous text or the joined one |
| SectionActions.JoinPointLanding | src/lib/services/editorFocus.ts:72-79 | the position after a text lands at the end of that text, also in an editor showing a longer text that starts with it |
| SectionActions.JoinedLengthLanding | src/lib/services/editorFocus.ts:72-79 | where a joined text's length lands when read as a position, in an editor showing either the first part or the joined text |
| SectionActions.JoinEmptyCursorBeforeEnd | src/lib/actions/collection/section.svelte.ts:84-86 | joining `ab` with an empty paragraph: the source passes 2, which lands between `a` and `b`; the corrected 3 lands after `b` |
| SectionActions.JoinOfAdjacent | src/lib/actions/collection/section.svelte.ts:56-89 | joining the paragraph right after one found by id concatenates their texts, removes the later one, and focuses the position after the earlier text; it does not throw |
| Doc.Landing | src/lib/services/editorFocus.ts:72-79 | the caret's text offset in an editor showing a text of the given length: 0 for `start`, the end for `end`, `n - 1` for a number `n` from 1 to the length plus 1, and clamped to the start or the end outside that range |
| Doc.Utf16Length | src/lib/actions/collection/section.svelte.ts:85 | the `length` of a string counts one or two code units per character, and equals the character count when every character is in the Basic Multilingual Plane |
| Doc.Utf16LengthAppend | src/lib/actions/collection/section.svelte.ts:77-85 | the code units of joined text are those of its two parts |
| SectionActions.JoinCursorPastJoinPoint | src/lib/actions/collection/section.svelte.ts:84-86 | joining `ab` and `cd`: the source passes 4, which lands before `d` in an editor showing `abcd` and at the join point only in one still showing `ab`; the corrected 3 lands at the join point in both |
| SectionActions.SplitTail | src/lib/actions/collection/section.svelte.ts:110-118 | the new paragraph has the fresh id and the second text, copies the view and active view, and is valid when the original is |
| SectionActions.SplitParagraph | src/lib/actions/collection/section.svelte.ts:91-130 | on a paragraph at `i`: it keeps the first text and the tail follows it, the other items are unchanged, and focus goes to the new paragraph; any other node is unchanged; an index outside the array throws (`thrown`), exactly when `i` is not in `0..length-1`; `animateNextChange` is cleared in every case; validity is kept |
| SectionActions.EnterInHeadingUndo | src/lib/actions/collection/section.svelte.ts:269-312 | the blank paragraph is the whole edit: dropping the first element of the list that grew and restoring the modification time gives back the section |
| SectionActions.HandleEnterInHeading | src/lib/actions/collection/section.svelte.ts:269-312 | handled exactly when the active view is the section default in `expanded` or `summary`; a blank paragraph is then prepended to `children` or to `summary` respectively and focused at its start; otherwise nothing changes; a valid section stays valid |
| SectionActions.SplitOffSection | src/lib/actions/collection/section.svelte.ts:334-367 | the new section's heading takes the paragraph's id, text and creation time at the old section's level, and its children are the nodes after the paragraph; valid when the old section is |
| SectionActions.SplitSection | src/lib/actions/collection/section.svelte.ts:314-376 | no new section exactly when the id is missing or not a paragraph; otherwise the old children are split into kept, paragraph and moved, and the new section is exactly the one `SplitOffSection` builds from that paragraph (new id, heading with the paragraph's id, text and creation time at the section's level, the moved children, a placeholder summary); `animateNextChange` is cleared |
| SectionActions.SplitThenJoin | src/lib/actions/collection/section.svelte.ts:56-130 | splitting a paragraph and joining the two halves gives back one paragraph holding both texts, with the cursor at the split point (the position after the first half, its UTF-16 length plus one); neither step throws |
| SectionActions.JoinThenSplit | src/lib/actions/collection/section.svelte.ts:56-130 | joining two adjacent paragraphs and splitting at the character after which the cursor position lies restores both texts and every other item; neither step throws |
| LevelActions.ContainerChildren | src/lib/actions/collection/section.svelte.ts:136 | the container children of a node list, each taken from the list |
| LevelActions.ContainerChildrenEmpty | src/lib/actions/collection/section.svelte.ts:175-179 | the container filter is empty exactly when no child is a container |
| LevelActions.WithoutIds | src/lib/actions/collection/section.svelte.ts:148-149 | the filter keeps only nodes of the list whose id is not excluded |
| LevelActions.WithoutContainerIds | src/lib/actions/collection/section.svelte.ts:148-149 | filtering by the containers' ids removes exactly the containers when no other child shares a container's id |
| LevelActions.NonContainersHaveNone | src/lib/actions/collection/section.svelte.ts:149 | after the filter no container child is left |
| LevelActions.SpliceSections | src/lib/actions/collection/section.svelte.ts:137-146 | the splice loop places the containers' sections, flattened in order, right after the given index |
| LevelActions.AdjustChildren | src/lib/actions/collection/section.svelte.ts:134-150 | the section loses its container children and their sections follow it in the new container, in order; nothing else in either changes |
| LevelActions.KeptHasNoContainer | src/lib/actions/collection/section.svelte.ts:148-149 | filtering out the ids of the container children leaves no container among the children |
| LevelActions.KeptAreNonContainers | src/lib/actions/collection/section.svelte.ts:148-149 | when no other child shares a container's id, the filter keeps exactly the children that are not containers, in order |
| LevelActions.Destination | src/lib/actions/collection/section.svelte.ts:236-251 | the preceding section's last child when that is a container the schema accepts, otherwise a new container |
| LevelActions.Before | src/lib/actions/collection/section.svelte.ts:236-251 | the preceding section's children without its trailing container, if that container is the one reused |
| LevelActions.MigratedContainerNotReused | src/lib/actions/collection/section.svelte.ts:236-251 | a trailing container holding a section whose display state is a migrated record fails the schema check, so a new container is made and the old one stays in place |
| LevelActions.HandleHeadingLevelIncrease | src/lib/actions/collection/section.svelte.ts:222-260 | refused exactly when no preceding section exists; otherwise the level goes up by one, and the section ends as the last of the destination's sections, followed by its own containers' sections; it keeps no container child |
| LevelActions.Detach | src/lib/actions/collection/section.svelte.ts:195-200 | the container keeps the sections before this one, and this one adopts the sections after it |
| LevelActions.Rehome | src/lib/actions/collection/section.svelte.ts:199-201 | the parent keeps its children up to the shortened container; what followed moves to the section |
| LevelActions.Reinsert | src/lib/actions/collection/section.svelte.ts:203-204 | the grandparent holds the updated parent and, right after it, the section |
| LevelActions.Lift | src/lib/actions/collection/section.svelte.ts:195-209 | steps 1 and 2 and the level change: the parent keeps its id, and its children up to the section's container, which keeps only the sections before this one |
| LevelActions.LiftRaisesSection | src/lib/actions/collection/section.svelte.ts:195-209 | the section is one level up, with its own children, then the sections after it in a new container, then what followed its container in the parent; nothing else of it changes |
| LevelActions.AdoptsInNewContainer | src/lib/actions/collection/section.svelte.ts:174-179 | a section with no container child (the only kind a decrease accepts) puts the sections it adopts in a new container after its children |
| LevelActions.Lower | src/lib/actions/collection/section.svelte.ts:195-211 | the grandparent lists the parent and then the section, both as after the lift, and nothing else in it changes |
| LevelActions.HandleHeadingLevelDecrease | src/lib/actions/collection/section.svelte.ts:163-212 | refused exactly at level 1 or below, with a container child, with a missing lookup, or with the parent absent from the grandparent; otherwise the three-step restructuring of `Lower` |
| Traversal.WalkNode | src/lib/migrations/utils.ts:29-58 | the walked node keeps its id and kind |
| Traversal.WalkSection | src/lib/migrations/utils.ts:29-58 | the walked section keeps its id and heading |
| Traversal.WalkNodes | src/lib/migrations/utils.ts:46-50 | the walked list has the same length and ids |
| Traversal.WalkSections | src/lib/migrations/utils.ts:46-50 | the walked sections have the same length and ids |
| Traversal.TraverseDocument | src/lib/migrations/utils.ts:16-24 | every field but the content is returned as it was; the content keeps its id |
| Traversal.PreOrder | src/lib/migrations/utils.ts:29-58 | the reference order starts at the node itself and never lists a heading |
| Traversal.FiredIdsConcat | src/lib/migrations/utils.ts:45-57 | the visitors fired over two listings are those of each, in order |
| Traversal.NodeFiresInPreOrder | src/lib/migrations/utils.ts:29-58 | visitors fire at exactly the nodes of the pre-order listing whose kind has one, in that order |
| Traversal.SectionFiresInPreOrder | src/lib/migrations/utils.ts:29-58 | the same for a section: the node, then `children`, then `summary` |
| Traversal.NodesFireInPreOrder | src/lib/migrations/utils.ts:46-50 | the same for a list of nodes |
| Traversal.SectionsFireInPreOrder | src/lib/migrations/utils.ts:46-50 | the same for a container's sections |
| Traversal.NodeSkeletonKept | src/lib/migrations/utils.ts:29-58 | a walk changes no node's kind, id or position |
| Traversal.SectionSkeletonKept | src/lib/migrations/utils.ts:29-58 | the same for a section |
| Traversal.NodesSkeletonKept | src/lib/migrations/utils.ts:46-50 | the same for a list of nodes |
| Traversal.SectionsSkeletonKept | src/lib/migrations/utils.ts:46-50 | the same for a container's sections |
| Traversal.NodeUntouched | src/lib/migrations/utils.ts:32-43 | with no visitor, the walk returns the node and fires nothing |
| Traversal.SectionUntouched | src/lib/migrations/utils.ts:32-43 | the same for a section |
| Traversal.NodesUntouched | src/lib/migrations/utils.ts:46-50 | the same for a list of nodes |
| Traversal.SectionsUntouched | src/lib/migrations/utils.ts:46-50 | the same for a container's sections |
| Traversal.DocumentUntouched | src/lib/migrations/utils.ts:16-24 | with no visitor, the document comes back unchanged |
| Traversal.NodeIgnoresHeadingVisitor | src/lib/migrations/utils.ts:39-40 | the heading visitor never fires, because headings sit in neither `children` nor `summary` |
| Traversal.SectionIgnoresHeadingVisitor | src/lib/migrations/utils.ts:39-40 | the same for a section |
| Traversal.NodesIgnoreHeadingVisitor | src/lib/migrations/utils.ts:39-40 | the same for a list of nodes |
| Traversal.SectionsIgnoreHeadingVisitor | src/lib/migrations/utils.ts:39-40 | the same for a container's sections |
| Traversal.VisitTwice | src/lib/migrations/utils.ts:33-43 | an idempotent visitor applied twice equals applying it once |
| Traversal.NodeWalkIdempotent | src/lib/migrations/utils.ts:29-58 | walking twice with idempotent visitors equals walking once |
| Traversal.SectionWalkIdempotent | src/lib/migrations/utils.ts:29-58 | the same for a section |
| Traversal.NodesWalkIdempotent | src/lib/migrations/utils.ts:46-50 | the same for a list of nodes |
| Traversal.SectionsWalkIdempotent | src/lib/migrations/utils.ts:46-50 | the same for a container's sections |
| Traversal.DocumentWalkIdempotent | src/lib/migrations/utils.ts:16-24 | the same for a whole document |
| Traversal.NodeOnlyViewsChange | src/lib/migrations/utils.ts:29-58 | with every view array emptied, the walked node equals the original: the walk changes views and nothing else |
| Traversal.SectionOnlyViewsChange | src/lib/migrations/utils.ts:29-58 | the same for a section; its heading, view included, is untouched |
| Traversal.NodesOnlyViewsChange | src/lib/migrations/utils.ts:46-50 | the same for a list of nodes |
| Traversal.SectionsOnlyViewsChange | src/lib/migrations/utils.ts:46-50 | the same for a container's sections |
| Traversal.Rewritten | src/lib/migrations/utils.ts:33-43 | each listed view array becomes the visitor of its node's type applied to it, or stays when that type has none; length and types are kept |
| Traversal.RewrittenConcat | src/lib/migrations/utils.ts:45-57 | rewriting two listings is rewriting each, in order |
| Traversal.NodeViewsRewritten | src/lib/migrations/utils.ts:29-58 | the view arrays of the walked node, in pre-order, are the originals each rewritten by its own type's visitor |
| Traversal.SectionViewsRewritten | src/lib/migrations/utils.ts:29-58 | the same for a section: its own view, then its children's, then its summary's |
| Traversal.NodesViewsRewritten | src/lib/migrations/utils.ts:46-50 | the same for a list of nodes |
| Traversal.SectionsViewsRewritten | src/lib/migrations/utils.ts:46-50 | the same for a container's sections |
| Traversal.DocumentRewritesViewsOnly | src/lib/migrations/utils.ts:16-24 | a traversal changes only the content tree's view arrays, each by its own type's visitor; the other document fields are kept |
| Migrations.MigrateRewritesTargetViews | src/lib/migrations/collection/section.ts:7-24 | a step changes only the view arrays of its target node type (sections for versions 1 and 3, containers for version 2), each by that step's rewrite; every other view and field is kept |
| Migrations.InsertionPoint | src/lib/migrations/index.ts:17 | the first position whose version is above the new step's: everything before it is at or below |
| Migrations.InsertStep | src/lib/migrations/index.ts:17 | one insertion pass adds exactly one element |
| Migrations.InsertStepPlaces | src/lib/migrations/index.ts:15-17 | the pass places the step after every step of equal or lower version, which makes the sort stable |
| Migrations.InsertStepKeepsOrder | src/lib/migrations/index.ts:17 | inserting into a sorted registry keeps it sorted |
| Migrations.InsertStepPermutes | src/lib/migrations/index.ts:15-17 | the pass adds exactly the new step to the multiset |
| Migrations.SortStepsOrders | src/lib/migrations/index.ts:17 | the sort produces an ascending registry |
| Migrations.SortStepsPermutes | src/lib/migrations/index.ts:17 | the sort is a permutation |
| Migrations.InsertStepAfterAll | src/lib/migrations/index.ts:15-17 | a step whose version is at least every registered one goes at the end |
| Migrations.SortStepsKeepsSorted | src/lib/migrations/index.ts:17 | sorting an already sorted registry changes nothing |
| Migrations.RegisterStep | src/lib/migrations/index.ts:14-18 | `registerStep`: the result is sorted and is the old steps plus the new one; on a sorted registry the new step lands after all steps of equal or lower version |
| Migrations.RegisterIntoEmpty | src/lib/migrations/index.ts:14-18 | registering into an empty registry gives that one step |
| Migrations.RegisterAfterOne | src/lib/migrations/index.ts:14-18 | a step of equal or higher version goes after the one step already registered |
| Migrations.RegisterBetween | src/lib/migrations/index.ts:14-18 | a step between two registered versions goes between them |
| Migrations.RegisterThree | src/lib/migrations/index.ts:14-18 | registering versions in the order low, high, middle yields low, middle, high |
| Migrations.Applicable | src/lib/migrations/index.ts:26-28 | the filter keeps only steps above the current version; it is empty exactly when no step is above |
| Migrations.RunSteps | src/lib/migrations/index.ts:37-41 | running no step returns the document; otherwise the version is the last step's |
| Migrations.MigrateDocument | src/lib/migrations/index.ts:21-44 | with no applicable step the document comes back as it is; otherwise the version becomes the last applicable step's and rises; it never goes down |
| Migrations.LastApplicableIsLast | src/lib/migrations/index.ts:26-28 | on a sorted registry the last applicable step is the registry's last |
| Migrations.ApplicableMembers | src/lib/migrations/index.ts:26-28 | a step is applicable exactly when it is registered and above the current version |
| Migrations.MigrationReachesLatest | src/lib/migrations/index.ts:21-44 | a migration that runs anything ends at the highest registered version |
| Migrations.EndsAtLastApplicable | src/lib/migrations/index.ts:37-41 | the migrated version is the last applicable step's |
| Migrations.MigrateIdempotent | src/lib/migrations/index.ts:21-44 | migrating a migrated document changes nothing |
| Migrations.RunStepsKeepsDocumentFields | src/lib/migrations/index.ts:35-41 | the steps keep the id, timestamps and editing state |
| Migrations.RegisteredInVersionOrder | src/lib/migrations/index.ts:53-57 | the repository registers versions 1 and 3 first, then 2, and ends with the steps in order 1, 2, 3 |
| Migrations.MigrateDocumentIfNeeded | src/lib/migrations/index.ts:60-62 | the id, timestamps and editing state are kept, and the version never goes down |
| Migrations.MigrateDocumentIfNeededIdempotent | src/lib/migrations/index.ts:60-62 | running the entry point twice equals running it once |
| Migrations.RunsAllThree | src/lib/migrations/index.ts:37-41 | with three steps all above the version, all three run in order and each records its version |
| Migrations.RunsLastTwoOfThree | src/lib/migrations/index.ts:26-41 | with only the last two above the version, those two run in order |
| Migrations.RunsLastOfThree | src/lib/migrations/index.ts:26-41 | with only the last above the version, only it runs |
| Migrations.RunsNoneOfThree | src/lib/migrations/index.ts:26-32 | with none above the version, the document is returned as it is |
| Migrations.MigrateFromVersionZero | src/lib/migrations/index.ts:21-62 | a version-0 document gets the three rewrites in order 1, 2, 3 and ends at version 3 |
| Migrations.MigrateFromVersionOne | src/lib/migrations/index.ts:21-62 | a version-1 document gets the card and animation rewrites and ends at version 3 |
| Migrations.MigrateFromVersionTwo | src/lib/migrations/index.ts:21-62 | a version-2 document gets only the animation rewrite and ends at version 3 |
| Migrations.MigrateFromVersionThree | src/lib/migrations/index.ts:26-32 | a document at version 3 or above is returned as it is |
| SectionMigrations.UpdateItemViewState | src/lib/migrations/collection/section.ts:32-44 | a section default item with a string state gets the record with variation `default`; a record with a missing or empty variation gets `default`; every other item is unchanged |
| SectionMigrations.UpdateSectionViewState | src/lib/migrations/collection/section.ts:27-48 | every item keeps its position and kind; afterwards every section default item that held a string or a record has a variation |
| SectionMigrations.UpdateSectionViewStateIdempotent | src/lib/migrations/collection/section.ts:27-48 | the version-1 rewrite applied twice equals applying it once |
| SectionMigrations.AddItemAnimation | src/lib/migrations/collection/section.ts:56-61 | a section default record gets animation `none`; strings and other items are unchanged |
| SectionMigrations.AddAnimationProperty | src/lib/migrations/collection/section.ts:51-64 | every item keeps its position and kind and goes through the item rewrite |
| SectionMigrations.AddAnimationPropertyIdempotent | src/lib/migrations/collection/section.ts:51-64 | the version-3 rewrite applied twice equals applying it once |
| SectionMigrations.SectionStepsComposed | src/lib/migrations/collection/section.ts:7-24 | after both section steps, a default item that held a string or a record has a variation and animation `none` |
| ContainerMigrations.UpdateCardItem | src/lib/migrations/collection/section-container.ts:22-27 | a card state without `multilevel` gets `false` and keeps `perRow` and `gap`; a present value and every other item are kept |
| ContainerMigrations.UpdateSectionContainerCardViewState | src/lib/migrations/collection/section-container.ts:17-30 | every item keeps its position and kind, and items that are not cards are unchanged |
| ContainerMigrations.UpdateCardViewStateIdempotent | src/lib/migrations/collection/section-container.ts:17-30 | the version-2 rewrite applied twice equals applying it once |
| Extract.HeadingMarkers | src/lib/extract/section.ts:18 | `'#'.repeat`: fails exactly on a negative count, otherwise gives that many `#` |
| Extract.ProcessContent | src/lib/extract/shared.ts:13-40 | empty content gives the empty text, and content at level -1 or above never fails |
| Extract.NodePart | src/lib/extract/shared.ts:16-36 | a paragraph always renders; at level -1 or above no node fails |
| Extract.SectionsPart | src/lib/extract/shared.ts:27-30 | a container's sections render without error at level 0 or above |
| Extract.ExtractMarkdownSection | src/lib/extract/section.ts:10-27 | fails exactly at a negative level; otherwise the text opens with `level` markers, a space, the heading text and a blank line |
| Extract.ExtractMarkdownSectionContainer | src/lib/extract/section-container.ts:10-15 | an empty container gives the empty text, and no level of 0 or above fails |
| Extract.AsNodes | src/lib/extract/section-container.ts:14 | a container's sections seen as nodes, one for one |
| Extract.CatAssoc | src/lib/extract/shared.ts:14-39 | appending parts is associative, errors included |
| Extract.ProcessContentConcat | src/lib/extract/shared.ts:16-37 | extracting concatenated content concatenates the extractions |
| Extract.SummaryNotEmitted | src/lib/extract/section.ts:14-26 | a section's summary never affects its markdown |
| Extract.HeadingLevelIgnored | src/lib/extract/section.ts:18-19 | the heading's stored level never affects the markdown |
| Extract.ChildlessSectionIsHeadingLine | src/lib/extract/section.ts:18-24 | a section without children is exactly its heading line |
| Extract.UntitledIsTransparent | src/lib/extract/shared.ts:31-35 | an untitled section renders as its children at the same level |
| Extract.AsNodesRendersSections | src/lib/extract/section-container.ts:14 | a container's sections as content, one level up, render as the sections at the level |
| Extract.ContainerRendersSectionsAtLevel | src/lib/extract/section-container.ts:10-15 | a container's sections come out at the requested level |
| Extract.NestedContainerAsExtracted | src/lib/extract/shared.ts:23-30 | a container nested in content renders as it would alone, one level deeper |
| Extract.RenderConcat | src/lib/extract/shared.ts:16-37 | rendering concatenated outlines concatenates the renderings |
| Extract.ContentOutline | src/lib/extract/shared.ts:13-40 | in the reference outline of content at a depth, no title is shallower than that depth |
| Extract.NodeOutline | src/lib/extract/shared.ts:16-36 | the same for one node |
| Extract.SectionsOutline | src/lib/extract/shared.ts:27-30 | the same for a container's sections |
| Extract.SectionOutline | src/lib/extract/section.ts:17-24 | a section's outline opens with its title at the depth, and every later title is deeper |
| Extract.ContentMatchesOutline | src/lib/extract/shared.ts:13-40 | extraction at any level from -1 up is exactly the rendering of the outline one deeper |
| Extract.NodeMatchesOutline | src/lib/extract/shared.ts:16-36 | the same for one node |
| Extract.SectionsMatchOutline | src/lib/extract/shared.ts:27-30 | the same for a container's sections |
| Extract.SectionMatchesOutline | src/lib/extract/section.ts:10-27 | the same for a section |
| CardNavigation.LastEditable | src/lib/view/collection/section-container/Card/navigation.ts:61-67 | a card's last editable block: its last summary item, or its heading when the summary is empty |
| CardNavigation.GetPrevEditableInSummary | src/lib/view/collection/section-container/Card/navigation.ts:5-19 | no result exactly when the id is not in the summary; the first item leads to the heading and a later item to its predecessor |
| CardNavigation.GetNextSection | src/lib/view/collection/section-container/Card/navigation.ts:22-28 | the section after the found one; none when it is absent or last |
| CardNavigation.GetPrevSection | src/lib/view/collection/section-container/Card/navigation.ts:31-40 | the section before the found one; none when it is absent or first |
| CardNavigation.GetNextEditableAcrossSections | src/lib/view/collection/section-container/Card/navigation.ts:43-52 | the next section's heading, exactly when there is a next section |
| CardNavigation.GetPrevEditableAcrossSections | src/lib/view/collection/section-container/Card/navigation.ts:55-70 | the previous card's last editable block, exactly when there is a previous section |
| CardNavigation.HeadingNext | src/lib/view/collection/section-container/Card/navigation.ts:82-87 | from a heading: the first summary item, exactly when the summary is not empty |
| CardNavigation.HeadingPrev | src/lib/view/collection/section-container/Card/navigation.ts:88-107 | from a heading: nothing on the first card, and a result only when the section is found after the first position |
| CardNavigation.SummaryNext | src/lib/view/collection/section-container/Card/navigation.ts:121-143 | from a summary block: the next block of the summary; after the last block, the next card's heading when that id is set; otherwise nothing |
| CardNavigation.SummaryPrev | src/lib/view/collection/section-container/Card/navigation.ts:144-167 | from a summary block: a set in-summary predecessor wins; failing that, nothing on the first card |
| CardNavigation.NextPrevSectionInverse | src/lib/view/collection/section-container/Card/navigation.ts:22-40 | with distinct ids, previous-of-next and next-of-previous are the section itself |
| CardNavigation.HeadingPrevIsAcrossSections | src/lib/view/collection/section-container/Card/navigation.ts:88-107 | off the first card, a heading's "previous" is the shared across-sections lookup |
| CardNavigation.SummaryPrevFallsBackAcrossSections | src/lib/view/collection/section-container/Card/navigation.ts:144-167 | off the first card, a summary block with no set predecessor in the summary falls back to the across-sections lookup |
| CardNavigation.SummaryStepsInverse | src/lib/view/collection/section-container/Card/navigation.ts:121-147 | between adjacent summary blocks, "next" and "previous" undo each other |
| CardNavigation.HeadingFirstSummaryInverse | src/lib/view/collection/section-container/Card/navigation.ts:82-147 | a heading and its first summary block lead to each other |
| CardNavigation.LastSummaryNextIsNextHeading | src/lib/view/collection/section-container/Card/navigation.ts:121-143 | the last summary block of a card leads to the next card's heading |
| CardNavigation.NextHeadingPrevIsLastBlock | src/lib/view/collection/section-container/Card/navigation.ts:88-107 | the next card's heading leads back to this card's last editable block |
| CardNavigation.CardBoundaryRoundTrip | src/lib/view/collection/section-container/Card/navigation.ts:121-143 | across a card boundary with a non-empty summary, "next" and "previous" undo each other |
| CardNavigation.EmptySummaryHeadingIsOneWay | src/lib/view/collection/section-container/Card/navigation.ts:82-107 | a heading with an empty summary has no "next", while the next card's heading leads back to it |
| CardUtils.ToggledState | src/lib/view/collection/section-container/Card/cardUtils.ts:54 | `expanded` becomes `summary`, and every other state becomes `expanded` |
| CardUtils.ToggleSection | src/lib/view/collection/section-container/Card/cardUtils.ts:48-54 | only the first section default item changes, to the toggled state; a card without one is unchanged |
| CardUtils.HandleReadModeToggle | src/lib/view/collection/section-container/Card/cardUtils.ts:41-56 | fails exactly when the index names no card; a card without a default view changes nothing; otherwise only that card's default item is toggled and the next change is animated |
| CardUtils.ToggleOnce | src/lib/view/collection/section-container/Card/cardUtils.ts:48-54 | one toggle keeps the default item in place and gives it the toggled state |
| CardUtils.ToggleSectionTwice | src/lib/view/collection/section-container/Card/cardUtils.ts:54 | two toggles restore an `expanded` or `summary` card; any other state ends at `summary` |
| CardUtils.ToggleTwice | src/lib/view/collection/section-container/Card/cardUtils.ts:41-56 | toggling an `expanded` or `summary` card twice gives back the container, with the animation flag set |
| CardUtils.HandleAddSection | src/lib/view/collection/section-container/Card/cardUtils.ts:59-65 | fails exactly on an empty container; otherwise appends a default section at the first card's heading level and adds exactly the fresh ids |
| CardUtils.AddSectionKeepsCardsUniform | src/lib/view/collection/section-container/Card/cardUtils.ts:59-65 | cards that share one heading level still do after the add, and a valid container stays valid |

## Left out

- Rendering, ProseMirror key handling, `EditorFocusService` and `tick()`: focus requests are returned as values, and `await tick()` is not modelled. Of the focus service only the caret placement is modelled (`Doc.Landing`); its lookup of the editor, the DOM checks, the `focusedContentId` update and `view.focus()` are not. The editor's document is taken to be a single paragraph of the given text, and whether the editor has taken in the new text before the focus call is left open: the length `Doc.Landing` is given may be that of either text.
- `console.log` and `console.error` calls, and the `onUnmount` callbacks of the card handlers, which are foreign UI calls.
- The lookup callbacks of `handleHeadingLevelDecrease` and `handleHeadingLevelIncrease`: their results are parameters (`DecreaseEnv`, `preceding`), and the preconditions say they are consistent with the tree.
- `section.svelte.ts` imports `moveSiblingsToSection` and `addSectionAfter` from `section-container.svelte.ts`, which does not define them. `removeSectionFromContainer` is a callback the caller passes in. The behaviour of all three is taken from the call sites and their comments.
- The ProseMirror level plugin, which adjusts the editor's own heading level around these handlers, is not part of this model.
- Aliasing: the source mutates shared objects in place. The model returns new values, so a node reachable from two places is not modelled.
- `null` or `undefined` nodes inside arrays, which the traversal skips, are not modelled.
- Documents whose JSON has fields outside the schema, and non-integer or infinite heading levels, are not modelled; levels are integers.
- The document title and slug, and the serialised storage format, are not part of this model.
- `sectionContainer.safeParse(lastChild).success` is modelled by `ValidContainer` on a trailing container node. The schema's datetime format checks on `created` and `last_modified` are not modelled, because timestamps are abstract.
- ContainerActions.AddSectionToContainer: the index is an `Option<int>`, so a fractional index is not modelled; the source's `splice` would truncate it and insert there.
- `src/lib/migrations/types.ts` declares a different `Migration` interface from the one the registry uses. The registry's own step shape (target version plus rewrite) is modelled.
- The cards' `addSection` call passes a third argument, `"summary"`, which `addSection` ignores. The model ignores it too.
- `if (nextSection)` in `createSummaryNavProps` always holds once the index is in range, so it has no separate branch.
- SectionMigrations.UpdateItemViewState: a record state of any other shape on a section default item is left unchanged, while the source would add a `variation` to any object. Such a state does not occur in documents of any version. A `null` state, which passes the `typeof` object test and on which the source then throws, is not modelled.
- SectionMigrations.AddItemAnimation: a record state of any other shape on a section default item is left unchanged, while the source would add `animation` to any object. A `null` state, on which the source throws, is not modelled.
- ContainerMigrations.UpdateCardItem: only the card state shape gets `multilevel`. In the source another object state on a card item would also get `multilevel: false`, and a non-empty string state makes the `in` test throw, since `in` needs an object on its right. Card items carry neither, so neither is modelled: such items are returned unchanged.
- Migrations.MigrateDocument: the shallow copy `{ ...document }` is not modelled separately from the deep copy of each step, because the model has no shared mutable state.

## Findings

| source | as written | input that shows it | evidently intended | confidence | as-written member | corrected member |
|---|---|---|---|---|---|---|
| src/lib/actions/collection/section.svelte.ts:84-86 | the number passed as the cursor position is `prevBlock.content.length`, read after `prevBlock.content` has been set to the joined text, so it is the joined text's length; the focus service reads it as an editor position, where text offset `t` is position `t + 1` (src/lib/services/editorFocus.ts:72-79) | backspace at the start of an empty paragraph after `ab` passes 2, which lands between `a` and `b` whether the editor shows the old or the new text; joining `ab` and `cd` passes 4, which lands before `d` once the editor shows `abcd`, and at the join point only while it still shows `ab` | the caret lands at the join point, as the comment "Focus previous block at join point" says: position 3 here, the previous text's length before the join plus one, which lands there in both cases | not executed | SectionActions.JoinWithPreviousParagraphAsWritten (shown by SectionActions.JoinEmptyCursorBeforeEnd, SectionActions.JoinCursorPastJoinPoint and SectionActions.AsWrittenLanding) | SectionActions.JoinWithPreviousParagraph (with SectionActions.JoinLandsAtJoinPoint) |

=== FILE: card_navigation.dfy ===
/** Arrow-key navigation between the editable blocks of a card container:
    each card is a section's heading followed by its summary items, and
    the cards follow the container's order. Every function answers "which
    block id gets the focus next", `None` being the source's `null`. The
    key handler moves only on an id that is neither null nor empty, which
    `Truthy` names. */
module CardNavigation {
  import opened Wrappers
  import opened Content
  import opened Collection

  /** The key handler's `if (id)`: present and not the empty string. */
  predicate Truthy(o: Option<Id>) {
    o.Some? && o.value != ""
  }

  /** No two sections of the sequence share an id. */
  predicate DistinctSectionIds(ss: seq<Section>) {
    forall i, j :: 0 <= i < j < |ss| ==> ss[i].id != ss[j].id
  }

  /** No two nodes of the sequence share an id. */
  predicate DistinctNodeIds(ns: seq<Node>) {
    forall i, j :: 0 <= i < j < |ns| ==> ns[i].Id() != ns[j].Id()
  }

  lemma SectionIndexOfDistinct(ss: seq<Section>, k: nat)
    requires DistinctSectionIds(ss) && k < |ss|
    ensures IndexOfSection(ss, ss[k].id) == k
  {
  }

  lemma NodeIndexOfDistinct(ns: seq<Node>, k: nat)
    requires DistinctNodeIds(ns) && k < |ns|
    ensures IndexOfNode(ns, ns[k].Id()) == k
  {
  }

  /** The last block of a card: its last summary item, or its heading
      when the summary is empty. */
  function LastEditable(s: Section): (r: Id)
    ensures s.summary == [] ==> r == s.heading.id
    ensures s.summary != [] ==> r == s.summary[|s.summary| - 1].Id()
  {
    if |s.summary| > 0 then s.summary[|s.summary| - 1].Id() else s.heading.id
  }

  /** `getPrevEditableInSummary`: the summary item before the first one
      with the id, the heading when that is the first item, and `None`
      when no item has the id. */
  function GetPrevEditableInSummary(s: Section, contentId: Id): (r: Option<Id>)
    ensures r.None? <==> forall j :: 0 <= j < |s.summary| ==> s.summary[j].Id() != contentId
    ensures |s.summary| > 0 && s.summary[0].Id() == contentId ==> r == Some(s.heading.id)
    ensures var i := IndexOfNode(s.summary, contentId);
            i > 0 ==> r == Some(s.summary[i - 1].Id())
  {
    var index := IndexOfNode(s.summary, contentId);
    if index > 0 then Some(s.summary[index - 1].Id())
    else if index == 0 then Some(s.heading.id)
    else None
  }

  /** `getNextSection`: the section after the first one with the id;
      `None` when it is the last or absent. */
  function GetNextSection(c: SectionContainer, currentSectionId: Id): (r: Option<Section>)
    ensures var i := IndexOfSection(c.children, currentSectionId);
            && (r.Some? <==> 0 <= i < |c.children| - 1)
            && (r.Some? ==> r.value == c.children[i + 1])
  {
    var index := IndexOfSection(c.children, currentSectionId);
    if index >= 0 && index < |c.children| - 1 then Some(c.children[index + 1]) else None
  }

  /** `getPrevSection`: the section before the first one with the id;
      `None` when it is the first or absent. */
  function GetPrevSection(c: SectionContainer, currentSectionId: Id): (r: Option<Section>)
    ensures var i := IndexOfSection(c.children, currentSectionId);
            && (r.Some? <==> i > 0)
            && (r.Some? ==> r.value == c.children[i - 1])
  {
    var index := IndexOfSection(c.children, currentSectionId);
    if index > 0 then Some(c.children[index - 1]) else None
  }

  /** `getNextEditableAcrossSections`: the heading of the next card. */
  function GetNextEditableAcrossSections(c: SectionContainer, currentSectionId: Id): (r: Option<Id>)
    ensures r.Some? <==> GetNextSection(c, currentSectionId).Some?
    ensures r.Some? ==> r.value == GetNextSection(c, currentSectionId).value.heading.id
  {
    var next := GetNextSection(c, currentSectionId);
    if next.Some? then Some(next.value.heading.id) else None
  }

  /** `getPrevEditableAcrossSections`: the last block of the previous card. */
  function GetPrevEditableAcrossSections(c: SectionContainer, currentSectionId: Id): (r: Option<Id>)
    ensures r.Some? <==> GetPrevSection(c, currentSectionId).Some?
    ensures r.Some? ==> r.value == LastEditable(GetPrevSection(c, currentSectionId).value)
  {
    var prev := GetPrevSection(c, currentSectionId);
    if prev.Some? then Some(LastEditable(prev.value)) else None
  }

  // ---------------------------------------------------------------------
  // The navigation closures of a card's heading and summary items

  /** Heading, next: the first summary item; `None` with an empty summary. */
  function HeadingNext(s: Section): (r: Option<Id>)
    ensures r.Some? <==> s.summary != []
    ensures r.Some? ==> r.value == s.summary[0].Id()
  {
    if |s.summary| > 0 then Some(s.summary[0].Id()) else None
  }

  /** Heading, previous: `None` for the card rendered first; otherwise
      the last block of the card before the section's own position. */
  function HeadingPrev(s: Section, c: SectionContainer, sectionIndex: int): (r: Option<Id>)
    ensures sectionIndex == 0 ==> r.None?
    ensures r.Some? ==> IndexOfSection(c.children, s.id) > 0
  {
    if sectionIndex == 0 then None
    else
      var index := IndexOfSection(c.children, s.id);
      if index > 0 then Some(LastEditable(c.children[index - 1])) else None
  }

  /** Summary item, next: the following summary item; past the last one
      the heading of the card after `sectionIndex`, unless that heading's
      id is empty; otherwise `None`. */
  function SummaryNext(s: Section, c: SectionContainer, contentId: Id, sectionIndex: int): (r: Option<Id>)
    ensures var i := IndexOfNode(s.summary, contentId);
            0 <= i < |s.summary| - 1 ==> r == Some(s.summary[i + 1].Id())
    ensures var i := IndexOfNode(s.summary, contentId);
            !(0 <= i < |s.summary| - 1) && !(0 <= sectionIndex < |c.children| - 1) ==> r.None?
    ensures var i := IndexOfNode(s.summary, contentId);
            !(0 <= i < |s.summary| - 1) && r.Some? ==>
              && 0 <= sectionIndex < |c.children| - 1
              && r.value == c.children[sectionIndex + 1].heading.id
              && r.value != ""
  {
    var index := IndexOfNode(s.summary, contentId);
    if index >= 0 && index < |s.summary| - 1 then Some(s.summary[index + 1].Id())
    else if sectionIndex >= 0 && sectionIndex < |c.children| - 1 then
      var next := c.children[sectionIndex + 1];
      if next.heading.id != "" then Some(next.heading.id) else None
    else None
  }

  /** Summary item, previous: the result inside the summary when the key
      handler would move on it; otherwise `None` for the card rendered
      first, and else the last block of the previous card. */
  function SummaryPrev(s: Section, c: SectionContainer, contentId: Id, sectionIndex: int): (r: Option<Id>)
    ensures Truthy(GetPrevEditableInSummary(s, contentId)) ==> r == GetPrevEditableInSummary(s, contentId)
    ensures !Truthy(GetPrevEditableInSummary(s, contentId)) && sectionIndex == 0 ==> r.None?
  {
    var inSection := GetPrevEditableInSummary(s, contentId);
    if Truthy(inSection) then inSection
    else if sectionIndex == 0 then None
    else
      var index := IndexOfSection(c.children, s.id);
      if index > 0 then Some(LastEditable(c.children[index - 1])) else None
  }

  // ---------------------------------------------------------------------
  // Properties

  /** With distinct section ids, stepping to the next card and back, or
      to the previous card and forward, returns to the card one started
      from. */
  lemma NextPrevSectionInverse(c: SectionContainer, k: nat)
    requires DistinctSectionIds(c.children) && k < |c.children|
    ensures var id := c.children[k].id;
            && (GetNextSection(c, id).Some? ==>
                  GetPrevSection(c, GetNextSection(c, id).value.id) == Some(c.children[k]))
            && (GetPrevSection(c, id).Some? ==>
                  GetNextSection(c, GetPrevSection(c, id).value.id) == Some(c.children[k]))
  {
    SectionIndexOfDistinct(c.children, k);
    if k + 1 < |c.children| {
      SectionIndexOfDistinct(c.children, k + 1);
    }
    if k > 0 {
      SectionIndexOfDistinct(c.children, k - 1);
    }
  }

  /** The heading's "previous" closure is `getPrevEditableAcrossSections`
      for every card but the one rendered first. */
  lemma HeadingPrevIsAcrossSections(s: Section, c: SectionContainer, sectionIndex: int)
    ensures sectionIndex != 0 ==> HeadingPrev(s, c, sectionIndex) == GetPrevEditableAcrossSections(c, s.id)
  {
  }

  /** A summary item's "previous" closure falls back to
      `getPrevEditableAcrossSections` when the summary gives no block the
      handler would move on. */
  lemma SummaryPrevFallsBackAcrossSections(s: Section, c: SectionContainer, contentId: Id, sectionIndex: int)
    ensures !Truthy(GetPrevEditableInSummary(s, contentId)) && sectionIndex != 0 ==>
              SummaryPrev(s, c, contentId, sectionIndex) == GetPrevEditableAcrossSections(c, s.id)
  {
  }

  /** Inside a summary with distinct ids, "next" from an item and
      "previous" from the item after it are inverse moves. */
  lemma SummaryStepsInverse(s: Section, c: SectionContainer, j: nat, sectionIndex: int)
    requires DistinctNodeIds(s.summary) && j + 1 < |s.summary|
    requires s.summary[j].Id() != ""
    ensures SummaryNext(s, c, s.summary[j].Id(), sectionIndex) == Some(s.summary[j + 1].Id())
    ensures SummaryPrev(s, c, s.summary[j + 1].Id(), sectionIndex) == Some(s.summary[j].Id())
  {
    NodeIndexOfDistinct(s.summary, j);
    NodeIndexOfDistinct(s.summary, j + 1);
  }

  /** A heading and its first summary item are each other's neighbours. */
  lemma HeadingFirstSummaryInverse(s: Section, c: SectionContainer, sectionIndex: int)
    requires s.summary != [] && s.heading.id != ""
    ensures HeadingNext(s) == Some(s.summary[0].Id())
    ensures SummaryPrev(s, c, s.summary[0].Id(), sectionIndex) == Some(s.heading.id)
  {
  }

  lemma LastSummaryNextIsNextHeading(c: SectionContainer, k: nat)
    requires k + 1 < |c.children|
    requires DistinctNodeIds(c.children[k].summary) && c.children[k].summary != []
    requires c.children[k + 1].heading.id != ""
    ensures var s := c.children[k];
            SummaryNext(s, c, s.summary[|s.summary| - 1].Id(), k) == Some(c.children[k + 1].heading.id)
  {
    var s := c.children[k];
    NodeIndexOfDistinct(s.summary, |s.summary| - 1);
  }

  lemma NextHeadingPrevIsLastBlock(c: SectionContainer, k: nat)
    requires DistinctSectionIds(c.children) && k + 1 < |c.children|
    ensures HeadingPrev(c.children[k + 1], c, k + 1) == Some(LastEditable(c.children[k]))
  {
    SectionIndexOfDistinct(c.children, k + 1);
  }

  /** Across the boundary between card `k` and card `k + 1` (rendered at
      their positions, distinct ids): "next" from the last summary item of
      card `k` reaches the heading of card `k + 1`, and "previous" from that
      heading reaches the same summary item. */
  lemma CardBoundaryRoundTrip(c: SectionContainer, k: nat)
    requires DistinctSectionIds(c.children) && k + 1 < |c.children|
    requires DistinctNodeIds(c.children[k].summary) && c.children[k].summary != []
    requires c.children[k + 1].heading.id != ""
    ensures var s, t := c.children[k], c.children[k + 1];
            var last := s.summary[|s.summary| - 1].Id();
            && SummaryNext(s, c, last, k) == Some(t.heading.id)
            && HeadingPrev(t, c, k + 1) == Some(last)
  {
    LastSummaryNextIsNextHeading(c, k);
    NextHeadingPrevIsLastBlock(c, k);
  }

  /** A card without summary items is a dead end to the right: its
      heading's "next" is `None` even when a card follows, while "previous"
      from the following card's heading lands on this heading. */
  lemma EmptySummaryHeadingIsOneWay(c: SectionContainer, k: nat)
    requires DistinctSectionIds(c.children) && k + 1 < |c.children|
    requires c.children[k].summary == []
    ensures HeadingNext(c.children[k]).None?
    ensures HeadingPrev(c.children[k + 1], c, k + 1) == Some(c.children[k].heading.id)
  {
    NextHeadingPrevIsLastBlock(c, k);
  }
}

=== FILE: card_utils.dfy ===
/** The two card-view handlers: the read-mode toggle of one card and the
    "add section" button. The UI's unmount callback is not modelled; the
    document's editing state is passed in and returned. */
module CardUtils {
  import opened Wrappers
  import opened Views
  import opened Content
  import opened Collection
  import opened Doc
  import ContainerActions

  /** What the toggle writes: `expanded` becomes `summary`; anything else,
      `collapsed` or a display record left by the migrations included,
      becomes `expanded`. */
  function ToggledState(st: ViewState): (r: ViewState)
    ensures st == Bare("expanded") <==> r == Bare("summary")
    ensures st != Bare("expanded") <==> r == Bare("expanded")
  {
    if st == Bare("expanded") then Bare("summary") else Bare("expanded")
  }

  /** A container and the document's editing state after a card handler. */
  datatype CardScreen = CardScreen(container: SectionContainer, docState: DocState)

  /** The first section default item of a card gets the toggled state;
      a card without one is left as it is. */
  function ToggleSection(s: Section): (r: Section)
    ensures r.(view := s.view) == s && |r.view| == |s.view|
    ensures var k := IndexOfKind(s.view, SectionDefault);
            && (k == -1 ==> r == s)
            && (k >= 0 ==> r.view == s.view[k := ViewItem(SectionDefault, ToggledState(s.view[k].state))])
  {
    var k := IndexOfKind(s.view, SectionDefault);
    if k == -1 then s
    else s.(view := s.view[k := s.view[k].(state := ToggledState(s.view[k].state))])
  }

  /** The state of a card's first section default item, if it has one. */
  function ReadMode(s: Section): Option<ViewState> {
    var k := IndexOfKind(s.view, SectionDefault);
    if k == -1 then None else Some(s.view[k].state)
  }

  /** `handleReadModeToggle`: `None` when `sectionIndex` names no card
      (the source reads a field of `undefined` and throws). A card without a
      section default view leaves everything as it is. Otherwise the first
      section default item of that card, and nothing else, gets the toggled
      state, and the document is asked to animate the next change. */
  function HandleReadModeToggle(sectionIndex: int, c: SectionContainer, st: DocState): (r: Option<CardScreen>)
    ensures r.None? <==> !(0 <= sectionIndex < |c.children|)
    ensures r.Some? ==>
              && r.value.container.(children := c.children) == c
              && |r.value.container.children| == |c.children|
              && (forall j :: 0 <= j < |c.children| && j != sectionIndex ==>
                    r.value.container.children[j] == c.children[j])
    ensures r.Some? && ReadMode(c.children[sectionIndex]).None? ==> r.value == CardScreen(c, st)
    ensures r.Some? && ReadMode(c.children[sectionIndex]).Some? ==>
              var s := c.children[sectionIndex];
              var s' := r.value.container.children[sectionIndex];
              var k := IndexOfKind(s.view, SectionDefault);
              && r.value.docState == st.(animateNextChange := true)
              && s'.(view := s.view) == s
              && |s'.view| == |s.view|
              && (forall j :: 0 <= j < |s.view| && j != k ==> s'.view[j] == s.view[j])
              && s'.view[k] == ViewItem(SectionDefault, ToggledState(s.view[k].state))
              && ReadMode(s') == Some(ToggledState(s.view[k].state))
  {
    if !(0 <= sectionIndex < |c.children|) then None
    else
      var s := c.children[sectionIndex];
      if ReadMode(s).None? then Some(CardScreen(c, st))
      else
        var k := IndexOfKind(s.view, SectionDefault);
        var s' := ToggleSection(s);
        IndexOfKindAfterUpdate(s.view, SectionDefault, k, s'.view[k]);
        Some(CardScreen(c.(children := c.children[sectionIndex := s']), st.(animateNextChange := true)))
  }

  /** Replacing the first item of a kind by another of the same kind keeps
      it the first. */
  lemma IndexOfKindAfterUpdate(view: seq<ViewItem>, kind: string, k: nat, item: ViewItem)
    requires k < |view| && IndexOfKind(view, kind) == k && item.kind == kind
    ensures IndexOfKind(view[k := item], kind) == k
  {
    var v := view[k := item];
    assert v[k].kind == kind;
    assert forall j :: 0 <= j < k ==> v[j] == view[j] && v[j].kind != kind;
  }

  /** One toggle keeps the card's default item where it was and gives it
      the toggled state. */
  lemma ToggleOnce(s: Section)
    requires ReadMode(s).Some?
    ensures IndexOfKind(ToggleSection(s).view, SectionDefault) == IndexOfKind(s.view, SectionDefault)
    ensures ReadMode(ToggleSection(s)) == Some(ToggledState(ReadMode(s).value))
  {
    var k := IndexOfKind(s.view, SectionDefault);
    IndexOfKindAfterUpdate(s.view, SectionDefault, k, ToggleSection(s).view[k]);
  }

  /** Toggling a card twice brings back an `expanded` or `summary` card;
      from any other state, `collapsed` included, the card passes through
      `expanded` and ends at `summary`. */
  lemma ToggleSectionTwice(s: Section)
    requires ReadMode(s).Some?
    ensures ReadMode(s).value in {Bare("expanded"), Bare("summary")} ==> ToggleSection(ToggleSection(s)) == s
    ensures ReadMode(s).value !in {Bare("expanded"), Bare("summary")} ==>
              ReadMode(ToggleSection(ToggleSection(s))) == Some(Bare("summary"))
  {
    var k := IndexOfKind(s.view, SectionDefault);
    var x := s.view[k].state;
    var s1 := ToggleSection(s);
    ToggleOnce(s);
    ToggleOnce(s1);
    var s2 := ToggleSection(s1);
    assert s2.view == s.view[k := ViewItem(SectionDefault, ToggledState(ToggledState(x)))];
    if x in {Bare("expanded"), Bare("summary")} {
      assert s.view[k] == ViewItem(SectionDefault, x);
      assert s2.view == s.view;
    }
  }

  /** On the container: toggling a card twice gives back the container
      when the card was `expanded` or `summary`. */
  lemma ToggleTwice(sectionIndex: nat, c: SectionContainer, st: DocState)
    requires sectionIndex < |c.children|
    requires ReadMode(c.children[sectionIndex]) in {Some(Bare("expanded")), Some(Bare("summary"))}
    ensures var once := HandleReadModeToggle(sectionIndex, c, st).value;
            var twice := HandleReadModeToggle(sectionIndex, once.container, once.docState).value;
            twice == CardScreen(c, st.(animateNextChange := true))
  {
    var s := c.children[sectionIndex];
    ToggleSectionTwice(s);
    var once := HandleReadModeToggle(sectionIndex, c, st).value;
    assert once.container.children[sectionIndex] == ToggleSection(s);
    var twice := HandleReadModeToggle(sectionIndex, once.container, once.docState).value;
    assert twice.container.children[sectionIndex] == ToggleSection(ToggleSection(s));
    assert twice.container.children == c.children;
  }

  /** `handleAddSection`: appends a default section whose heading level is
      the first card's; `None` on an empty container (the source reads the
      first child of an empty array and throws). The uuids must be fresh,
      as `addSection` needs. */
  function HandleAddSection(c: SectionContainer, ids: ContainerActions.NewSectionIds, now: Timestamp)
    : (r: Option<SectionContainer>)
    requires ids.Distinct() && ids.AsSet() !! ContainerIds(c)
    ensures r.None? <==> c.children == []
    ensures r.Some? ==>
              && |r.value.children| == |c.children| + 1
              && r.value.children[..|c.children|] == c.children
              && r.value.children[|c.children|].heading.level == c.children[0].heading.level
              && ContainerIds(r.value) == ContainerIds(c) + ids.AsSet()
  {
    if c.children == [] then None
    else Some(ContainerActions.AddSection(c, c.children[0].heading.level, ids, now))
  }

  /** All cards of the container carry the same heading level. */
  predicate UniformLevels(ss: seq<Section>) {
    forall j :: 0 <= j < |ss| ==> ss[j].heading.level == ss[0].heading.level
  }

  /** Adding a section through the card button keeps the cards' heading
      levels uniform, and a valid container valid. */
  lemma AddSectionKeepsCardsUniform(c: SectionContainer, ids: ContainerActions.NewSectionIds, now: Timestamp)
    requires ids.Distinct() && ids.AsSet() !! ContainerIds(c)
    requires c.children != [] && UniformLevels(c.children)
    ensures UniformLevels(HandleAddSection(c, ids, now).value.children)
    ensures ValidContainer(c) ==> ValidContainer(HandleAddSection(c, ids, now).value)
  {
    var r := HandleAddSection(c, ids, now).value;
    assert r.children[0] == c.children[0];
    forall j | 0 <= j < |r.children|
      ensures r.children[j].heading.level == r.children[0].heading.level
    {
      if j < |c.children| {
        assert r.children[j] == r.children[..|c.children|][j];
      }
    }
    if ValidContainer(c) {
      assert ValidSection(c.children[0]);
    }
  }
}

=== FILE: collection.dfy ===
/** The recursive node union of the content tree: paragraphs, sections,
    untitled sections and section containers. A container's children are
    sections only, which the type `seq<Section>` enforces. */
module Collection {
  import opened Wrappers
  import opened Seqs
  import opened Views
  import opened Content

  datatype Node =
    | Para(p: Paragraph)
    | Sec(s: Section)
    | Untitled(u: UntitledSection)
    | Container(c: SectionContainer)
  {
    function Id(): Id {
      match this
      case Para(p) => p.id
      case Sec(s) => s.id
      case Untitled(u) => u.id
      case Container(c) => c.id
    }
  }

  /** A titled container: exactly one heading, then `children` and a
      `summary`, both sequences of the node union. */
  datatype Section = Section(
    id: Id,
    created: Timestamp,
    lastModified: Timestamp,
    view: seq<ViewItem>,
    activeView: string,
    heading: Heading,
    children: seq<Node>,
    summary: seq<Node>)

  /** A grouping without a heading; its summary is an optional string. */
  datatype UntitledSection = UntitledSection(
    id: Id,
    created: Timestamp,
    lastModified: Timestamp,
    view: seq<ViewItem>,
    activeView: string,
    summary: Option<string>,
    children: seq<Node>)

  datatype SectionContainer = SectionContainer(
    id: Id,
    created: Timestamp,
    lastModified: Timestamp,
    view: seq<ViewItem>,
    activeView: string,
    children: seq<Section>)

  /** Which sequence of a section an edit works on. */
  datatype Arr = Children | Summary

  function Items(s: Section, arr: Arr): seq<Node> {
    match arr
    case Children => s.children
    case Summary => s.summary
  }

  function WithItems(s: Section, arr: Arr, items: seq<Node>): (r: Section)
    ensures Items(r, arr) == items
    ensures r == s.(children := r.children, summary := r.summary)
    ensures arr == Children ==> r.summary == s.summary
    ensures arr == Summary ==> r.children == s.children
  {
    match arr
    case Children => s.(children := items)
    case Summary => s.(summary := items)
  }

  // ---------------------------------------------------------------------
  // Schema validity

  predicate ValidNode(n: Node)
    decreases n, 1
  {
    match n
    case Para(p) => ValidParagraph(p)
    case Sec(s) => ValidSection(s)
    case Untitled(u) => ValidUntitled(u)
    case Container(c) => ValidContainer(c)
  }

  predicate ValidNodes(ns: seq<Node>)
    decreases ns, 0
  {
    forall i :: 0 <= i < |ns| ==> ValidNode(ns[i])
  }

  predicate ValidSection(s: Section)
    decreases s, 0
  {
    && ValidSectionView(s.view, s.activeView)
    && ValidHeading(s.heading)
    && ValidNodes(s.children)
    && ValidNodes(s.summary)
  }

  predicate ValidUntitled(u: UntitledSection)
    decreases u, 0
  {
    ValidUntitledView(u.view, u.activeView) && ValidNodes(u.children)
  }

  predicate ValidContainer(c: SectionContainer)
    decreases c, 0
  {
    && ValidContainerView(c.view, c.activeView)
    && forall i :: 0 <= i < |c.children| ==> ValidSection(c.children[i])
  }

  // ---------------------------------------------------------------------
  // Ids

  /** Every id occurring in a node, headings included. */
  function NodeIds(n: Node): set<Id>
    decreases n, 1
  {
    match n
    case Para(p) => {p.id}
    case Sec(s) => SectionIds(s)
    case Untitled(u) => {u.id} + SeqIds(u.children)
    case Container(c) => ContainerIds(c)
  }

  function SeqIds(ns: seq<Node>): set<Id>
    decreases ns, 0
  {
    if ns == [] then {} else NodeIds(ns[0]) + SeqIds(ns[1..])
  }

  function SectionIds(s: Section): set<Id>
    decreases s, 0
  {
    {s.id, s.heading.id} + SeqIds(s.children) + SeqIds(s.summary)
  }

  function ContainerIds(c: SectionContainer): set<Id>
    decreases c, 0
  {
    {c.id} + SectionSeqIds(c.children)
  }

  function SectionSeqIds(ss: seq<Section>): set<Id>
    decreases ss, 0
  {
    if ss == [] then {} else SectionIds(ss[0]) + SectionSeqIds(ss[1..])
  }

  // ---------------------------------------------------------------------
  // Searching by id (the source's `findIndex(x => x.id === id)`)

  /** The first index holding a node with the id, or -1. */
  function IndexOfNode(ns: seq<Node>, id: Id): (r: int)
    ensures -1 <= r < |ns|
    ensures r == -1 <==> forall j :: 0 <= j < |ns| ==> ns[j].Id() != id
    ensures r >= 0 ==> ns[r].Id() == id && forall j :: 0 <= j < r ==> ns[j].Id() != id
  {
    FindIndex(ns, (n: Node) => n.Id() == id)
  }

  /** The first index of an id depends only on the elements up to it. */
  lemma IndexOfNodeSamePrefix(ns: seq<Node>, ns': seq<Node>, i: nat, id: Id)
    requires i < |ns| && i < |ns'| && ns'[..i] == ns[..i]
    requires IndexOfNode(ns, id) == i && ns'[i].Id() == id
    ensures IndexOfNode(ns', id) == i
  {
    assert forall j :: 0 <= j < i ==> ns'[j] == ns'[..i][j];
    assert forall j :: 0 <= j < i ==> ns[j] == ns[..i][j];
  }

  /** The first index holding a section with the id, or -1. */
  function IndexOfSection(ss: seq<Section>, id: Id): (r: int)
    ensures -1 <= r < |ss|
    ensures r == -1 <==> forall j :: 0 <= j < |ss| ==> ss[j].id != id
    ensures r >= 0 ==> ss[r].id == id && forall j :: 0 <= j < r ==> ss[j].id != id
  {
    if ss == [] then -1
    else if ss[0].id == id then 0
    else
      var k := IndexOfSection(ss[1..], id);
      if k == -1 then -1 else k + 1
  }

  /** The sequence with the element at `i` removed. */
  function RemoveAt<T>(s: seq<T>, i: nat): (r: seq<T>)
    requires i < |s|
    ensures |r| == |s| - 1
    ensures forall j :: 0 <= j < i ==> r[j] == s[j]
    ensures forall j :: i <= j < |r| ==> r[j] == s[j + 1]
  {
    s[..i] + s[i + 1..]
  }

  /** The sequence with `x` inserted at position `i`. */
  function InsertAt<T>(s: seq<T>, i: nat, x: T): (r: seq<T>)
    requires i <= |s|
    ensures |r| == |s| + 1
    ensures r[i] == x
    ensures forall j :: 0 <= j < i ==> r[j] == s[j]
    ensures forall j :: i < j < |r| ==> r[j] == s[j - 1]
  {
    s[..i] + [x] + s[i..]
  }

  // ---------------------------------------------------------------------
  // Ids of concatenations

  lemma {:induction false} SeqIdsConcat(a: seq<Node>, b: seq<Node>)
    ensures SeqIds(a + b) == SeqIds(a) + SeqIds(b)
    decreases |a|
  {
    if a == [] {
      assert a + b == b;
    } else {
      assert (a + b)[1..] == a[1..] + b;
      SeqIdsConcat(a[1..], b);
    }
  }

  lemma {:induction false} SectionSeqIdsConcat(a: seq<Section>, b: seq<Section>)
    ensures SectionSeqIds(a + b) == SectionSeqIds(a) + SectionSeqIds(b)
    decreases |a|
  {
    if a == [] {
      assert a + b == b;
    } else {
      assert (a + b)[1..] == a[1..] + b;
      SectionSeqIdsConcat(a[1..], b);
    }
  }

  // ---------------------------------------------------------------------
  // Validity of parts of sequences

  lemma ValidNodesConcat(a: seq<Node>, b: seq<Node>)
    ensures ValidNodes(a + b) <==> ValidNodes(a) && ValidNodes(b)
  {
    if ValidNodes(a) && ValidNodes(b) {
      forall i | 0 <= i < |a + b| ensures ValidNode((a + b)[i]) {
        if i >= |a| { assert (a + b)[i] == b[i - |a|]; }
      }
    }
    if ValidNodes(a + b) {
      forall i | 0 <= i < |a| ensures ValidNode(a[i]) {
        assert (a + b)[i] == a[i];
      }
      forall i | 0 <= i < |b| ensures ValidNode(b[i]) {
        assert (a + b)[|a| + i] == b[i];
      }
    }
  }

  lemma ValidNodesSlice(ns: seq<Node>, lo: nat, hi: nat)
    requires lo <= hi <= |ns|
    requires ValidNodes(ns)
    ensures ValidNodes(ns[lo..hi])
  {
    forall i | 0 <= i < hi - lo ensures ValidNode(ns[lo..hi][i]) {
      assert ns[lo..hi][i] == ns[lo + i];
    }
  }

  /** Replacing one valid node by two valid nodes keeps a node sequence
      valid. */
  lemma ValidNodesReplaceByTwo(ns: seq<Node>, i: nat, x: Node, y: Node)
    requires i < |ns| && ValidNodes(ns) && ValidNode(x) && ValidNode(y)
    ensures ValidNodes(ns[..i] + [x, y] + ns[i + 1..])
  {
    var t := ns[..i] + [x, y] + ns[i + 1..];
    forall j | 0 <= j < |t| ensures ValidNode(t[j]) {
      if j < i {
        assert t[j] == ns[j];
      } else if j > i + 1 {
        assert t[j] == ns[j - 1];
      }
    }
  }

  /** Appending a valid section keeps a container valid. */
  lemma ValidContainerAppend(c: SectionContainer, s: Section)
    ensures ValidContainer(c) && ValidSection(s) ==> ValidContainer(c.(children := c.children + [s]))
  {
    if ValidContainer(c) && ValidSection(s) {
      var t := c.children + [s];
      forall j | 0 <= j < |t| ensures ValidSection(t[j]) {
        if j < |c.children| {
          assert t[j] == c.children[j];
        }
      }
    }
  }

  /** Removing what was just inserted gives back the sequence. */
  lemma RemoveInserted<T>(s: seq<T>, i: nat, x: T)
    requires i <= |s|
    ensures RemoveAt(InsertAt(s, i, x), i) == s
  {
    var r := RemoveAt(InsertAt(s, i, x), i);
    assert forall j :: 0 <= j < |s| ==> r[j] == s[j];
  }

  /** A sequence holding `x` at `i` that gives back `s` once `i` is
      removed is `s` with `x` inserted at `i`. */
  lemma RemovedIsInserted<T>(s: seq<T>, t: seq<T>, i: nat, x: T)
    requires i < |t| && t[i] == x && RemoveAt(t, i) == s
    ensures t == s[..i] + [x] + s[i..]
  {
  }

  /** A sequence one longer than `s` that starts with `s` and ends with
      `x` is `s + [x]`. */
  lemma ExtendedIsAppended<T>(s: seq<T>, t: seq<T>, x: T)
    requires |t| == |s| + 1 && t[|s|] == x && t[..|s|] == s
    ensures t == s + [x]
  {
  }

  /** Inserting a valid section keeps a container valid. */
  lemma ValidContainerInsert(c: SectionContainer, i: nat, s: Section, now: Timestamp)
    requires i <= |c.children|
    ensures ValidContainer(c) && ValidSection(s) ==>
              ValidContainer(c.(children := InsertAt(c.children, i, s), lastModified := now))
  {
    if ValidContainer(c) && ValidSection(s) {
      var t := InsertAt(c.children, i, s);
      forall j | 0 <= j < |t| ensures ValidSection(t[j]) {
        if j < i {
          assert t[j] == c.children[j];
        } else if j > i {
          assert t[j] == c.children[j - 1];
        }
      }
    }
  }
}

=== FILE: collection_actions.dfy ===
/** The earlier paragraph split, kept beside the focusing one: the same tree
    edit, but no focus request. */
module CollectionActions {
  import opened Content
  import opened Collection
  import opened Doc
  import SectionActions

  /** `thrown` is the error on an index outside the array, raised after
      `animateNextChange` has been cleared. */
  datatype LegacySplitOutcome = LegacySplitOutcome(thrown: bool, section: Section, state: DocState)

  /** On a paragraph at `i`: it keeps `a`, a new paragraph with `b` and the
      same view follows it, and the section's timestamp is refreshed. On any
      other node the section is unchanged, and an index outside the array
      throws. `animateNextChange` is cleared in every case. */
  function SplitParagraph(node: Section, arr: Arr, a: string, b: string, st: DocState, i: int,
                          freshId: Id, now: Timestamp)
    : (r: LegacySplitOutcome)
    ensures r.thrown <==> !(0 <= i < |Items(node, arr)|)
    ensures r.state == st.(animateNextChange := false)
    ensures r.thrown || !Items(node, arr)[i].Para? ==> r.section == node
    ensures !r.thrown && Items(node, arr)[i].Para? ==>
              var items := Items(node, arr);
              var p := items[i].p;
              var items' := Items(r.section, arr);
              && |items'| == |items| + 1
              && items'[i] == Para(p.(content := a, lastModified := now))
              && items'[i + 1] == Para(SectionActions.SplitTail(p, freshId, b, now))
              && items'[..i] == items[..i]
              && items'[i + 2..] == items[i + 1..]
              && r.section == WithItems(node, arr, items').(lastModified := now)
  {
    var st' := st.(animateNextChange := false);
    var items := Items(node, arr);
    if !(0 <= i < |items|) then LegacySplitOutcome(true, node, st')
    else if !items[i].Para? then LegacySplitOutcome(false, node, st')
    else
      var p := items[i].p;
      var items' := items[..i]
        + [Para(p.(content := a, lastModified := now)), Para(SectionActions.SplitTail(p, freshId, b, now))]
        + items[i + 1..];
      LegacySplitOutcome(false, WithItems(node, arr, items').(lastModified := now), st')
  }

  /** Both splits throw on the same indices and otherwise make the same tree
      and state; only the newer one asks for focus. */
  lemma AgreesWithFocusingSplit(node: Section, arr: Arr, a: string, b: string, st: DocState, i: int,
                                freshId: Id, now: Timestamp)
    ensures var earlier := SplitParagraph(node, arr, a, b, st, i, freshId, now);
            var newer := SectionActions.SplitParagraph(node, arr, a, b, st, i, freshId, now);
            earlier.thrown == newer.thrown && earlier.section == newer.section && earlier.state == newer.state
  {
  }
}

=== FILE: container_migrations.dfy ===
/** The section-container migration to version 2: a card view state
    written before the `multilevel` flag existed gets it, unset. */
module ContainerMigrations {
  import opened Wrappers
  import opened Views

  /** The version-2 rewrite of one view item: a card state lacking
      `multilevel` gets `false` and keeps its per-row count and gap; a
      present value is kept; a missing state and every other item are
      left alone. */
  function UpdateCardItem(it: ViewItem): (r: ViewItem)
    ensures r.kind == it.kind
    ensures it.kind != ContainerCard || !it.state.Card? ==> r == it
    ensures it.kind == ContainerCard && it.state.Card? ==>
              && r.state.Card?
              && r.state.perRow == it.state.perRow
              && r.state.gap == it.state.gap
              && r.state.multilevel == Some(it.state.multilevel.GetOr(false))
  {
    if it.kind == ContainerCard && it.state.Card? && it.state.multilevel.None? then
      it.(state := it.state.(multilevel := Some(false)))
    else it
  }

  /** Step to version 2: every item keeps its position and kind and goes
      through the item rewrite above; only card items change. */
  function UpdateSectionContainerCardViewState(view: seq<ViewItem>): (r: seq<ViewItem>)
    ensures |r| == |view|
    ensures forall i :: 0 <= i < |view| ==> r[i].kind == view[i].kind
    ensures forall i :: 0 <= i < |view| && view[i].kind != ContainerCard ==> r[i] == view[i]
    ensures forall i :: 0 <= i < |view| ==> r[i] == UpdateCardItem(view[i])
  {
    seq(|view|, i requires 0 <= i < |view| => UpdateCardItem(view[i]))
  }

  lemma UpdateCardViewStateIdempotent(view: seq<ViewItem>)
    ensures UpdateSectionContainerCardViewState(UpdateSectionContainerCardViewState(view))
            == UpdateSectionContainerCardViewState(view)
  {
  }
}

=== FILE: content.dfy ===
/** The two leaf content nodes: headings (owned by sections) and paragraphs.
    Both carry an id, two timestamps, a text `content` and a one-item view;
    neither has children. The type tag of the source is the constructor. */
module Content {
  import opened Views

  type Id = string
  /** An ISO date-time string; its format is not interpreted here. */
  type Timestamp = string

  datatype Heading = Heading(
    id: Id,
    created: Timestamp,
    lastModified: Timestamp,
    content: string,
    level: int,
    view: seq<ViewItem>,
    activeView: string)

  datatype Paragraph = Paragraph(
    id: Id,
    created: Timestamp,
    lastModified: Timestamp,
    content: string,
    view: seq<ViewItem>,
    activeView: string)

  /** The heading schema: an integer level of at least 1 and the single
      default view, which the active view names. */
  predicate ValidHeading(h: Heading) {
    h.level >= 1 && ValidHeadingView(h.view, h.activeView)
  }

  /** The paragraph schema: the single default view, named by the active view. */
  predicate ValidParagraph(p: Paragraph) {
    ValidParagraphView(p.view, p.activeView)
  }
}

=== FILE: document.dfy ===
/** The document root: one node of the union as its content, an editing
    state and the optional schema version the migrations read. */
module Doc {
  import opened Wrappers
  import opened Content
  import opened Collection

  const Modes: set<string> := {"write", "customize", "read"}

  /** `animateNextChange` is read and cleared by the editing surface; the
      edits set it. */
  datatype DocState = DocState(mode: string, animateNextChange: bool)

  /** `version` is absent on documents written before the first migration. */
  datatype Document = Document(
    id: Id,
    created: Timestamp,
    lastModified: Timestamp,
    content: Node,
    state: DocState,
    version: Option<nat>)

  predicate ValidDocument(d: Document) {
    ValidNode(d.content) && d.state.mode in Modes
  }

  /** Where the focus service should put the cursor: the start or the end
      of the editor, or `At(pos)`, a number it reads as an editor position
      (see `Landing`). */
  datatype Cursor = Start | End | At(pos: nat)

  /** Every character of `s` lies in the Basic Multilingual Plane. */
  predicate InBmp(s: string) {
    forall i :: 0 <= i < |s| ==> s[i] as int <= 0xFFFF
  }

  /** The number of UTF-16 code units encoding `s`: a character outside the
      Basic Multilingual Plane takes a surrogate pair. */
  function Utf16Length(s: string): (r: nat)
    ensures |s| <= r <= 2 * |s|
    ensures InBmp(s) ==> r == |s|
  {
    if s == [] then 0
    else
      assert InBmp(s) ==> InBmp(s[1..]) by {
        if InBmp(s) {
          forall i | 0 <= i < |s[1..]| ensures s[1..][i] as int <= 0xFFFF {
            assert s[1..][i] == s[i + 1];
          }
        }
      }
      (if s[0] as int > 0xFFFF then 2 else 1) + Utf16Length(s[1..])
  }

  /** The code units of a concatenation are those of its parts. */
  lemma {:induction false} Utf16LengthAppend(a: string, b: string)
    ensures Utf16Length(a + b) == Utf16Length(a) + Utf16Length(b)
    decreases |a|
  {
    if a == [] {
      assert a + b == b;
    } else {
      assert (a + b)[0] == a[0];
      assert (a + b)[1..] == a[1..] + b;
      Utf16LengthAppend(a[1..], b);
    }
  }

  /** The text offset, in UTF-16 code units, where the focus service puts
      the caret when it places `c` in an editor showing a text of `len`
      code units. The editor holds one paragraph, so its size is the text
      plus an opening and a closing token, and text offset `t` is position
      `t + 1`. `Start` is position 1, `End` is the size minus one, and a
      number is clamped into that range. */
  function Landing(c: Cursor, len: nat): (r: nat)
    ensures r <= len
    ensures c.Start? ==> r == 0
    ensures c.End? ==> r == len
    ensures c.At? && 1 <= c.pos <= len + 1 ==> r == c.pos - 1
    ensures c.At? && c.pos == 0 ==> r == 0
    ensures c.At? && c.pos > len + 1 ==> r == len
  {
    var size := len + 2;
    var pos := match c
      case Start => 1
      case End => size - 1
      case At(n) => if n < 1 then 1 else if n > size - 1 then size - 1 else n;
    pos - 1
  }

  /** A request that the editing surface focus the editor of a node. */
  datatype Focus = Focus(id: Id, cursor: Cursor)
}

=== FILE: extract.dfy ===
/** Markdown extraction: a recursive serialiser in which the depth passed
    down, not the heading's stored level, decides how many `#` markers a
    heading gets. A paragraph is its text and a blank line; a section is
    its heading line and then its children one level deeper; the items of
    a container are sections one level deeper; an untitled section is
    transparent. Summaries are never written. A negative marker count is
    the error `'#'.repeat` raises, modelled as `None`. */
module Extract {
  import opened Wrappers
  import opened Content
  import opened Collection

  /** `n` heading markers. */
  function Hashes(n: nat): (r: string)
    ensures |r| == n
    ensures forall i :: 0 <= i < n ==> r[i] == '#'
  {
    if n == 0 then "" else "#" + Hashes(n - 1)
  }

  /** `'#'.repeat(level)`: fails exactly on a negative count. */
  function HeadingMarkers(level: int): (r: Option<string>)
    ensures r.None? <==> level < 0
    ensures r.Some? ==> |r.value| == level && forall i :: 0 <= i < level ==> r.value[i] == '#'
  {
    if level < 0 then None else Some(Hashes(level))
  }

  /** Appending two parts; an error in either is the error of the whole. */
  function Cat(a: Option<string>, b: Option<string>): (r: Option<string>)
    ensures r.Some? <==> a.Some? && b.Some?
  {
    if a.Some? && b.Some? then Some(a.value + b.value) else None
  }

  /** `processContent`: the parts of the nodes in order; nested sections
      one level deeper. Any content at level -1 or above is written without
      error. */
  function ProcessContent(content: seq<Node>, level: int): (r: Option<string>)
    decreases content, 0
    ensures content == [] ==> r == Some("")
    ensures level >= -1 ==> r.Some?
  {
    if content == [] then Some("")
    else Cat(NodePart(content[0], level), ProcessContent(content[1..], level))
  }

  /** What one node of `processContent`'s loop appends. */
  function NodePart(n: Node, level: int): (r: Option<string>)
    decreases n, 1
    ensures n.Para? ==> r.Some?
    ensures level >= -1 ==> r.Some?
  {
    match n
    case Para(p) => Some(p.content + "\n\n")
    case Sec(s) => ExtractMarkdownSection(s, level + 1)
    case Container(c) => SectionsPart(c.children, level + 1)
    case Untitled(u) => if |u.children| > 0 then ProcessContent(u.children, level) else Some("")
  }

  /** The sections of a container, each at the given level, in order. */
  function SectionsPart(ss: seq<Section>, level: int): (r: Option<string>)
    decreases ss, 0
    ensures ss == [] ==> r == Some("")
    ensures level >= 0 ==> r.Some?
  {
    if ss == [] then Some("")
    else Cat(ExtractMarkdownSection(ss[0], level), SectionsPart(ss[1..], level))
  }

  /** The heading line of a section at a level it can be written at. */
  function HeadingLine(level: nat, text: string): string {
    Hashes(level) + " " + text + "\n\n"
  }

  /** `extractMarkdownSection`: fails exactly at a negative level; when it
      succeeds the text opens with `level` markers, a space, the heading
      text and a blank line. */
  function ExtractMarkdownSection(s: Section, level: int): (r: Option<string>)
    decreases s, 1
    ensures r.Some? <==> level >= 0
    ensures r.Some? ==> |r.value| >= level + |s.heading.content| + 3
    ensures r.Some? ==> r.value[..level + |s.heading.content| + 3] == HeadingLine(level, s.heading.content)
  {
    var markers := HeadingMarkers(level);
    if markers.None? then None
    else
      var head := markers.value + " " + s.heading.content + "\n\n";
      var body := if |s.children| > 0 then ProcessContent(s.children, level) else Some("");
      assert body.Some?;
      assert (head + body.value)[..|head|] == head;
      Some(head + body.value)
  }

  /** `extractMarkdownSectionContainer`: the container's items handed to
      `processContent` one level up, so they come out at `level`. */
  function ExtractMarkdownSectionContainer(c: SectionContainer, level: int): (r: Option<string>)
    ensures level >= 0 ==> r.Some?
    ensures c.children == [] ==> r == Some("")
  {
    ProcessContent(AsNodes(c.children), level - 1)
  }

  function AsNodes(ss: seq<Section>): (r: seq<Node>)
    ensures |r| == |ss|
    ensures forall i :: 0 <= i < |ss| ==> r[i] == Sec(ss[i])
  {
    if ss == [] then [] else [Sec(ss[0])] + AsNodes(ss[1..])
  }

  // ---------------------------------------------------------------------
  // Properties

  lemma CatAssoc(a: Option<string>, b: Option<string>, c: Option<string>)
    ensures Cat(Cat(a, b), c) == Cat(a, Cat(b, c))
  {
    if a.Some? && b.Some? && c.Some? {
      assert (a.value + b.value) + c.value == a.value + (b.value + c.value);
    }
  }

  /** The text of consecutive content is the text of each part, in order. */
  lemma {:induction false} ProcessContentConcat(a: seq<Node>, b: seq<Node>, level: int)
    ensures ProcessContent(a + b, level) == Cat(ProcessContent(a, level), ProcessContent(b, level))
    decreases |a|
  {
    if a == [] {
      assert a + b == b;
      var pb := ProcessContent(b, level);
      if pb.Some? {
        assert "" + pb.value == pb.value;
      }
    } else {
      assert (a + b)[0] == a[0];
      assert (a + b)[1..] == a[1..] + b;
      ProcessContentConcat(a[1..], b, level);
      CatAssoc(NodePart(a[0], level), ProcessContent(a[1..], level), ProcessContent(b, level));
    }
  }

  /** A section's summary never reaches the text. */
  lemma SummaryNotEmitted(s: Section, summary: seq<Node>, level: int)
    ensures ExtractMarkdownSection(s.(summary := summary), level) == ExtractMarkdownSection(s, level)
  {
  }

  /** The heading's own level field is not consulted: only the depth
      passed down counts. */
  lemma HeadingLevelIgnored(s: Section, headingLevel: int, level: int)
    ensures ExtractMarkdownSection(s.(heading := s.heading.(level := headingLevel)), level)
            == ExtractMarkdownSection(s, level)
  {
  }

  /** A section without children is its heading line alone. */
  lemma ChildlessSectionIsHeadingLine(s: Section, level: nat)
    requires s.children == []
    ensures ExtractMarkdownSection(s, level) == Some(HeadingLine(level, s.heading.content))
  {
    assert HeadingLine(level, s.heading.content) + "" == HeadingLine(level, s.heading.content);
  }

  /** An untitled section adds no heading and no depth: its text is its
      children's text at the same level, and empty with no children. */
  lemma UntitledIsTransparent(u: UntitledSection, level: int)
    ensures ProcessContent([Untitled(u)], level) == ProcessContent(u.children, level)
  {
    var p := ProcessContent(u.children, level);
    assert [Untitled(u)][1..] == [];
    if p.Some? {
      assert p.value + "" == p.value;
    }
  }

  lemma {:induction false} AsNodesRendersSections(ss: seq<Section>, level: int)
    ensures ProcessContent(AsNodes(ss), level - 1) == SectionsPart(ss, level)
    decreases |ss|
  {
    if ss != [] {
      assert AsNodes(ss)[1..] == AsNodes(ss[1..]);
      AsNodesRendersSections(ss[1..], level);
    }
  }

  /** A container's sections come out at the level given to the container,
      in order; its own id and views are never written. */
  lemma ContainerRendersSectionsAtLevel(c: SectionContainer, level: int)
    ensures ExtractMarkdownSectionContainer(c, level) == SectionsPart(c.children, level)
  {
    AsNodesRendersSections(c.children, level);
  }

  /** The same container text one level down inside content: a container
      met by `processContent` writes what its extraction one level deeper
      would. */
  lemma NestedContainerAsExtracted(c: SectionContainer, level: int)
    ensures NodePart(Container(c), level) == ExtractMarkdownSectionContainer(c, level + 1)
  {
    ContainerRendersSectionsAtLevel(c, level + 1);
  }

  // ---------------------------------------------------------------------
  // Reference: the outline of titles and paragraphs

  /** A block of the written outline: a heading at a depth, or a
      paragraph's text. */
  datatype Block = Title(depth: nat, text: string) | Text(text: string)

  function RenderBlock(b: Block): string {
    match b
    case Title(d, t) => HeadingLine(d, t)
    case Text(t) => t + "\n\n"
  }

  function Render(bs: seq<Block>): string {
    if bs == [] then "" else RenderBlock(bs[0]) + Render(bs[1..])
  }

  lemma {:induction false} RenderConcat(a: seq<Block>, b: seq<Block>)
    ensures Render(a + b) == Render(a) + Render(b)
    decreases |a|
  {
    if a == [] {
      assert a + b == b;
    } else {
      assert (a + b)[0] == a[0];
      assert (a + b)[1..] == a[1..] + b;
      RenderConcat(a[1..], b);
    }
  }

  /** The blocks of content whose sections sit at `depth`: paragraphs in
      place, each section as its title followed by its children one level
      deeper, untitled sections flattened, containers as their sections. */
  function ContentOutline(content: seq<Node>, depth: nat): (r: seq<Block>)
    decreases content, 0
    ensures forall i :: 0 <= i < |r| && r[i].Title? ==> r[i].depth >= depth
  {
    if content == [] then [] else NodeOutline(content[0], depth) + ContentOutline(content[1..], depth)
  }

  function NodeOutline(n: Node, depth: nat): (r: seq<Block>)
    decreases n, 1
    ensures forall i :: 0 <= i < |r| && r[i].Title? ==> r[i].depth >= depth
  {
    match n
    case Para(p) => [Text(p.content)]
    case Sec(s) => SectionOutline(s, depth)
    case Container(c) => SectionsOutline(c.children, depth)
    case Untitled(u) => ContentOutline(u.children, depth)
  }

  function SectionsOutline(ss: seq<Section>, depth: nat): (r: seq<Block>)
    decreases ss, 0
    ensures forall i :: 0 <= i < |r| && r[i].Title? ==> r[i].depth >= depth
  {
    if ss == [] then [] else SectionOutline(ss[0], depth) + SectionsOutline(ss[1..], depth)
  }

  /** A section's outline opens with its own title at `depth`; every title
      below it is deeper. */
  function SectionOutline(s: Section, depth: nat): (r: seq<Block>)
    decreases s, 1
    ensures |r| > 0 && r[0] == Title(depth, s.heading.content)
    ensures forall i :: 0 < i < |r| && r[i].Title? ==> r[i].depth > depth
  {
    [Title(depth, s.heading.content)] + ContentOutline(s.children, depth + 1)
  }

  /** The extracted text is the rendering of the outline: content at level
      `level` has its sections at depth `level + 1`. */
  lemma {:induction false} ContentMatchesOutline(content: seq<Node>, level: int)
    requires level >= -1
    ensures ProcessContent(content, level) == Some(Render(ContentOutline(content, level + 1)))
    decreases content, 0
  {
    if content != [] {
      NodeMatchesOutline(content[0], level);
      ContentMatchesOutline(content[1..], level);
      RenderConcat(NodeOutline(content[0], level + 1), ContentOutline(content[1..], level + 1));
    }
  }

  lemma {:induction false} NodeMatchesOutline(n: Node, level: int)
    requires level >= -1
    ensures NodePart(n, level) == Some(Render(NodeOutline(n, level + 1)))
    decreases n, 1
  {
    match n
    case Para(p) =>
      var bs := [Text(p.content)];
      assert bs[1..] == [];
      assert Render(bs) == RenderBlock(bs[0]) + "";
      assert RenderBlock(bs[0]) + "" == p.content + "\n\n";
    case Sec(s) =>
      SectionMatchesOutline(s, level + 1);
    case Container(c) =>
      SectionsMatchOutline(c.children, level + 1);
    case Untitled(u) =>
      ContentMatchesOutline(u.children, level);
  }

  lemma {:induction false} SectionsMatchOutline(ss: seq<Section>, level: nat)
    ensures SectionsPart(ss, level) == Some(Render(SectionsOutline(ss, level)))
    decreases ss, 0
  {
    if ss != [] {
      SectionMatchesOutline(ss[0], level);
      SectionsMatchOutline(ss[1..], level);
      RenderConcat(SectionOutline(ss[0], level), SectionsOutline(ss[1..], level));
    }
  }

  lemma {:induction false} SectionMatchesOutline(s: Section, level: nat)
    ensures ExtractMarkdownSection(s, level) == Some(Render(SectionOutline(s, level)))
    decreases s, 1
  {
    var title := [Title(level, s.heading.content)];
    var rest := ContentOutline(s.children, level + 1);
    ContentMatchesOutline(s.children, level);
    RenderConcat(title, rest);
    assert title[1..] == [];
    assert Render(title) == HeadingLine(level, s.heading.content) + "";
  }
}

=== FILE: level_actions.dfy ===
/** Changing a section's heading level by one, which re-parents the section
    and, on an increase, flattens its container children into the
    container it moves to. The surroundings supply the lookups (preceding
    section, enclosing container, parent section, grandparent container) as
    values, and a refused change returns no tree at all: every check comes
    before the first change. */
module LevelActions {
  import opened Wrappers
  import opened Views
  import opened Content
  import opened Collection
  import opened ContainerActions
  import SectionActions

  // ---------------------------------------------------------------------
  // Container children and their flattening

  /** The container children of a node sequence, in order. */
  function ContainerChildren(ns: seq<Node>): (r: seq<SectionContainer>)
    ensures |r| <= |ns|
    ensures forall i :: 0 <= i < |r| ==> Container(r[i]) in ns
  {
    if ns == [] then []
    else if ns[0].Container? then [ns[0].c] + ContainerChildren(ns[1..])
    else ContainerChildren(ns[1..])
  }

  predicate HasContainerChild(ns: seq<Node>) {
    exists i :: 0 <= i < |ns| && ns[i].Container?
  }

  lemma {:induction false} ContainerChildrenEmpty(ns: seq<Node>)
    ensures ContainerChildren(ns) == [] <==> !HasContainerChild(ns)
    decreases |ns|
  {
    if ns != [] {
      ContainerChildrenEmpty(ns[1..]);
      if !ns[0].Container? && HasContainerChild(ns) {
        var i :| 0 <= i < |ns| && ns[i].Container?;
        assert ns[1..][i - 1].Container?;
      }
    }
  }

  /** The sections of the containers, in order across and within them. */
  function Flatten(cs: seq<SectionContainer>): seq<Section> {
    if cs == [] then [] else cs[0].children + Flatten(cs[1..])
  }

  lemma {:induction false} FlattenConcat(a: seq<SectionContainer>, b: seq<SectionContainer>)
    ensures Flatten(a + b) == Flatten(a) + Flatten(b)
    decreases |a|
  {
    if a == [] {
      assert a + b == b;
    } else {
      assert (a + b)[1..] == a[1..] + b;
      FlattenConcat(a[1..], b);
    }
  }

  function ContainerIdSet(cs: seq<SectionContainer>): set<Id> {
    set i | 0 <= i < |cs| :: cs[i].id
  }

  /** The nodes whose id is not in `ids`, in order (the source's filter). */
  function WithoutIds(ns: seq<Node>, ids: set<Id>): (r: seq<Node>)
    ensures |r| <= |ns|
    ensures forall i :: 0 <= i < |r| ==> r[i] in ns && r[i].Id() !in ids
  {
    if ns == [] then []
    else if ns[0].Id() in ids then WithoutIds(ns[1..], ids)
    else [ns[0]] + WithoutIds(ns[1..], ids)
  }

  /** The nodes that are not containers, in order. */
  function NonContainers(ns: seq<Node>): seq<Node> {
    if ns == [] then []
    else if ns[0].Container? then NonContainers(ns[1..])
    else [ns[0]] + NonContainers(ns[1..])
  }

  /** No non-container child shares its id with a container child, as
      happens when ids are unique. */
  predicate IdsSeparate(ns: seq<Node>) {
    forall i, j :: 0 <= i < |ns| && 0 <= j < |ns| && ns[i].Container? && !ns[j].Container? ==>
      ns[i].Id() != ns[j].Id()
  }

  lemma {:induction false} ContainerIdsCover(ns: seq<Node>, i: nat)
    requires i < |ns| && ns[i].Container?
    ensures ns[i].Id() in ContainerIdSet(ContainerChildren(ns))
    decreases |ns|
  {
    if i == 0 {
      assert ContainerChildren(ns)[0] == ns[0].c;
    } else {
      assert ns[1..][i - 1] == ns[i];
      ContainerIdsCover(ns[1..], i - 1);
      var cs := ContainerChildren(ns[1..]);
      var k :| 0 <= k < |cs| && cs[k].id == ns[i].Id();
      if ns[0].Container? {
        assert ContainerChildren(ns)[k + 1] == cs[k];
      }
    }
  }

  lemma {:induction false} ContainerIdsFromContainers(ns: seq<Node>, id: Id)
    requires id in ContainerIdSet(ContainerChildren(ns))
    ensures exists i :: 0 <= i < |ns| && ns[i].Container? && ns[i].Id() == id
    decreases |ns|
  {
    var cs := ContainerChildren(ns);
    var k :| 0 <= k < |cs| && cs[k].id == id;
    if ns[0].Container? && k == 0 {
      assert ns[0].Id() == id;
    } else {
      var rest := ContainerChildren(ns[1..]);
      var k' := if ns[0].Container? then k - 1 else k;
      assert rest[k'] == cs[k];
      ContainerIdsFromContainers(ns[1..], id);
      var i :| 0 <= i < |ns[1..]| && ns[1..][i].Container? && ns[1..][i].Id() == id;
      assert ns[i + 1] == ns[1..][i];
    }
  }

  /** Filtering out the container ids drops exactly the containers when no
      other child shares their ids. */
  lemma {:induction false} WithoutContainerIds(ns: seq<Node>, ids: set<Id>)
    requires IdsSeparate(ns)
    requires forall i :: 0 <= i < |ns| && ns[i].Container? ==> ns[i].Id() in ids
    requires forall id :: id in ids ==> exists i :: 0 <= i < |ns| && ns[i].Container? && ns[i].Id() == id
    ensures WithoutIds(ns, ids) == NonContainers(ns)
    decreases |ns|
  {
    if ns != [] {
      var tail := ns[1..];
      assert forall i :: 0 <= i < |tail| ==> tail[i] == ns[i + 1];
      if ns[0].Container? {
        // The tail still has its container ids inside `ids`, and the ids
        // of its non-containers stay outside.
        WithoutContainerIdsTail(ns, ids);
      } else {
        assert forall i :: 0 <= i < |ns| && ns[i].Container? ==> ns[i].Id() != ns[0].Id();
        assert ns[0].Id() !in ids;
        WithoutContainerIdsTail(ns, ids);
      }
    }
  }

  lemma {:induction false} WithoutContainerIdsTail(ns: seq<Node>, ids: set<Id>)
    requires ns != []
    requires IdsSeparate(ns)
    requires forall i :: 0 <= i < |ns| && ns[i].Container? ==> ns[i].Id() in ids
    requires forall id :: id in ids ==> exists i :: 0 <= i < |ns| && ns[i].Container? && ns[i].Id() == id
    ensures WithoutIds(ns[1..], ids) == NonContainers(ns[1..])
    decreases |ns|, 0
  {
    var tail := ns[1..];
    var ids' := set i | 0 <= i < |tail| && tail[i].Container? :: tail[i].Id();
    assert WithoutIds(tail, ids) == WithoutIds(tail, ids') by {
      SameFilterOnNonContainers(tail, ids, ids');
      assert forall j :: 0 <= j < |tail| && !tail[j].Container? ==> tail[j].Id() !in ids by {
        forall j | 0 <= j < |tail| && !tail[j].Container? ensures tail[j].Id() !in ids {
          assert ns[j + 1] == tail[j];
          assert forall i :: 0 <= i < |ns| && ns[i].Container? ==> ns[i].Id() != tail[j].Id();
        }
      }
    }
    assert IdsSeparate(tail) by {
      forall i, j | 0 <= i < |tail| && 0 <= j < |tail| && tail[i].Container? && !tail[j].Container?
        ensures tail[i].Id() != tail[j].Id()
      {
        assert ns[i + 1] == tail[i] && ns[j + 1] == tail[j];
      }
    }
    WithoutContainerIds(tail, ids');
  }

  /** Two id sets that agree on the containers and both miss every
      non-container filter the same way. */
  lemma {:induction false} SameFilterOnNonContainers(ns: seq<Node>, a: set<Id>, b: set<Id>)
    requires forall i :: 0 <= i < |ns| && ns[i].Container? ==> ns[i].Id() in a && ns[i].Id() in b
    requires forall j :: 0 <= j < |ns| && !ns[j].Container? ==> ns[j].Id() !in a
    requires forall j :: 0 <= j < |ns| && !ns[j].Container? ==> ns[j].Id() !in b
    ensures WithoutIds(ns, a) == WithoutIds(ns, b)
    decreases |ns|
  {
    if ns != [] {
      assert forall i :: 0 <= i < |ns[1..]| ==> ns[1..][i] == ns[i + 1];
      SameFilterOnNonContainers(ns[1..], a, b);
    }
  }

  lemma {:induction false} NonContainersHaveNone(ns: seq<Node>)
    ensures !HasContainerChild(NonContainers(ns))
    decreases |ns|
  {
    if ns != [] {
      NonContainersHaveNone(ns[1..]);
      var rest := NonContainers(ns[1..]);
      if !ns[0].Container? {
        assert NonContainers(ns) == [ns[0]] + rest;
        assert forall i :: 1 <= i < |[ns[0]] + rest| ==> ([ns[0]] + rest)[i] == rest[i - 1];
      }
    }
  }

  // ---------------------------------------------------------------------
  // adjustChildren

  /** The source's splice loop: the sections of each container, in order,
      are inserted one by one right after position `index` of `c`. */
  method SpliceSections(c: seq<Section>, index: int, conts: seq<SectionContainer>) returns (r: seq<Section>)
    requires -1 <= index < |c|
    ensures r == c[..index + 1] + Flatten(conts) + c[index + 1..]
  {
    r := c;
    var seen := 0;
    var i := 0;
    while i < |conts|
      invariant 0 <= i <= |conts|
      invariant seen == |Flatten(conts[..i])|
      invariant r == c[..index + 1] + Flatten(conts[..i]) + c[index + 1..]
    {
      var kids := conts[i].children;
      var j := 0;
      while j < |kids|
        invariant 0 <= j <= |kids|
        invariant r == c[..index + 1] + Flatten(conts[..i]) + kids[..j] + c[index + 1..]
      {
        var at := index + seen + j + 1;
        InsertAfterMiddle(c[..index + 1] + Flatten(conts[..i]), kids[..j], c[index + 1..], kids[j]);
        r := r[..at] + [kids[j]] + r[at..];
        assert kids[..j + 1] == kids[..j] + [kids[j]];
        j := j + 1;
      }
      assert kids[..j] == kids;
      assert conts[..i + 1] == conts[..i] + [conts[i]];
      FlattenConcat(conts[..i], [conts[i]]);
      assert Flatten([conts[i]]) == kids by {
        assert [conts[i]][1..] == [];
      }
      seen := seen + |kids|;
      i := i + 1;
    }
    assert conts[..i] == conts;
  }

  /** Inserting `x` right after `mid` extends `mid`. */
  lemma InsertAfterMiddle<T>(pre: seq<T>, mid: seq<T>, post: seq<T>, x: T)
    ensures var r := pre + mid + post;
            r[..|pre| + |mid|] + [x] + r[|pre| + |mid|..] == pre + (mid + [x]) + post
  {
    var r := pre + mid + post;
    assert r[..|pre| + |mid|] == pre + mid;
    assert r[|pre| + |mid|..] == post;
  }

  /** Splicing `flat` in after position `k` and then replacing the element
      at `k` puts `x` there, followed by `flat`. */
  lemma SpliceReplacing<T>(s: seq<T>, k: nat, x: T, flat: seq<T>)
    requires k < |s|
    ensures (s[..k + 1] + flat + s[k + 1..])[k := x] == s[..k] + [x] + flat + s[k + 1..]
  {
    assert s[..k + 1] == s[..k] + [s[k]];
  }

  /** Splicing `flat` in before everything puts it first. */
  lemma SpliceFirst<T>(s: seq<T>, flat: seq<T>)
    ensures s[..0] + flat + s[0..] == flat + s
  {
    assert s[..0] == [] && s[0..] == s;
  }

  /** Filtering out the ids of a section's container children leaves no
      container among them. */
  lemma KeptHasNoContainer(ns: seq<Node>)
    ensures !HasContainerChild(WithoutIds(ns, ContainerIdSet(ContainerChildren(ns))))
  {
    var kept := WithoutIds(ns, ContainerIdSet(ContainerChildren(ns)));
    forall i | 0 <= i < |kept| ensures !kept[i].Container? {
      if kept[i].Container? {
        var j :| 0 <= j < |ns| && ns[j] == kept[i];
        ContainerIdsCover(ns, j);
      }
    }
  }

  /** When no other child shares a container's id, filtering out the
      container ids keeps exactly the children that are not containers. */
  lemma KeptAreNonContainers(ns: seq<Node>)
    ensures IdsSeparate(ns) ==> WithoutIds(ns, ContainerIdSet(ContainerChildren(ns))) == NonContainers(ns)
  {
    if !IdsSeparate(ns) { return; }
    var ids := ContainerIdSet(ContainerChildren(ns));
    forall i | 0 <= i < |ns| && ns[i].Container?
      ensures ns[i].Id() in ids
    {
      ContainerIdsCover(ns, i);
    }
    forall id | id in ids
      ensures exists i :: 0 <= i < |ns| && ns[i].Container? && ns[i].Id() == id
    {
      ContainerIdsFromContainers(ns, id);
    }
    WithoutContainerIds(ns, ids);
  }

  datatype Adjusted = Adjusted(node: Section, container: SectionContainer)

  /** The section's position in the container is where the source finds it
      by id: the first section with that id must be the section itself. */
  predicate FoundAsItself(node: Section, c: SectionContainer) {
    var k := IndexOfSection(c.children, node.id);
    k >= 0 ==> c.children[k] == node
  }

  /** `adjustChildren(node, newContainer)`: the sections of every container
      child of `node` move, in order across and within the containers, to
      just after `node` in `newContainer`, and those containers leave
      `node.children`, whose other children keep their order. */
  function AdjustChildren(node: Section, c: SectionContainer): (r: Adjusted)
    requires FoundAsItself(node, c)
    ensures !HasContainerChild(r.node.children)
    ensures IdsSeparate(node.children) ==> r.node.children == NonContainers(node.children)
    ensures r.node == node.(children := r.node.children)
    ensures var k := IndexOfSection(c.children, node.id);
            var flat := Flatten(ContainerChildren(node.children));
            && (k >= 0 ==> r.container.children == c.children[..k] + [r.node] + flat + c.children[k + 1..])
            && (k == -1 ==> r.container.children == flat + c.children)
    ensures r.container == c.(children := r.container.children)
  {
    var k := IndexOfSection(c.children, node.id);
    var conts := ContainerChildren(node.children);
    var ids := ContainerIdSet(conts);
    var kept := WithoutIds(node.children, ids);
    var node' := node.(children := kept);
    var flat := Flatten(conts);
    var spliced := c.children[..k + 1] + flat + c.children[k + 1..];
    var children' := if k >= 0 then (SpliceReplacing(c.children, k, node', flat); spliced[k := node'])
                     else (SpliceFirst(c.children, flat); spliced);
    KeptHasNoContainer(node.children);
    KeptAreNonContainers(node.children);
    Adjusted(node', c.(children := children'))
  }

  // ---------------------------------------------------------------------
  // handleHeadingLevelIncrease

  datatype IncreaseOutcome =
    | IncreaseRefused
      /** The preceding section after the move, and the id handed to the
          removal callback, which takes the section out of its old place. */
    | Increased(parent: Section, removedId: Id)

  /** Whether the last child of a section is a container. */
  predicate EndsInContainer(s: Section) {
    s.children != [] && s.children[|s.children| - 1].Container?
  }

  /** Whether the last child of a section is a container that the
      container schema accepts (the source's `safeParse` test). A container
      holding a section whose default state is a display record, as the
      migrations leave it, is refused by the schema. */
  predicate EndsInValidContainer(s: Section) {
    EndsInContainer(s) && ValidContainer(s.children[|s.children| - 1].c)
  }

  /** The container the section moves into: the preceding section's last
      child when that is a container the schema accepts, otherwise a new
      one, appended after that last child. */
  function Destination(parent: Section, freshId: Id, now: Timestamp): (r: SectionContainer)
    ensures EndsInValidContainer(parent) ==>
              r == parent.children[|parent.children| - 1].c.(lastModified := now)
    ensures !EndsInValidContainer(parent) ==> r == CreateSectionContainer(freshId, now)
  {
    if EndsInValidContainer(parent) then parent.children[|parent.children| - 1].c.(lastModified := now)
    else CreateSectionContainer(freshId, now)
  }

  /** The children of the preceding section other than its destination
      container: all of them when a new container is appended. */
  function Before(parent: Section): (r: seq<Node>)
    ensures EndsInValidContainer(parent) ==> r + [parent.children[|parent.children| - 1]] == parent.children
    ensures !EndsInValidContainer(parent) ==> r == parent.children
  {
    if EndsInValidContainer(parent) then parent.children[..|parent.children| - 1] else parent.children
  }

  /** A preceding section whose last child is a container holding a
      migrated section (a display-record default state) gets a new
      container: the old one stays where it is, before the new one. */
  lemma MigratedContainerNotReused(parent: Section, k: nat, freshId: Id, now: Timestamp)
    requires EndsInContainer(parent)
    requires var c := parent.children[|parent.children| - 1].c;
             k < |c.children| && |c.children[k].view| > 0 && c.children[k].view[0].state.Display?
    ensures Destination(parent, freshId, now) == CreateSectionContainer(freshId, now)
    ensures Before(parent) == parent.children
  {
    var c := parent.children[|parent.children| - 1].c;
    assert !ValidSection(c.children[k]);
  }

  /** The section is not already in the container it is moving to. */
  predicate NotInDestination(node: Section, parent: Section, freshId: Id, now: Timestamp) {
    IndexOfSection(Destination(parent, freshId, now).children, node.id) == -1
  }

  /** A section appended to sections that lack its id is found at the end. */
  lemma IndexOfAppended(ss: seq<Section>, x: Section)
    requires IndexOfSection(ss, x.id) == -1
    ensures IndexOfSection(ss + [x], x.id) == |ss|
  {
    var t := ss + [x];
    assert forall j :: 0 <= j < |ss| ==> t[j] == ss[j];
    assert t[|ss|] == x;
  }

  /** The slices around the last element of `s + [x]`. */
  lemma AppendedSlices<T>(s: seq<T>, x: T)
    ensures (s + [x])[..|s|] == s && (s + [x])[|s| + 1..] == []
  {
  }

  /** Tab at the start of a heading. Without a preceding section at the
      current level nothing changes. Otherwise the level goes up by one and
      the section becomes the last section of the preceding section's last
      container (a new container when its last child is not one); then the
      sections of the moved section's own container children follow it
      there, in order, and those containers leave its children. */
  function HandleHeadingLevelIncrease(node: Section, preceding: Option<Section>, freshId: Id, now: Timestamp)
    : (r: IncreaseOutcome)
    requires preceding.Some? ==> NotInDestination(node, preceding.value, freshId, now)
    ensures r.IncreaseRefused? <==> preceding.None?
    ensures r.Increased? ==> |r.parent.children| > 0
    ensures r.Increased? ==>
              var parent := preceding.value;
              var dest := Destination(parent, freshId, now);
              var last := r.parent.children[|r.parent.children| - 1];
              && r.removedId == node.id
              && r.parent == parent.(children := r.parent.children, lastModified := now)
              && r.parent.children == Before(parent) + [last]
              && last.Container?
              && last.c == dest.(children := last.c.children)
              && |last.c.children| > |dest.children|
              && var moved := last.c.children[|dest.children|];
                 && last.c.children == dest.children + [moved] + Flatten(ContainerChildren(node.children))
                 && moved.heading.level == node.heading.level + 1
                 && moved.heading == node.heading.(level := node.heading.level + 1, lastModified := now)
                 && !HasContainerChild(moved.children)
                 && (IdsSeparate(node.children) ==> moved.children == NonContainers(node.children))
                 && moved == node.(heading := moved.heading, children := moved.children)
  {
    if preceding.None? then IncreaseRefused
    else
      var parent := preceding.value;
      var node1 := node.(heading := node.heading.(level := node.heading.level + 1, lastModified := now));
      var dest := Destination(parent, freshId, now);
      var c1 := dest.(children := dest.children + [node1]);
      IndexOfAppended(dest.children, node1);
      AppendedSlices(dest.children, node1);
      var adj := AdjustChildren(node1, c1);
      var parent' := parent.(children := Before(parent) + [Container(adj.container)], lastModified := now);
      assert parent'.children[|parent'.children| - 1] == Container(adj.container);
      assert adj.container.children[|dest.children|] == adj.node;
      Increased(parent', node.id)
  }

  // ---------------------------------------------------------------------
  // handleHeadingLevelDecrease

  /** What the three lookups returned. */
  datatype DecreaseEnv = DecreaseEnv(
    parentContainer: Option<SectionContainer>,
    parentSection: Option<Section>,
    grandparent: Option<SectionContainer>)

  /** The lookups return what their names promise: the enclosing container
      holds the section and is a child of the parent section, and the
      parent section, wherever the grandparent container lists it, is that
      very section. Ids are looked up as the source does. */
  predicate EnvAgrees(node: Section, env: DecreaseEnv) {
    && (env.parentContainer.Some? && env.parentSection.Some? ==>
          var pc := env.parentContainer.value;
          var p := env.parentSection.value;
          var ci := IndexOfNode(p.children, pc.id);
          var k := IndexOfSection(pc.children, node.id);
          && ci >= 0 && p.children[ci] == Container(pc)
          && k >= 0 && pc.children[k] == node)
    && (env.parentSection.Some? && env.grandparent.Some? ==>
          var p := env.parentSection.value;
          var g := env.grandparent.value;
          var pi := IndexOfSection(g.children, p.id);
          pi >= 0 ==> g.children[pi] == p)
  }

  /** The conditions under which the decrease is refused, in the order the
      source checks them. */
  predicate DecreaseRefusedBy(node: Section, env: DecreaseEnv) {
    || node.heading.level <= 1
    || HasContainerChild(node.children)
    || env.parentContainer.None? || env.parentSection.None? || env.grandparent.None?
    || IndexOfSection(env.grandparent.value.children, env.parentSection.value.id) == -1
  }

  datatype DecreaseOutcome =
    | DecreaseRefused
      /** The grandparent container after the move; `parent` and `node` are
          its entries at the parent's index and the next one. */
    | Decreased(grandparent: SectionContainer, parent: Section, node: Section)

  /** Steps 1 and 2 inside the section's own container: the siblings after
      it move below it, then it leaves the container. */
  function Detach(pc: SectionContainer, node: Section, freshId: Id, now: Timestamp)
    : (r: (SectionContainer, Section))
    requires var k := IndexOfSection(pc.children, node.id); k >= 0 && pc.children[k] == node
    ensures var k := IndexOfSection(pc.children, node.id);
            && r.0 == pc.(children := pc.children[..k], lastModified := now)
            && r.1 == Adopt(node, pc.children[k + 1..], freshId, now)
  {
    var k := IndexOfSection(pc.children, node.id);
    var pc1 := MoveSiblingsToSection(pc, node.id, freshId, now);
    assert IndexOfSection(pc1.children, node.id) == k by {
      assert forall j :: 0 <= j < k ==> pc1.children[j] == pc.children[j];
    }
    var pc2 := RemoveSectionFromContainer(pc1, node.id, now);
    assert pc2.children == pc.children[..k] by {
      assert pc2.children == RemoveAt(pc1.children, k);
    }
    (pc2, pc1.children[k])
  }

  /** Step 2 in the parent section: its container entry is the shortened
      container, and what followed it moves to the section. */
  function Rehome(p: Section, ci: nat, pc2: SectionContainer, node1: Section, now: Timestamp)
    : (r: SectionActions.MoveOutcome)
    requires ci < |p.children| && IndexOfNode(p.children, pc2.id) == ci
    ensures r.parent == p.(children := p.children[..ci] + [Container(pc2)], lastModified := now)
    ensures r.target == node1.(children := node1.children + p.children[ci + 1..], lastModified := now)
  {
    var p1 := p.(children := p.children[ci := Container(pc2)]);
    assert p1.children[..ci] == p.children[..ci];
    IndexOfNodeSamePrefix(p.children, p1.children, ci, pc2.id);
    var mv := SectionActions.MoveChildrenToSection(p1, pc2.id, node1, now);
    assert mv.parent.children == p.children[..ci] + [Container(pc2)] by {
      assert mv.parent.children + mv.moved == p1.children;
      assert p1.children[..ci + 1] == p.children[..ci] + [Container(pc2)];
    }
    assert mv.moved == p.children[ci + 1..] by {
      assert mv.parent.children + mv.moved == p1.children;
      assert p1.children[ci + 1..] == p.children[ci + 1..];
    }
    mv
  }

  /** Step 3: the grandparent container's entry for the parent is the
      updated parent, and the section follows it. */
  function Reinsert(g: SectionContainer, pi: nat, p2: Section, node2: Section, now: Timestamp)
    : (r: SectionContainer)
    requires pi < |g.children| && IndexOfSection(g.children, p2.id) == pi
    ensures r.children == g.children[..pi] + [p2, node2] + g.children[pi + 1..]
    ensures r == g.(children := r.children, lastModified := now)
  {
    var g1 := g.(children := g.children[pi := p2]);
    IndexAfterUpdate(g.children, pi, p2);
    var g2 := AddSectionAfter(g1, node2, p2.id, now);
    InsertAfterUpdate(g.children, pi, p2, node2);
    assert g2 == g1.(children := g2.children, lastModified := now);
    g2
  }

  /** Replacing the first section with a given id by another with the same
      id leaves it the first one with that id. */
  lemma IndexAfterUpdate(ss: seq<Section>, i: nat, x: Section)
    requires i < |ss| && IndexOfSection(ss, x.id) == i
    ensures IndexOfSection(ss[i := x], x.id) == i
  {
    var t := ss[i := x];
    assert forall j :: 0 <= j < i ==> t[j].id != x.id;
    assert t[i].id == x.id;
  }

  /** Replacing the element at `i` by `x` and inserting `y` right after it
      puts `x, y` in its place. */
  lemma InsertAfterUpdate<T>(s: seq<T>, i: nat, x: T, y: T)
    requires i < |s|
    ensures s[i := x][..i + 1] + [y] + s[i := x][i + 1..] == s[..i] + [x, y] + s[i + 1..]
  {
    assert s[i := x][..i + 1] == s[..i] + [x];
    assert s[i := x][i + 1..] == s[i + 1..];
  }

  /** The lookups of a decrease inside the parent section: `pc` is the
      section's container and `p` the parent section holding it. */
  predicate LiftApplies(node: Section, pc: SectionContainer, p: Section) {
    && !HasContainerChild(node.children)
    && (var ci := IndexOfNode(p.children, pc.id); ci >= 0 && p.children[ci] == Container(pc))
    && (var k := IndexOfSection(pc.children, node.id); k >= 0 && pc.children[k] == node)
  }

  /** The lookups of a decrease that no refusal stops: in addition, `g` is
      the grandparent container listing `p`. */
  predicate LowerApplies(node: Section, pc: SectionContainer, p: Section, g: SectionContainer) {
    && LiftApplies(node, pc, p)
    && (var pi := IndexOfSection(g.children, p.id); pi >= 0 && g.children[pi] == p)
  }

  /** The parent section and the section after steps 1 and 2 and the level
      change, before they go back into the grandparent container. */
  datatype Lifted = Lifted(parent: Section, node: Section)

  /** The sections that followed the decreased one, in a new container, or
      nothing when there were none. */
  function NewContainerOf(sections: seq<Section>, freshId: Id, now: Timestamp): seq<Node> {
    if sections == [] then [] else [Container(CreateSectionContainer(freshId, now).(children := sections))]
  }

  /** Steps 1 and 2 and the level change. The parent keeps its children up
      to the section's container, which now holds only the sections before
      this one. The section is one level up; below its own children come
      the sections that followed it, in a new container (a section with a
      container child is refused, so `Adopt` never reuses one, see
      `AdoptsInNewContainer`), and then what followed its container in the
      parent. */
  function Lift(node: Section, pc: SectionContainer, p: Section, freshId: Id, now: Timestamp): (r: Lifted)
    requires LiftApplies(node, pc, p)
    ensures r.parent.id == p.id
    ensures var ci := IndexOfNode(p.children, pc.id);
            var k := IndexOfSection(pc.children, node.id);
            r.parent.children == p.children[..ci] + [Container(pc.(children := pc.children[..k], lastModified := now))]
    ensures r.parent == p.(children := r.parent.children, lastModified := now)
  {
    var ci := IndexOfNode(p.children, pc.id);
    var (pc2, node1) := Detach(pc, node, freshId, now);
    var mv := Rehome(p, ci, pc2, node1, now);
    Lifted(mv.parent, mv.target.(heading := mv.target.heading.(level := node.heading.level - 1, lastModified := now),
                                 lastModified := now))
  }

  /** What `Lift` makes of the section itself. */
  lemma LiftRaisesSection(node: Section, pc: SectionContainer, p: Section, freshId: Id, now: Timestamp)
    requires LiftApplies(node, pc, p)
    ensures var r := Lift(node, pc, p, freshId, now).node;
            var ci := IndexOfNode(p.children, pc.id);
            var k := IndexOfSection(pc.children, node.id);
            && r.heading == node.heading.(level := node.heading.level - 1, lastModified := now)
            && r.children == node.children + NewContainerOf(pc.children[k + 1..], freshId, now) + p.children[ci + 1..]
            && r == node.(heading := r.heading, children := r.children, lastModified := now)
  {
    AdoptsInNewContainer(node, pc.children[IndexOfSection(pc.children, node.id) + 1..], freshId, now);
  }

  /** The grandparent container after a decrease, and its entries at the
      parent's index and the next one. */
  datatype Lowered = Lowered(grandparent: SectionContainer, parent: Section, node: Section)

  /** The restructuring itself, once every refusal has been ruled out: the
      grandparent lists the parent and, right after it, the section, both
      as `Lift` leaves them; nothing else in the grandparent changes. */
  function Lower(node: Section, pc: SectionContainer, p: Section, g: SectionContainer, freshId: Id, now: Timestamp)
    : (r: Lowered)
    requires LowerApplies(node, pc, p, g)
    ensures var pi := IndexOfSection(g.children, p.id);
            r.grandparent.children == g.children[..pi] + [r.parent, r.node] + g.children[pi + 1..]
    ensures r.grandparent == g.(children := r.grandparent.children, lastModified := now)
    ensures var l := Lift(node, pc, p, freshId, now); r.parent == l.parent && r.node == l.node
  {
    var l := Lift(node, pc, p, freshId, now);
    Lowered(Reinsert(g, IndexOfSection(g.children, p.id), l.parent, l.node, now), l.parent, l.node)
  }

  /** A section without a container child puts the sections it adopts in
      a new container after its own children. */
  lemma AdoptsInNewContainer(node: Section, sections: seq<Section>, freshId: Id, now: Timestamp)
    requires !HasContainerChild(node.children)
    ensures Adopt(node, sections, freshId, now) == node.(children := node.children + NewContainerOf(sections, freshId, now))
  {
    assert !EndsInContainer(node);
  }

  /** Backspace at the start of a heading. Refused at level 1, when the
      section has a container child, when a lookup found nothing, or when
      the parent is not in the grandparent container. Otherwise the
      sections after it in its container move below it (in a new container,
      see `Adopt`), it leaves its container, the children of the parent that
      followed that container become its children, and it is inserted into
      the grandparent container right after its parent, one level up. */
  function HandleHeadingLevelDecrease(node: Section, env: DecreaseEnv, freshId: Id, now: Timestamp)
    : (r: DecreaseOutcome)
    requires EnvAgrees(node, env)
    ensures r.DecreaseRefused? <==> DecreaseRefusedBy(node, env)
    ensures r.Decreased? ==>
              var l := Lower(node, env.parentContainer.value, env.parentSection.value, env.grandparent.value, freshId, now);
              r == Decreased(l.grandparent, l.parent, l.node)
  {
    if node.heading.level <= 1 then DecreaseRefused
    else if HasContainerChild(node.children) then DecreaseRefused
    else if env.parentContainer.None? || env.parentSection.None? || env.grandparent.None? then DecreaseRefused
    else if IndexOfSection(env.grandparent.value.children, env.parentSection.value.id) == -1 then DecreaseRefused
    else
      var l := Lower(node, env.parentContainer.value, env.parentSection.value, env.grandparent.value, freshId, now);
      Decreased(l.grandparent, l.parent, l.node)
  }
}

=== FILE: migrations.dfy ===
/** The versioned migration registry. A step names the schema version it
    migrates a document to and the rewrite it applies; registering a step
    keeps the steps ordered by that version, and migrating a document runs,
    in order, every step whose version is above the document's, stamping
    each step's version on the document right after it. */
module Migrations {
  import opened Wrappers
  import opened Views
  import opened Collection
  import opened Doc
  import opened Traversal
  import SectionMigrations
  import ContainerMigrations

  /** The three rewrites the repository registers. */
  datatype Migration = SectionViewState | ContainerCardMultilevel | SectionAnimation

  function VisitorsOf(m: Migration): Visitors {
    match m
    case SectionViewState => NoVisitors.(section := Some(SectionMigrations.UpdateSectionViewState))
    case ContainerCardMultilevel =>
      NoVisitors.(sectionContainer := Some(ContainerMigrations.UpdateSectionContainerCardViewState))
    case SectionAnimation => NoVisitors.(section := Some(SectionMigrations.AddAnimationProperty))
  }

  /** Each step walks a copy of the document with its one visitor. */
  function Migrate(m: Migration, d: Document): Document {
    TraverseDocument(d, VisitorsOf(m))
  }

  datatype Step = Step(toVersion: nat, migration: Migration)

  type Registry = seq<Step>

  function VersionLe(a: Step, b: Step): bool {
    a.toVersion <= b.toVersion
  }

  /** Ascending by version. Only a `VersionLe` term about two of its
      elements brings the order of those two into a proof. */
  predicate Sorted(reg: Registry) {
    forall i, j {:trigger VersionLe(reg[i], reg[j])} :: 0 <= i < j < |reg| ==> VersionLe(reg[i], reg[j])
  }

  // ---------------------------------------------------------------------
  // Registering: push, then a stable sort by version

  /** The first position whose step has a version above `v`, or the end. */
  function InsertionPoint(reg: Registry, v: nat): (k: nat)
    ensures k <= |reg|
    ensures forall i :: 0 <= i < k ==> reg[i].toVersion <= v
    ensures k < |reg| ==> reg[k].toVersion > v
  {
    if reg == [] || reg[0].toVersion > v then 0 else 1 + InsertionPoint(reg[1..], v)
  }

  /** Insert `s` before the first step whose version is above its own,
      which keeps steps of equal version in arrival order. */
  function InsertStep(reg: Registry, s: Step): (r: Registry)
    ensures |r| == |reg| + 1
    ensures r[0] == s || (|reg| > 0 && r[0] == reg[0])
  {
    if reg == [] || reg[0].toVersion > s.toVersion then [s] + reg
    else
      assert reg == [reg[0]] + reg[1..];
      [reg[0]] + InsertStep(reg[1..], s)
  }

  /** Insertion sort by version; stable. */
  function SortSteps(xs: Registry): Registry
    decreases |xs|
  {
    if xs == [] then [] else InsertStep(SortSteps(xs[..|xs| - 1]), xs[|xs| - 1])
  }

  /** Cutting the tail of a sequence at `k` is cutting the sequence at
      `k + 1`. */
  lemma ConsSlices<T>(xs: seq<T>, k: nat)
    requires 0 < |xs| && k < |xs|
    ensures [xs[0]] + xs[1..][..k] == xs[..k + 1]
    ensures xs[1..][k..] == xs[k + 1..]
  {
  }

  lemma {:induction false} InsertStepPlaces(reg: Registry, s: Step)
    ensures var k := InsertionPoint(reg, s.toVersion);
            InsertStep(reg, s) == reg[..k] + [s] + reg[k..]
    decreases |reg|
  {
    if reg != [] && reg[0].toVersion <= s.toVersion {
      InsertStepPlaces(reg[1..], s);
      ConsSlices(reg, InsertionPoint(reg[1..], s.toVersion));
    }
  }

  lemma SortedCons(a: Step, b: Registry)
    requires Sorted(b)
    requires forall i :: 0 <= i < |b| ==> a.toVersion <= b[i].toVersion
    ensures Sorted([a] + b)
  {
    var r := [a] + b;
    forall i, j | 0 <= i < j < |r|
      ensures VersionLe(r[i], r[j])
    {
      assert r[j] == b[j - 1];
      if i > 0 {
        assert r[i] == b[i - 1];
        assert VersionLe(b[i - 1], b[j - 1]);
      }
    }
  }

  lemma SortedTail(reg: Registry)
    requires Sorted(reg) && reg != []
    ensures Sorted(reg[1..])
  {
    var t := reg[1..];
    forall i, j | 0 <= i < j < |t|
      ensures VersionLe(t[i], t[j])
    {
      assert t[i] == reg[i + 1] && t[j] == reg[j + 1];
      assert VersionLe(reg[i + 1], reg[j + 1]);
    }
  }

  lemma SortedPrefix(reg: Registry, n: nat)
    requires Sorted(reg) && n <= |reg|
    ensures Sorted(reg[..n])
  {
    var t := reg[..n];
    forall i, j | 0 <= i < j < |t|
      ensures VersionLe(t[i], t[j])
    {
      assert t[i] == reg[i] && t[j] == reg[j];
      assert VersionLe(reg[i], reg[j]);
    }
  }

  /** In a sorted registry the first step is the lowest. */
  lemma SortedFirstLowest(reg: Registry, i: nat)
    requires Sorted(reg) && 0 < i < |reg|
    ensures reg[0].toVersion <= reg[i].toVersion
  {
    assert VersionLe(reg[0], reg[i]);
  }

  lemma {:induction false} InsertStepKeepsOrder(reg: Registry, s: Step)
    requires Sorted(reg)
    ensures Sorted(InsertStep(reg, s))
    decreases |reg|
  {
    if reg == [] || reg[0].toVersion > s.toVersion {
      forall i | 0 <= i < |reg|
        ensures s.toVersion <= reg[i].toVersion
      {
        if i > 0 {
          SortedFirstLowest(reg, i);
        }
      }
      SortedCons(s, reg);
    } else {
      var t := reg[1..];
      SortedTail(reg);
      InsertStepKeepsOrder(t, s);
      var r' := InsertStep(t, s);
      forall i | 0 <= i < |r'|
        ensures reg[0].toVersion <= r'[i].toVersion
      {
        if i > 0 {
          SortedFirstLowest(r', i);
        }
        if r'[0] != s {
          assert r'[0] == reg[1];
          SortedFirstLowest(reg, 1);
        }
      }
      SortedCons(reg[0], r');
    }
  }

  lemma SplitPermutes<T>(xs: seq<T>, k: nat, x: T)
    requires k <= |xs|
    ensures multiset(xs[..k] + [x] + xs[k..]) == multiset(xs) + multiset{x}
  {
    assert xs == xs[..k] + xs[k..];
  }

  lemma SnocPermutes<T>(xs: seq<T>)
    requires xs != []
    ensures multiset(xs) == multiset(xs[..|xs| - 1]) + multiset{xs[|xs| - 1]}
  {
    assert xs == xs[..|xs| - 1] + [xs[|xs| - 1]];
  }

  lemma InsertStepPermutes(reg: Registry, s: Step)
    ensures multiset(InsertStep(reg, s)) == multiset(reg) + multiset{s}
  {
    InsertStepPlaces(reg, s);
    SplitPermutes(reg, InsertionPoint(reg, s.toVersion), s);
  }

  lemma {:induction false} SortStepsOrders(xs: Registry)
    ensures Sorted(SortSteps(xs))
    decreases |xs|
  {
    if xs != [] {
      SortStepsOrders(xs[..|xs| - 1]);
      InsertStepKeepsOrder(SortSteps(xs[..|xs| - 1]), xs[|xs| - 1]);
    }
  }

  lemma {:induction false} SortStepsPermutes(xs: Registry)
    ensures multiset(SortSteps(xs)) == multiset(xs)
    decreases |xs|
  {
    if xs != [] {
      var init := xs[..|xs| - 1];
      SortStepsPermutes(init);
      InsertStepPermutes(SortSteps(init), xs[|xs| - 1]);
      SnocPermutes(xs);
    }
  }

  /** A step no lower than every step of a registry is appended. */
  lemma {:induction false} InsertStepAfterAll(reg: Registry, s: Step)
    requires forall i :: 0 <= i < |reg| ==> reg[i].toVersion <= s.toVersion
    ensures InsertStep(reg, s) == reg + [s]
    decreases |reg|
  {
    if reg != [] {
      InsertStepAfterAll(reg[1..], s);
      assert reg == [reg[0]] + reg[1..];
    }
  }

  lemma {:induction false} SortStepsKeepsSorted(xs: Registry)
    requires Sorted(xs)
    ensures SortSteps(xs) == xs
    decreases |xs|
  {
    if xs != [] {
      var init, last := xs[..|xs| - 1], xs[|xs| - 1];
      SortedPrefix(xs, |xs| - 1);
      SortStepsKeepsSorted(init);
      forall i | 0 <= i < |init|
        ensures init[i].toVersion <= last.toVersion
      {
        assert VersionLe(xs[i], xs[|xs| - 1]);
      }
      InsertStepAfterAll(init, last);
      assert xs == init + [last];
    }
  }

  /** The registry after `registerStep`: sorted by version and a
      permutation of the old steps plus the new one; on a sorted registry
      the new step lands after every step whose version is not above its
      own and before the rest. */
  function RegisterStep(reg: Registry, s: Step): (r: Registry)
    ensures Sorted(r)
    ensures multiset(r) == multiset(reg) + multiset{s}
    ensures Sorted(reg) ==>
              var k := InsertionPoint(reg, s.toVersion);
              r == reg[..k] + [s] + reg[k..]
  {
    var all := reg + [s];
    SortStepsOrders(all);
    SortStepsPermutes(all);
    assert all[..|all| - 1] == reg;
    assert Sorted(reg) ==> SortSteps(all) == InsertStep(reg, s) by {
      if Sorted(reg) {
        SortStepsKeepsSorted(reg);
      }
    }
    InsertStepPlaces(reg, s);
    SortSteps(all)
  }

  lemma RegisterIntoEmpty(x: Step)
    ensures RegisterStep([], x) == [x]
  {
    var e: Registry := [];
    assert InsertionPoint(e, x.toVersion) == 0;
  }

  lemma RegisterAfterOne(x: Step, y: Step)
    requires x.toVersion <= y.toVersion
    ensures RegisterStep([x], y) == [x, y]
  {
    var r: Registry := [x];
    assert Sorted(r);
    assert InsertionPoint(r, y.toVersion) == 1;
  }

  lemma RegisterBetween(x: Step, y: Step, z: Step)
    requires x.toVersion <= z.toVersion < y.toVersion
    ensures RegisterStep([x, y], z) == [x, z, y]
  {
    var r: Registry := [x, y];
    assert VersionLe(r[0], r[1]);
    assert Sorted(r);
    assert InsertionPoint(r[1..], z.toVersion) == 0;
    assert InsertionPoint(r, z.toVersion) == 1;
    assert r[..1] == [x] && r[1..] == [y];
  }

  /** Three steps registered into an empty registry, the middle version
      last, come out in version order. */
  lemma RegisterThree(x: Step, y: Step, z: Step)
    requires x.toVersion < z.toVersion < y.toVersion
    ensures RegisterStep(RegisterStep(RegisterStep([], x), y), z) == [x, z, y]
  {
    RegisterIntoEmpty(x);
    RegisterAfterOne(x, y);
    RegisterBetween(x, y, z);
  }

  // ---------------------------------------------------------------------
  // Migrating

  /** The steps above the given version, in registry order. */
  function Applicable(reg: Registry, current: nat): (r: Registry)
    ensures |r| <= |reg|
    ensures forall i :: 0 <= i < |r| ==> r[i].toVersion > current
    ensures r == [] <==> forall i :: 0 <= i < |reg| ==> reg[i].toVersion <= current
  {
    if reg == [] then []
    else if reg[0].toVersion > current then [reg[0]] + Applicable(reg[1..], current)
    else Applicable(reg[1..], current)
  }

  /** What running a step does to a document: the step's own rewrite,
      passed in so that the engine is stated for any rewrites. */
  type Apply = (Migration, Document) -> Document

  /** Runs the steps in order, setting the version after each one. */
  function RunSteps(steps: Registry, d: Document, apply: Apply): (r: Document)
    ensures steps == [] ==> r == d
    ensures steps != [] ==> r.version == Some(steps[|steps| - 1].toVersion)
    decreases |steps|
  {
    if steps == [] then d
    else RunSteps(steps[1..], apply(steps[0].migration, d).(version := Some(steps[0].toVersion)), apply)
  }

  /** A document without a version is at version 0. */
  function CurrentVersion(d: Document): nat {
    d.version.GetOr(0)
  }

  /** `migrateDocument`: with no step above the document's version the
      document comes back as it is; otherwise the applicable steps run and
      the version becomes the last one's, which is above the old version,
      so the version never goes down. */
  function MigrateDocument(reg: Registry, d: Document, apply: Apply): (r: Document)
    ensures var steps := Applicable(reg, CurrentVersion(d));
            && (steps == [] ==> r == d)
            && (steps != [] ==> r.version == Some(steps[|steps| - 1].toVersion))
            && (steps != [] ==> CurrentVersion(r) > CurrentVersion(d))
    ensures CurrentVersion(r) >= CurrentVersion(d)
  {
    var steps := Applicable(reg, CurrentVersion(d));
    if |steps| == 0 then d else RunSteps(steps, d, apply)
  }

  /** On a sorted registry the last applicable step is the registry's
      last step. */
  lemma {:induction false} LastApplicableIsLast(reg: Registry, current: nat)
    requires Sorted(reg) && Applicable(reg, current) != []
    ensures var steps := Applicable(reg, current);
            steps[|steps| - 1] == reg[|reg| - 1]
    decreases |reg|
  {
    var tail := reg[1..];
    SortedTail(reg);
    if tail != [] {
      if Applicable(tail, current) == [] {
        // the first step would be the only one above `current`, yet it is
        // not above the last one
        SortedFirstLowest(reg, |reg| - 1);
        assert false;
      }
      LastApplicableIsLast(tail, current);
    }
  }

  /** The applicable steps are exactly the registered steps above the
      version. */
  lemma {:induction false} ApplicableMembers(reg: Registry, current: nat, s: Step)
    ensures s in Applicable(reg, current) <==> s in reg && s.toVersion > current
    decreases |reg|
  {
    if reg != [] {
      ApplicableMembers(reg[1..], current, s);
      assert reg == [reg[0]] + reg[1..];
    }
  }

  /** On a sorted registry a migration that runs any step ends at the
      registry's highest version. */
  lemma MigrationReachesLatest(reg: Registry, d: Document, apply: Apply)
    requires Sorted(reg) && Applicable(reg, CurrentVersion(d)) != []
    ensures MigrateDocument(reg, d, apply).version == Some(reg[|reg| - 1].toVersion)
  {
    LastApplicableIsLast(reg, CurrentVersion(d));
    EndsAtLastApplicable(reg, d, apply, reg[|reg| - 1]);
  }

  lemma EndsAtLastApplicable(reg: Registry, d: Document, apply: Apply, last: Step)
    requires var steps := Applicable(reg, CurrentVersion(d));
             steps != [] && steps[|steps| - 1] == last
    ensures MigrateDocument(reg, d, apply).version == Some(last.toVersion)
  {
  }

  /** On a sorted registry migrating twice is migrating once: the second
      call finds no step above the version the first one reached. */
  lemma MigrateIdempotent(reg: Registry, d: Document, apply: Apply)
    requires Sorted(reg)
    ensures MigrateDocument(reg, MigrateDocument(reg, d, apply), apply) == MigrateDocument(reg, d, apply)
  {
    var r := MigrateDocument(reg, d, apply);
    if Applicable(reg, CurrentVersion(d)) != [] {
      MigrationReachesLatest(reg, d, apply);
      forall i | 0 <= i < |reg|
        ensures reg[i].toVersion <= CurrentVersion(r)
      {
        if i < |reg| - 1 {
          assert VersionLe(reg[i], reg[|reg| - 1]);
        }
      }
    }
  }

  /** Running steps with the repository's rewrites keeps the document's
      identity, timestamps and editing state. */
  lemma {:induction false} RunStepsKeepsDocumentFields(steps: Registry, d: Document)
    ensures var r := RunSteps(steps, d, Migrate);
            r.id == d.id && r.created == d.created && r.lastModified == d.lastModified && r.state == d.state
    decreases |steps|
  {
    if steps != [] {
      RunStepsKeepsDocumentFields(steps[1..], Migrate(steps[0].migration, d).(version := Some(steps[0].toVersion)));
    }
  }

  /** The node type each step rewrites, and its rewrite of that type's
      view array. */
  function TargetOf(m: Migration): Tag {
    if m == ContainerCardMultilevel then ContainerTag else SectionTag
  }

  function RewriteOf(m: Migration): Rewrite {
    match m
    case SectionViewState => SectionMigrations.UpdateSectionViewState
    case ContainerCardMultilevel => ContainerMigrations.UpdateSectionContainerCardViewState
    case SectionAnimation => SectionMigrations.AddAnimationProperty
  }

  /** A step changes only view arrays, and of those only the ones held by
      nodes of its target type, each by its rewrite; everything else in the
      document and its tree is left as it was. */
  lemma MigrateRewritesTargetViews(m: Migration, d: Document)
    ensures var r := Migrate(m, d);
            var before, after := ViewOrder(d.content), ViewOrder(r.content);
            && r == d.(content := r.content)
            && Strip(r.content) == Strip(d.content)
            && |after| == |before|
            && forall i :: 0 <= i < |before| ==>
                 && after[i].tag == before[i].tag
                 && (before[i].tag == TargetOf(m) ==> after[i].view == RewriteOf(m)(before[i].view))
                 && (before[i].tag != TargetOf(m) ==> after[i].view == before[i].view)
  {
    DocumentRewritesViewsOnly(d, VisitorsOf(m));
  }

  // ---------------------------------------------------------------------
  // The repository's registry

  const SectionStepV1 := Step(1, SectionViewState)
  const SectionStepV3 := Step(3, SectionAnimation)
  const ContainerStepV2 := Step(2, ContainerCardMultilevel)

  /** Registered in the order the module does it: the section steps
      (versions 1 and 3), then the section-container step (version 2). */
  function Registered(): Registry {
    RegisterStep(RegisterStep(RegisterStep([], SectionStepV1), SectionStepV3), ContainerStepV2)
  }

  lemma RegisteredInVersionOrder()
    ensures Registered() == [SectionStepV1, ContainerStepV2, SectionStepV3]
  {
    RegisterThree(SectionStepV1, SectionStepV3, ContainerStepV2);
  }

  /** `migrateDocumentIfNeeded`: the registry above with the repository's
      rewrites. Identity, timestamps and editing state are kept, and the
      version never goes down. */
  function MigrateDocumentIfNeeded(d: Document): (r: Document)
    ensures r.id == d.id && r.created == d.created && r.lastModified == d.lastModified
    ensures r.state == d.state
    ensures CurrentVersion(r) >= CurrentVersion(d)
  {
    var steps := Applicable(Registered(), CurrentVersion(d));
    RunStepsKeepsDocumentFields(steps, d);
    MigrateDocument(Registered(), d, Migrate)
  }

  lemma MigrateDocumentIfNeededIdempotent(d: Document)
    ensures MigrateDocumentIfNeeded(MigrateDocumentIfNeeded(d)) == MigrateDocumentIfNeeded(d)
  {
    RegisteredInVersionOrder();
    MigrateIdempotent(Registered(), d, Migrate);
  }

  /** A three-step registry run from below its first version runs every
      step in order, each one setting the version after its rewrite. */
  lemma RunsAllThree(reg: Registry, a: Step, b: Step, c: Step, d: Document, apply: Apply)
    requires reg == [a, b, c]
    requires CurrentVersion(d) < a.toVersion && CurrentVersion(d) < b.toVersion && CurrentVersion(d) < c.toVersion
    ensures MigrateDocument(reg, d, apply) ==
              var d1 := apply(a.migration, d).(version := Some(a.toVersion));
              var d2 := apply(b.migration, d1).(version := Some(b.toVersion));
              apply(c.migration, d2).(version := Some(c.toVersion))
  {
    var t1 := reg[1..];
    var t2 := t1[1..];
    assert t1 == [b, c] && t2 == [c] && t2[1..] == [];
    assert Applicable(t2[1..], CurrentVersion(d)) == [];
    assert Applicable(t2, CurrentVersion(d)) == [c];
    assert Applicable(t1, CurrentVersion(d)) == [b, c];
    assert Applicable(reg, CurrentVersion(d)) == reg;
    var d1 := apply(a.migration, d).(version := Some(a.toVersion));
    var d2 := apply(b.migration, d1).(version := Some(b.toVersion));
    assert RunSteps(reg, d, apply) == RunSteps(t1, d1, apply);
    assert RunSteps(t1, d1, apply) == RunSteps(t2, d2, apply);
  }

  /** A three-step registry whose first step alone is at or below the
      document's version runs the other two in order. */
  lemma RunsLastTwoOfThree(reg: Registry, a: Step, b: Step, c: Step, d: Document, apply: Apply)
    requires reg == [a, b, c]
    requires a.toVersion <= CurrentVersion(d) && CurrentVersion(d) < b.toVersion && CurrentVersion(d) < c.toVersion
    ensures MigrateDocument(reg, d, apply) ==
              var d2 := apply(b.migration, d).(version := Some(b.toVersion));
              apply(c.migration, d2).(version := Some(c.toVersion))
  {
    var t1 := reg[1..];
    var t2 := t1[1..];
    assert t1 == [b, c] && t2 == [c] && t2[1..] == [];
    assert Applicable(t2[1..], CurrentVersion(d)) == [];
    assert Applicable(t2, CurrentVersion(d)) == [c];
    assert Applicable(t1, CurrentVersion(d)) == [b, c];
    assert Applicable(reg, CurrentVersion(d)) == [b, c];
    var d2 := apply(b.migration, d).(version := Some(b.toVersion));
    assert RunSteps(t1, d, apply) == RunSteps(t2, d2, apply);
  }

  /** A three-step registry whose last step alone is above the document's
      version runs that step only. */
  lemma RunsLastOfThree(reg: Registry, a: Step, b: Step, c: Step, d: Document, apply: Apply)
    requires reg == [a, b, c]
    requires a.toVersion <= CurrentVersion(d) && b.toVersion <= CurrentVersion(d) && CurrentVersion(d) < c.toVersion
    ensures MigrateDocument(reg, d, apply) == apply(c.migration, d).(version := Some(c.toVersion))
  {
    var t1 := reg[1..];
    var t2 := t1[1..];
    assert t1 == [b, c] && t2 == [c] && t2[1..] == [];
    assert Applicable(t2[1..], CurrentVersion(d)) == [];
    assert Applicable(t2, CurrentVersion(d)) == [c];
    assert Applicable(t1, CurrentVersion(d)) == [c];
    assert Applicable(reg, CurrentVersion(d)) == [c];
  }

  /** A registry with no step above the document's version leaves it as
      it is. */
  lemma RunsNoneOfThree(reg: Registry, a: Step, b: Step, c: Step, d: Document, apply: Apply)
    requires reg == [a, b, c]
    requires a.toVersion <= CurrentVersion(d) && b.toVersion <= CurrentVersion(d) && c.toVersion <= CurrentVersion(d)
    ensures MigrateDocument(reg, d, apply) == d
  {
    var t1 := reg[1..];
    var t2 := t1[1..];
    assert t1 == [b, c] && t2 == [c] && t2[1..] == [];
    assert Applicable(t2[1..], CurrentVersion(d)) == [];
    assert Applicable(t2, CurrentVersion(d)) == [];
    assert Applicable(t1, CurrentVersion(d)) == [];
    assert Applicable(reg, CurrentVersion(d)) == [];
  }

  /** From version 0 (or none) the three rewrites run in version order:
      section view states, then section-container card states, then
      section animations, and the document ends at version 3. */
  lemma MigrateFromVersionZero(d: Document)
    requires CurrentVersion(d) == 0
    ensures var r := MigrateDocumentIfNeeded(d);
            && r.version == Some(3)
            && r.content == TraverseNode(TraverseNode(TraverseNode(d.content,
                 VisitorsOf(SectionViewState)), VisitorsOf(ContainerCardMultilevel)), VisitorsOf(SectionAnimation))
  {
    RegisteredInVersionOrder();
    RunsAllThree(Registered(), SectionStepV1, ContainerStepV2, SectionStepV3, d, Migrate);
  }

  /** From version 1 the card step and then the animation step run. */
  lemma MigrateFromVersionOne(d: Document)
    requires CurrentVersion(d) == 1
    ensures var r := MigrateDocumentIfNeeded(d);
            && r.version == Some(3)
            && r.content == TraverseNode(TraverseNode(d.content,
                 VisitorsOf(ContainerCardMultilevel)), VisitorsOf(SectionAnimation))
  {
    RegisteredInVersionOrder();
    RunsLastTwoOfThree(Registered(), SectionStepV1, ContainerStepV2, SectionStepV3, d, Migrate);
  }

  /** From version 2 only the animation step runs. */
  lemma MigrateFromVersionTwo(d: Document)
    requires CurrentVersion(d) == 2
    ensures var r := MigrateDocumentIfNeeded(d);
            && r.version == Some(3)
            && r.content == TraverseNode(d.content, VisitorsOf(SectionAnimation))
  {
    RegisteredInVersionOrder();
    RunsLastOfThree(Registered(), SectionStepV1, ContainerStepV2, SectionStepV3, d, Migrate);
  }

  /** From version 3 on nothing changes. */
  lemma MigrateFromVersionThree(d: Document)
    requires CurrentVersion(d) >= 3
    ensures MigrateDocumentIfNeeded(d) == d
  {
    RegisteredInVersionOrder();
    RunsNoneOfThree(Registered(), SectionStepV1, ContainerStepV2, SectionStepV3, d, Migrate);
  }
}

=== FILE: section_actions.dfy ===
/** Edits of one section: joining and splitting paragraphs, Enter at the end
    of a heading, cutting a section in two at a paragraph, and moving the
    children that follow a container into another section. Each edit checks
    everything before it changes anything; a refused edit returns the
    section as it was. */
module SectionActions {
  import opened Wrappers
  import opened Views
  import opened Content
  import opened Collection
  import opened Doc
  import ContainerActions

  // ---------------------------------------------------------------------
  // moveChildrenToSection

  datatype MoveOutcome = MoveOutcome(parent: Section, target: Section, moved: seq<Node>)

  /** The children of `parent` after the node with `containerId` move, in
      order, to the end of `target`'s children and are returned. An unknown
      id changes nothing and moves nothing. */
  function MoveChildrenToSection(parent: Section, containerId: Id, target: Section, now: Timestamp)
    : (r: MoveOutcome)
    ensures IndexOfNode(parent.children, containerId) == -1 ==>
              r == MoveOutcome(parent, target, [])
    ensures var k := IndexOfNode(parent.children, containerId);
            k >= 0 ==>
              && r.parent.children + r.moved == parent.children
              && |r.parent.children| == k + 1
              && r.target.children == target.children + r.moved
              && r.parent == parent.(children := r.parent.children, lastModified := now)
              && r.target == target.(children := r.target.children, lastModified := now)
  {
    var k := IndexOfNode(parent.children, containerId);
    if k == -1 then MoveOutcome(parent, target, [])
    else
      var after := parent.children[k + 1..];
      assert parent.children[..k + 1] + after == parent.children;
      MoveOutcome(
        parent.(children := parent.children[..k + 1], lastModified := now),
        target.(children := target.children + after, lastModified := now),
        after)
  }

  // ---------------------------------------------------------------------
  // joinWithPreviousParagraph

  datatype EditOutcome = EditOutcome(ok: bool, section: Section, focus: Option<Focus>)

  /** When the join is attempted far enough to read the current element. */
  predicate JoinReadsCurrent(items: seq<Node>, currentIndex: int, prevId: Id) {
    prevId != "" && 0 <= IndexOfNode(items, prevId) < currentIndex
  }

  /** The current element is read past the end of the array: the source
      reads `type` of `undefined` and throws. Nothing has been changed by
      then. */
  predicate JoinThrows(items: seq<Node>, currentIndex: int, prevId: Id) {
    JoinReadsCurrent(items, currentIndex, prevId) && currentIndex >= |items|
  }

  /** The conditions under which a join takes place. */
  predicate JoinApplies(items: seq<Node>, currentIndex: int, prevId: Id) {
    && JoinReadsCurrent(items, currentIndex, prevId)
    && currentIndex < |items|
    && items[currentIndex].Para?
    && items[IndexOfNode(items, prevId)].Para?
  }

  /** `thrown` is the source's error on reading past the array; a join
      that does not apply returns false (`ok`). */
  datatype JoinOutcome = JoinOutcome(thrown: bool, ok: bool, section: Section, focus: Option<Focus>)

  /** Backspace at the start of a paragraph: the previous paragraph (found by
      `prevId`, strictly before `currentIndex`) absorbs the current one,
      which is removed. Focus goes to the previous paragraph at the join
      point: the editor position after its text before the join (see
      Findings in the README for the number the source passes). */
  function JoinWithPreviousParagraph(node: Section, arr: Arr, currentIndex: int, prevId: Id, now: Timestamp)
    : (r: JoinOutcome)
    ensures r.thrown <==> JoinThrows(Items(node, arr), currentIndex, prevId)
    ensures r.ok <==> JoinApplies(Items(node, arr), currentIndex, prevId)
    ensures !r.ok ==> r.section == node && r.focus == None
    ensures r.ok ==>
              var items := Items(node, arr);
              var pi := IndexOfNode(items, prevId);
              var prev := items[pi].p;
              var joined := prev.content + items[currentIndex].p.content;
              && |Items(r.section, arr)| == |items| - 1
              && Items(r.section, arr) == RemoveAt(items, currentIndex)[pi := Para(prev.(content := joined, lastModified := now))]
              && r.section == WithItems(node, arr, Items(r.section, arr)).(lastModified := now)
              && r.focus == Some(Focus(prevId, At(Utf16Length(prev.content) + 1)))
              && joined[..|prev.content|] == prev.content
              && joined[|prev.content|..] == items[currentIndex].p.content
  {
    var items := Items(node, arr);
    if JoinThrows(items, currentIndex, prevId) then JoinOutcome(true, false, node, None)
    else if !JoinApplies(items, currentIndex, prevId) then JoinOutcome(false, false, node, None)
    else
      var prev := items[IndexOfNode(items, prevId)].p;
      JoinOutcome(false, true, JoinedSection(node, arr, currentIndex, prevId, now), Some(Focus(prevId, At(Utf16Length(prev.content) + 1))))
  }

  /** The section after a join that applies. */
  function JoinedSection(node: Section, arr: Arr, currentIndex: int, prevId: Id, now: Timestamp): Section
    requires JoinApplies(Items(node, arr), currentIndex, prevId)
  {
    var items := Items(node, arr);
    var pi := IndexOfNode(items, prevId);
    var prev := items[pi].p;
    var joined := prev.content + items[currentIndex].p.content;
    var items' := RemoveAt(items, currentIndex)[pi := Para(prev.(content := joined, lastModified := now))];
    WithItems(node, arr, items').(lastModified := now)
  }

  /** The join as the source writes it: identical except that the number
      passed as the cursor position is read after the join, i.e. it is the
      UTF-16 length of the joined text. */
  function JoinWithPreviousParagraphAsWritten(node: Section, arr: Arr, currentIndex: int, prevId: Id, now: Timestamp)
    : (r: JoinOutcome)
    ensures r.thrown <==> JoinThrows(Items(node, arr), currentIndex, prevId)
    ensures r.ok <==> JoinApplies(Items(node, arr), currentIndex, prevId)
    ensures var items := Items(node, arr);
            JoinApplies(items, currentIndex, prevId) ==>
              r.focus == Some(Focus(prevId, At(Utf16Length(items[IndexOfNode(items, prevId)].p.content
                                                           + items[currentIndex].p.content))))
    ensures r.section == JoinWithPreviousParagraph(node, arr, currentIndex, prevId, now).section
  {
    var items := Items(node, arr);
    if JoinThrows(items, currentIndex, prevId) then JoinOutcome(true, false, node, None)
    else if !JoinApplies(items, currentIndex, prevId) then JoinOutcome(false, false, node, None)
    else
      var joined := items[IndexOfNode(items, prevId)].p.content + items[currentIndex].p.content;
      JoinOutcome(false, true, JoinedSection(node, arr, currentIndex, prevId, now), Some(Focus(prevId, At(Utf16Length(joined)))))
  }

  /** The position after `prev` lands at the end of `prev`, whether the
      editor still shows `prev` or already shows the joined text. */
  lemma JoinPointLanding(prev: string, cur: string)
    ensures Landing(At(Utf16Length(prev) + 1), Utf16Length(prev)) == Utf16Length(prev)
    ensures Landing(At(Utf16Length(prev) + 1), Utf16Length(prev + cur)) == Utf16Length(prev)
  {
    Utf16LengthAppend(prev, cur);
  }

  /** Where the joined text's length lands when read as a position. */
  lemma JoinedLengthLanding(prev: string, cur: string)
    ensures var u, v := Utf16Length(prev), Utf16Length(cur);
            var c := At(Utf16Length(prev + cur));
            && c.pos + 1 == u + 1 + v
            && (u + v >= 1 ==> Landing(c, Utf16Length(prev + cur)) == u + v - 1)
            && (v >= 1 ==> Landing(c, Utf16Length(prev)) == u)
            && (v == 0 && u >= 1 ==> Landing(c, Utf16Length(prev)) == u - 1 && Landing(c, Utf16Length(prev + cur)) == u - 1)
  {
    Utf16LengthAppend(prev, cur);
    if Utf16Length(cur) == 0 {
      assert cur == [];
      assert prev + cur == prev;
    }
  }

  /** The corrected join's caret lands exactly at the join point, whether
      or not the editor has taken in the joined text yet. */
  lemma JoinLandsAtJoinPoint(node: Section, arr: Arr, currentIndex: int, prevId: Id, now: Timestamp)
    requires JoinApplies(Items(node, arr), currentIndex, prevId)
    ensures var items := Items(node, arr);
            var prev := items[IndexOfNode(items, prevId)].p.content;
            var cur := items[currentIndex].p.content;
            var c := JoinWithPreviousParagraph(node, arr, currentIndex, prevId, now).focus.value.cursor;
            Landing(c, Utf16Length(prev)) == Utf16Length(prev) && Landing(c, Utf16Length(prev + cur)) == Utf16Length(prev)
  {
    var items := Items(node, arr);
    JoinPointLanding(items[IndexOfNode(items, prevId)].p.content, items[currentIndex].p.content);
  }

  /** Where the source's caret lands. The number it passes is the corrected
      position plus the appended text's length minus one. In an editor that
      already shows the joined text the caret lands one code unit before the
      end of it, which is the join point only when one code unit was
      appended. In an editor that still shows the previous text the clamp
      brings it to the join point when text was appended. When nothing was
      appended, it lands one code unit before the join point either way. */
  lemma AsWrittenLanding(node: Section, arr: Arr, currentIndex: int, prevId: Id, now: Timestamp)
    requires JoinApplies(Items(node, arr), currentIndex, prevId)
    ensures var items := Items(node, arr);
            var prev := items[IndexOfNode(items, prevId)].p.content;
            var cur := items[currentIndex].p.content;
            var u, v := Utf16Length(prev), Utf16Length(cur);
            var c := JoinWithPreviousParagraphAsWritten(node, arr, currentIndex, prevId, now).focus.value.cursor;
            && c.pos + 1 == JoinWithPreviousParagraph(node, arr, currentIndex, prevId, now).focus.value.cursor.pos + v
            && (u + v >= 1 ==> Landing(c, Utf16Length(prev + cur)) == u + v - 1)
            && (v >= 1 ==> Landing(c, Utf16Length(prev)) == u)
            && (v == 0 && u >= 1 ==> Landing(c, Utf16Length(prev)) == u - 1 && Landing(c, Utf16Length(prev + cur)) == u - 1)
  {
    var items := Items(node, arr);
    JoinedLengthLanding(items[IndexOfNode(items, prevId)].p.content, items[currentIndex].p.content);
  }

  /** Joining `ab` and `cd`: the source passes 4, which lands before `d` in
      an editor showing `abcd` and at the join point only in one still
      showing `ab`; the corrected 3 lands at the join point in both. */
  lemma JoinCursorPastJoinPoint()
    ensures var prev := Paragraph("p", "t", "t", "ab", [ViewItem(ParagraphDefault, NoState)], ParagraphDefault);
            var cur := Paragraph("q", "t", "t", "cd", [ViewItem(ParagraphDefault, NoState)], ParagraphDefault);
            var h := Heading("h", "t", "t", "Title", 1, [ViewItem(HeadingDefault, NoState)], HeadingDefault);
            var s := Section("s", "t", "t", [], SectionDefault, h, [Para(prev), Para(cur)], []);
            && JoinWithPreviousParagraphAsWritten(s, Children, 1, "p", "u").focus == Some(Focus("p", At(4)))
            && Landing(At(4), Utf16Length("abcd")) == 3 && Landing(At(4), Utf16Length("ab")) == 2
            && JoinWithPreviousParagraph(s, Children, 1, "p", "u").focus == Some(Focus("p", At(3)))
            && Landing(At(3), Utf16Length("abcd")) == 2 && Landing(At(3), Utf16Length("ab")) == 2
  {
    var prev := Paragraph("p", "t", "t", "ab", [ViewItem(ParagraphDefault, NoState)], ParagraphDefault);
    var cur := Paragraph("q", "t", "t", "cd", [ViewItem(ParagraphDefault, NoState)], ParagraphDefault);
    var h := Heading("h", "t", "t", "Title", 1, [ViewItem(HeadingDefault, NoState)], HeadingDefault);
    var s := Section("s", "t", "t", [], SectionDefault, h, [Para(prev), Para(cur)], []);
    assert IndexOfNode(s.children, "p") == 0;
    assert Utf16Length("ab") == 2 by { assert "ab"[1..] == "b"; assert "b"[1..] == ""; }
    assert Utf16Length("abcd") == 4 by {
      assert "abcd"[1..] == "bcd"; assert "bcd"[1..] == "cd";
      assert "cd"[1..] == "d"; assert "d"[1..] == "";
    }
  }

  /** Backspace at the start of an empty paragraph after `ab`: the joined
      text is `ab`, the source passes 2, and the caret lands between `a` and
      `b` whichever text the editor shows; the corrected 3 lands after `b`. */
  lemma JoinEmptyCursorBeforeEnd()
    ensures var prev := Paragraph("p", "t", "t", "ab", [ViewItem(ParagraphDefault, NoState)], ParagraphDefault);
            var cur := Paragraph("q", "t", "t", "", [ViewItem(ParagraphDefault, NoState)], ParagraphDefault);
            var h := Heading("h", "t", "t", "Title", 1, [ViewItem(HeadingDefault, NoState)], HeadingDefault);
            var s := Section("s", "t", "t", [], SectionDefault, h, [Para(prev), Para(cur)], []);
            && JoinWithPreviousParagraphAsWritten(s, Children, 1, "p", "u").focus == Some(Focus("p", At(2)))
            && Landing(At(2), Utf16Length("ab")) == 1
            && JoinWithPreviousParagraph(s, Children, 1, "p", "u").focus == Some(Focus("p", At(3)))
            && Landing(At(3), Utf16Length("ab")) == 2
  {
    var prev := Paragraph("p", "t", "t", "ab", [ViewItem(ParagraphDefault, NoState)], ParagraphDefault);
    var cur := Paragraph("q", "t", "t", "", [ViewItem(ParagraphDefault, NoState)], ParagraphDefault);
    var h := Heading("h", "t", "t", "Title", 1, [ViewItem(HeadingDefault, NoState)], HeadingDefault);
    var s := Section("s", "t", "t", [], SectionDefault, h, [Para(prev), Para(cur)], []);
    assert IndexOfNode(s.children, "p") == 0;
    assert "ab" + "" == "ab";
    assert Utf16Length("ab") == 2 by { assert "ab"[1..] == "b"; assert "b"[1..] == ""; }
  }

  // ---------------------------------------------------------------------
  // splitParagraph

  /** `thrown` is the source's error on an index outside the array, raised
      after `animateNextChange` has been cleared. */
  datatype SplitOutcome = SplitOutcome(thrown: bool, section: Section, state: DocState, focus: Option<Focus>)

  /** The paragraph inserted by a split: a new id, the second text, and the
      view of the paragraph it was split from. */
  function SplitTail(p: Paragraph, freshId: Id, b: string, now: Timestamp): (r: Paragraph)
    ensures r.id == freshId && r.content == b
    ensures r.view == p.view && r.activeView == p.activeView
    ensures ValidParagraph(p) ==> ValidParagraph(r)
  {
    Paragraph(freshId, now, now, b, p.view, p.activeView)
  }

  /** Replacing the element at `i` by `x, y` shifts everything after it by
      one. */
  lemma ReplaceByTwo<T>(s: seq<T>, i: nat, x: T, y: T)
    requires i < |s|
    ensures var t := s[..i] + [x, y] + s[i + 1..];
            && |t| == |s| + 1 && t[i] == x && t[i + 1] == y
            && t[..i] == s[..i] && t[i + 2..] == s[i + 1..]
  {
    var t := s[..i] + [x, y] + s[i + 1..];
    assert t[..i] == s[..i];
    assert t[i + 2..] == s[i + 1..];
  }

  /** Enter inside a paragraph: on a paragraph at `i`, it keeps text `a` and
      a new paragraph holding `b` follows it; focus moves to the new one.
      On any other node nothing changes, and an index outside the array
      throws. In every case `animateNextChange` is cleared. */
  function SplitParagraph(node: Section, arr: Arr, a: string, b: string, st: DocState, i: int,
                          freshId: Id, now: Timestamp)
    : (r: SplitOutcome)
    ensures r.thrown <==> !(0 <= i < |Items(node, arr)|)
    ensures r.state == st.(animateNextChange := false)
    ensures r.thrown || !Items(node, arr)[i].Para? ==> r.section == node && r.focus == None
    ensures !r.thrown && Items(node, arr)[i].Para? ==>
              var items := Items(node, arr);
              var p := items[i].p;
              var items' := Items(r.section, arr);
              && |items'| == |items| + 1
              && items'[i] == Para(p.(content := a, lastModified := now))
              && items'[i + 1] == Para(SplitTail(p, freshId, b, now))
              && items'[..i] == items[..i]
              && items'[i + 2..] == items[i + 1..]
              && r.section == WithItems(node, arr, items').(lastModified := now)
              && r.focus == (if freshId != "" then Some(Focus(freshId, Start)) else None)
    ensures ValidSection(node) ==> ValidSection(r.section)
  {
    var items := Items(node, arr);
    if !(0 <= i < |items|) then SplitOutcome(true, node, st.(animateNextChange := false), None)
    else if !items[i].Para? then SplitOutcome(false, node, st.(animateNextChange := false), None)
    else
      var p := items[i].p;
      var items' := items[..i] + [Para(p.(content := a, lastModified := now)), Para(SplitTail(p, freshId, b, now))]
        + items[i + 1..];
      ReplaceByTwo(items, i, Para(p.(content := a, lastModified := now)), Para(SplitTail(p, freshId, b, now)));
      assert ValidSection(node) ==> ValidNodes(items') by {
        if ValidSection(node) {
          assert ValidNodes(items) && ValidNode(items[i]);
          ValidNodesReplaceByTwo(items, i, Para(p.(content := a, lastModified := now)), Para(SplitTail(p, freshId, b, now)));
        }
      }
      SplitOutcome(
        false,
        WithItems(node, arr, items').(lastModified := now),
        st.(animateNextChange := false),
        if freshId != "" then Some(Focus(freshId, Start)) else None)
  }

  // ---------------------------------------------------------------------
  // handleEnterInHeading

  /** Enter at the end of a heading: when the active view is the section's
      default view, an empty paragraph is prepended to the children
      (state `expanded`) or to the summary (state `summary`) and focused at
      its start; otherwise, `collapsed` included, nothing changes. */
  function HandleEnterInHeading(node: Section, newId: Id, now: Timestamp): (r: EditOutcome)
    ensures var k := IndexOfKind(node.view, node.activeView);
            var isDefault := k >= 0 && node.view[k].kind == SectionDefault;
            var blank := Para(ContainerActions.PlaceholderParagraph(newId, now, ""));
            && (r.ok <==> isDefault && node.view[k].state in {Bare("expanded"), Bare("summary")})
            && (r.ok && node.view[k].state == Bare("expanded") ==>
                  r.section.children == [blank] + node.children && r.section.summary == node.summary)
            && (r.ok && node.view[k].state == Bare("summary") ==>
                  r.section.summary == [blank] + node.summary && r.section.children == node.children)
    ensures r.ok ==>
              && r.focus == Some(Focus(newId, Start))
              && r.section.lastModified == now
              && r.section.(children := node.children, summary := node.summary, lastModified := node.lastModified) == node
    ensures !r.ok ==> r.section == node && r.focus == None
    ensures ValidSection(node) ==> ValidSection(r.section)
  {
    var k := IndexOfKind(node.view, node.activeView);
    if k == -1 || node.view[k].kind != SectionDefault then EditOutcome(false, node, None)
    else
      var blank := Para(ContainerActions.PlaceholderParagraph(newId, now, ""));
      ValidNodesConcat([blank], node.children);
      ValidNodesConcat([blank], node.summary);
      if node.view[k].state == Bare("expanded") then
        EditOutcome(true, node.(children := [blank] + node.children, lastModified := now), Some(Focus(newId, Start)))
      else if node.view[k].state == Bare("summary") then
        EditOutcome(true, node.(summary := [blank] + node.summary, lastModified := now), Some(Focus(newId, Start)))
      else EditOutcome(false, node, None)
  }

  /** The blank paragraph is the whole of the edit: dropping the first
      element of the list it was prepended to, and restoring the
      modification time, gives back the section. */
  lemma EnterInHeadingUndo(node: Section, newId: Id, now: Timestamp)
    ensures var r := HandleEnterInHeading(node, newId, now);
            r.ok ==>
              var grewChildren := |r.section.children| == |node.children| + 1;
              var undone := if grewChildren then r.section.(children := r.section.children[1..])
                            else r.section.(summary := r.section.summary[1..]);
              && (grewChildren || |r.section.summary| == |node.summary| + 1)
              && undone.(lastModified := node.lastModified) == node
  {
  }

  // ---------------------------------------------------------------------
  // splitSection

  datatype SplitSectionOutcome = SplitSectionOutcome(section: Section, state: DocState, added: Option<Section>)

  /** The section a split creates: the paragraph becomes its heading (id,
      text and creation time kept) at the level of the section being split,
      the children after the paragraph become its children, and its summary
      is one placeholder paragraph. */
  function SplitOffSection(node: Section, k: nat, newId: Id, summaryId: Id, now: Timestamp): (r: Section)
    requires k < |node.children| && node.children[k].Para?
    ensures var p := node.children[k].p;
            && r.id == newId
            && r.heading.id == p.id && r.heading.content == p.content && r.heading.created == p.created
            && r.heading.level == node.heading.level
            && r.children == node.children[k + 1..]
            && |r.summary| == 1 && r.summary[0].Para? && r.summary[0].p.id == summaryId
            && r.view == ContainerActions.NewSectionView
    ensures ValidSection(node) ==> ValidSection(r)
  {
    var p := node.children[k].p;
    var r := Section(
      newId, now, now, ContainerActions.NewSectionView, SectionDefault,
      Heading(p.id, p.created, now, p.content, node.heading.level, [ViewItem(HeadingDefault, NoState)], HeadingDefault),
      node.children[k + 1..],
      [Para(ContainerActions.PlaceholderParagraph(summaryId, now, "New Section's summary"))]);
    assert ValidSection(node) ==> ValidNodes(r.children) && ValidNodes(r.summary) by {
      if ValidSection(node) {
        ValidNodesSlice(node.children, k + 1, |node.children|);
        assert node.children[k + 1..] == node.children[k + 1..|node.children|];
      }
    }
    assert Kinds(r.view)[0] == SectionDefault;
    r
  }

  /** Cuts `node` at the paragraph with `paragraphId`: the node keeps the
      children before it, and a new section made from the paragraph and the
      children after it is handed to the caller's `addSection` (`added`).
      When the id is absent or names something other than a paragraph,
      nothing is handed on and the node is unchanged. `animateNextChange`
      is cleared in every case. */
  function SplitSection(node: Section, paragraphId: Id, st: DocState, newId: Id, summaryId: Id, now: Timestamp)
    : (r: SplitSectionOutcome)
    ensures r.state == st.(animateNextChange := false)
    ensures var k := IndexOfNode(node.children, paragraphId);
            r.added.None? <==> k == -1 || !node.children[k].Para?
    ensures r.added.None? ==> r.section == node
    ensures r.added.Some? ==>
              var k := IndexOfNode(node.children, paragraphId);
              var p := node.children[k];
              && node.children == r.section.children + [p] + r.added.value.children
              && r.section == node.(children := r.section.children)
              && r.added.value.heading.id == paragraphId
              && r.added.value.heading.content == p.p.content
              && r.added.value.heading.level == node.heading.level
    ensures r.added.Some? && ValidSection(node) ==> ValidSection(r.section) && ValidSection(r.added.value)
    ensures r.added.Some? ==>
              var k := IndexOfNode(node.children, paragraphId);
              && 0 <= k < |node.children| && node.children[k].Para?
              && r.added.value == SplitOffSection(node, k, newId, summaryId, now)
  {
    var st' := st.(animateNextChange := false);
    var k := IndexOfNode(node.children, paragraphId);
    if k == -1 || !node.children[k].Para? then SplitSectionOutcome(node, st', None)
    else
      var added := SplitOffSection(node, k, newId, summaryId, now);
      assert node.children == node.children[..k] + [node.children[k]] + node.children[k + 1..];
      assert ValidSection(node) ==> ValidNodes(node.children[..k]) by {
        if ValidSection(node) {
          ValidNodesSlice(node.children, 0, k);
          assert node.children[..k] == node.children[0..k];
        }
      }
      SplitSectionOutcome(node.(children := node.children[..k]), st', Some(added))
  }

  // ---------------------------------------------------------------------
  // Splitting and joining undo each other's text changes

  /** Joining the two halves of a split paragraph gives back one paragraph
      holding the whole text, every other element as before, and puts the
      cursor exactly where the split was. */
  lemma SplitThenJoin(node: Section, arr: Arr, a: string, b: string, st: DocState, i: nat,
                      freshId: Id, now: Timestamp, later: Timestamp)
    requires i < |Items(node, arr)| && Items(node, arr)[i].Para?
    requires Items(node, arr)[i].p.id != ""
    requires IndexOfNode(Items(node, arr), Items(node, arr)[i].p.id) == i
    ensures var split := SplitParagraph(node, arr, a, b, st, i, freshId, now).section;
            var p := Items(node, arr)[i].p;
            var joined := JoinWithPreviousParagraph(split, arr, i + 1, p.id, later);
            && !joined.thrown && joined.ok
            && Items(joined.section, arr) == Items(node, arr)[i := Para(p.(content := a + b, lastModified := later))]
            && joined.focus == Some(Focus(p.id, At(Utf16Length(a) + 1)))
  {
    var items := Items(node, arr);
    var p := items[i].p;
    var split := SplitParagraph(node, arr, a, b, st, i, freshId, now).section;
    var items' := Items(split, arr);
    IndexOfNodeSamePrefix(items, items', i, p.id);
    JoinOfAdjacent(split, arr, i, p.id, a, later);
    RemoveInsertedTail(items, items', i, Para(p.(content := a + b, lastModified := later)));
  }

  /** Joining the paragraph at `i + 1` into the paragraph at `i`, found by
      its id and holding `text`: the texts are concatenated, the later
      paragraph removed, and the cursor goes to the position after `text`. */
  lemma JoinOfAdjacent(s: Section, arr: Arr, i: nat, prevId: Id, text: string, later: Timestamp)
    requires i + 1 < |Items(s, arr)| && Items(s, arr)[i].Para? && Items(s, arr)[i + 1].Para?
    requires prevId != "" && IndexOfNode(Items(s, arr), prevId) == i
    requires Items(s, arr)[i].p.content == text
    ensures var items := Items(s, arr);
            var prev := items[i].p;
            var joined := JoinWithPreviousParagraph(s, arr, i + 1, prevId, later);
            && !joined.thrown && joined.ok
            && Items(joined.section, arr)
               == RemoveAt(items, i + 1)[i := Para(prev.(content := text + items[i + 1].p.content, lastModified := later))]
            && joined.focus == Some(Focus(prevId, At(Utf16Length(text) + 1)))
  {
    assert JoinApplies(Items(s, arr), i + 1, prevId);
  }

  /** Removing the element a split inserted after `i` and then replacing the
      element at `i` is a plain replacement in the array before the split. */
  lemma RemoveInsertedTail(items: seq<Node>, items': seq<Node>, i: nat, x: Node)
    requires i < |items| && |items'| == |items| + 1
    requires items'[..i] == items[..i] && items'[i + 2..] == items[i + 1..]
    ensures RemoveAt(items', i + 1)[i := x] == items[i := x]
  {
    var got := RemoveAt(items', i + 1)[i := x];
    var want := items[i := x];
    forall j | 0 <= j < |got| ensures got[j] == want[j] {
      if j < i {
        assert got[j] == items'[..i][j] == items[..i][j];
      } else if j > i {
        assert got[j] == items'[j + 1] == items'[i + 2..][j - i - 1] == items[i + 1..][j - i - 1] == items[j];
      }
    }
  }

  /** Splitting a joined paragraph at the cursor the join returns gives the
      two original texts back, in two adjacent paragraphs; nothing else
      differs from the array before the join. The split is at the
      character index `k` after which the join's cursor position lies.
      The second paragraph has a new id: texts round-trip, identities do
      not. */
  lemma JoinThenSplit(node: Section, arr: Arr, currentIndex: int, prevId: Id, st: DocState,
                      freshId: Id, now: Timestamp, later: Timestamp)
    requires 0 < currentIndex < |Items(node, arr)|
    requires JoinApplies(Items(node, arr), currentIndex, prevId)
    requires IndexOfNode(Items(node, arr), prevId) == currentIndex - 1
    ensures var joined := JoinWithPreviousParagraph(node, arr, currentIndex, prevId, now);
            var pos := joined.focus.value.cursor.pos;
            var text := Items(joined.section, arr)[currentIndex - 1].p.content;
            var k := |Items(node, arr)[currentIndex - 1].p.content|;
            var again := SplitParagraph(joined.section, arr, text[..k], text[k..], st, currentIndex - 1, freshId, later);
            var before := Items(node, arr);
            var after := Items(again.section, arr);
            && !joined.thrown && k <= |text| && Utf16Length(text[..k]) + 1 == pos
            && !again.thrown
            && |after| == |before|
            && after[currentIndex - 1].p.content == before[currentIndex - 1].p.content
            && after[currentIndex].p.content == before[currentIndex].p.content
            && after[..currentIndex - 1] == before[..currentIndex - 1]
            && after[currentIndex + 1..] == before[currentIndex + 1..]
  {
    var before := Items(node, arr);
    var pi := currentIndex - 1;
    var joined := JoinWithPreviousParagraph(node, arr, currentIndex, prevId, now);
    var mid := Items(joined.section, arr);
    assert mid[pi].Para?;
    var text := mid[pi].p.content;
    var k := |before[pi].p.content|;
    var again := SplitParagraph(joined.section, arr, text[..k], text[k..], st, pi, freshId, later);
    var prev := before[pi].p;
    RemoveReplaceFrame(before, currentIndex, Para(prev.(content := text, lastModified := now)));
  }

  /** Removing the element at `i` and replacing the one before it leaves
      the elements on both sides in place. */
  lemma RemoveReplaceFrame<T>(s: seq<T>, i: nat, x: T)
    requires 0 < i < |s|
    ensures var t := RemoveAt(s, i)[i - 1 := x];
            t[..i - 1] == s[..i - 1] && t[i..] == s[i + 1..]
  {
    var t := RemoveAt(s, i)[i - 1 := x];
    assert forall j :: 0 <= j < i - 1 ==> t[..i - 1][j] == t[j] == s[j];
    assert forall j :: 0 <= j < |t| - i ==> t[i..][j] == t[i + j] == s[i + 1 + j];
  }
}

=== FILE: section_container_actions.dfy ===
/** Operations on section containers: inserting sections, creating a new
    container with the canonical views, and appending a default section.
    Also the two container helpers the heading-level restructuring relies
    on, `moveSiblingsToSection` and `addSectionAfter`, and the removal the
    surroundings perform through a callback. */
module ContainerActions {
  import opened Wrappers
  import opened Views
  import opened Content
  import opened Collection

  /** Inserts `s` at `index` when that index lies within 0..|children|,
      otherwise appends it; refreshes only the container's timestamp. */
  function AddSectionToContainer(c: SectionContainer, s: Section, index: Option<int>, now: Timestamp)
    : (r: SectionContainer)
    ensures |r.children| == |c.children| + 1
    ensures index.Some? && 0 <= index.value <= |c.children| ==>
              r.children[index.value] == s && RemoveAt(r.children, index.value) == c.children
    ensures !(index.Some? && 0 <= index.value <= |c.children|) ==>
              r.children[|c.children|] == s && r.children[..|c.children|] == c.children
    ensures r.lastModified == now
    ensures r.(children := c.children, lastModified := c.lastModified) == c
    ensures ValidContainer(c) && ValidSection(s) ==> ValidContainer(r)
  {
    if index.Some? && 0 <= index.value <= |c.children| then
      RemoveInserted(c.children, index.value, s);
      ValidContainerInsert(c, index.value, s, now);
      c.(children := InsertAt(c.children, index.value, s), lastModified := now)
    else
      ValidContainerAppend(c.(lastModified := now), s);
      c.(children := c.children + [s], lastModified := now)
  }

  /** The view array of a new container: the seven variants in canonical
      order with the fixed default states. */
  const DefaultContainerView: seq<ViewItem> := [
    ViewItem(ContainerDefault, NoState),
    ViewItem(ContainerStatic, NoState),
    ViewItem(ContainerCard, Card(2, 16, None)),
    ViewItem(ContainerBrick, NoState),
    ViewItem(ContainerToc, Toc([])),
    ViewItem(ContainerSidebar, Sidebar(30, 0)),
    ViewItem(ContainerTabs, Tabs(16, 0))
  ]

  /** A new, empty container whose defaults satisfy the container schema. */
  function CreateSectionContainer(id: Id, now: Timestamp): (r: SectionContainer)
    ensures ValidContainer(r)
    ensures r.id == id && r.children == []
    ensures r.created == now && r.lastModified == now
    ensures r.activeView == ContainerDefault
    ensures r.view[2].state == Card(2, 16, None) && r.view[4].state == Toc([])
    ensures r.view[5].state == Sidebar(30, 0) && r.view[6].state == Tabs(16, 0)
    ensures ContainerIds(r) == {id}
  {
    SectionContainer(id, now, now, DefaultContainerView, ContainerDefault, [])
  }

  /** The four uuids a new default section needs. */
  datatype NewSectionIds = NewSectionIds(section: Id, heading: Id, summary: Id, child: Id) {
    predicate Distinct() {
      |{section, heading, summary, child}| == 4
    }
    function AsSet(): set<Id> {
      {section, heading, summary, child}
    }
  }

  function PlaceholderParagraph(id: Id, now: Timestamp, text: string): (r: Paragraph)
    ensures ValidParagraph(r) && r.id == id && r.content == text
  {
    Paragraph(id, now, now, text, [ViewItem(ParagraphDefault, NoState)], ParagraphDefault)
  }

  /** The default view of a new section: expanded. */
  const NewSectionView: seq<ViewItem> := [
    ViewItem(SectionDefault, Bare("expanded")),
    ViewItem(SectionStatic, NoState),
    ViewItem(SectionPage, NoState)
  ]

  /** The section `addSection` appends: heading `New Section` at the given
      level, expanded, one placeholder summary and one placeholder child. */
  function NewSection(level: int, ids: NewSectionIds, now: Timestamp): (r: Section)
    ensures level >= 1 ==> ValidSection(r)
    ensures r.id == ids.section && r.heading.id == ids.heading
    ensures r.heading.level == level && r.heading.content == "New Section"
    ensures r.view == NewSectionView && r.activeView == SectionDefault
    ensures |r.summary| == 1 && r.summary[0].Para? && r.summary[0].p.id == ids.summary
    ensures |r.children| == 1 && r.children[0].Para? && r.children[0].p.id == ids.child
    ensures SectionIds(r) == ids.AsSet()
  {
    var r := Section(
      ids.section, now, now, NewSectionView, SectionDefault,
      Heading(ids.heading, now, now, "New Section", level, [ViewItem(HeadingDefault, NoState)], HeadingDefault),
      [Para(PlaceholderParagraph(ids.child, now, "New Section's first paragraph"))],
      [Para(PlaceholderParagraph(ids.summary, now, "New Section's summary"))]);
    assert SeqIds(r.children) == {ids.child} by {
      assert r.children[1..] == [];
    }
    assert SeqIds(r.summary) == {ids.summary} by {
      assert r.summary[1..] == [];
    }
    assert ValidNodes(r.children) && ValidNodes(r.summary);
    assert Kinds(NewSectionView)[0] == SectionDefault;
    r
  }

  /** Appends a default section at `headingLevel` (the source's default is
      1). The container's own fields, its timestamp included, are unchanged.
      With fresh, distinct uuids the container gains exactly those ids. */
  function AddSection(c: SectionContainer, headingLevel: int, ids: NewSectionIds, now: Timestamp)
    : (r: SectionContainer)
    requires ids.Distinct() && ids.AsSet() !! ContainerIds(c)
    ensures |r.children| == |c.children| + 1 && r.children[..|c.children|] == c.children
    ensures r.children[|c.children|].heading.level == headingLevel
    ensures r.children[|c.children|].heading.content == "New Section"
    ensures r.children[|c.children|].view == NewSectionView
    ensures r.(children := c.children) == c
    ensures ContainerIds(r) == ContainerIds(c) + ids.AsSet()
    ensures ValidContainer(c) && headingLevel >= 1 ==> ValidContainer(r)
  {
    var s := NewSection(headingLevel, ids, now);
    ValidContainerAppend(c, s);
    SectionSeqIdsConcat(c.children, [s]);
    assert SectionSeqIds([s]) == SectionIds(s) by {
      assert [s][1..] == [];
    }
    c.(children := c.children + [s])
  }

  /** Places `sections` one level below `s`: appended to its last child when
      that is a container, otherwise in a new container appended to its
      children. No sections leaves `s` as it is. */
  function Adopt(s: Section, sections: seq<Section>, freshId: Id, now: Timestamp): (r: Section)
    ensures r.(children := s.children) == s
    ensures sections == [] ==> r == s
    ensures sections != [] && s.children != [] && s.children[|s.children| - 1].Container? ==>
              var last := s.children[|s.children| - 1].c;
              r.children == s.children[..|s.children| - 1]
                + [Container(last.(children := last.children + sections, lastModified := now))]
    ensures sections != [] && !(s.children != [] && s.children[|s.children| - 1].Container?) ==>
              r.children == s.children + [Container(CreateSectionContainer(freshId, now).(children := sections))]
  {
    if sections == [] then s
    else if s.children != [] && s.children[|s.children| - 1].Container? then
      var last := s.children[|s.children| - 1].c;
      s.(children := s.children[..|s.children| - 1]
        + [Container(last.(children := last.children + sections, lastModified := now))])
    else
      s.(children := s.children + [Container(CreateSectionContainer(freshId, now).(children := sections))])
  }

  /** `moveSiblingsToSection(container, sectionId)`: the sections that
      follow the section with that id are moved below it, in order (see
      `Adopt`), and the container keeps everything up to that section. An
      unknown id changes nothing. */
  function MoveSiblingsToSection(c: SectionContainer, sectionId: Id, freshId: Id, now: Timestamp)
    : (r: SectionContainer)
    ensures IndexOfSection(c.children, sectionId) == -1 ==> r == c
    ensures var k := IndexOfSection(c.children, sectionId);
            k >= 0 ==>
              && |r.children| == k + 1
              && r.children[..k] == c.children[..k]
              && r.children[k] == Adopt(c.children[k], c.children[k + 1..], freshId, now)
              && r.(children := c.children, lastModified := c.lastModified) == c
  {
    var k := IndexOfSection(c.children, sectionId);
    if k == -1 then c
    else
      var s := Adopt(c.children[k], c.children[k + 1..], freshId, now);
      c.(children := c.children[..k] + [s], lastModified := now)
  }

  /** The removal the surroundings perform for `removeSectionFromContainer`:
      the first section with the id leaves the container. */
  function RemoveSectionFromContainer(c: SectionContainer, id: Id, now: Timestamp): (r: SectionContainer)
    ensures IndexOfSection(c.children, id) == -1 ==> r == c
    ensures var k := IndexOfSection(c.children, id);
            k >= 0 ==> r.children == RemoveAt(c.children, k) && r.lastModified == now
    ensures r.(children := c.children, lastModified := c.lastModified) == c
  {
    var k := IndexOfSection(c.children, id);
    if k == -1 then c else c.(children := RemoveAt(c.children, k), lastModified := now)
  }

  /** `addSectionAfter(container, section, afterId)`: inserts the section
      immediately after the section with `afterId`, or appends it when no
      such section is present. */
  function AddSectionAfter(c: SectionContainer, s: Section, afterId: Id, now: Timestamp): (r: SectionContainer)
    ensures var k := IndexOfSection(c.children, afterId);
            k >= 0 ==> r.children == c.children[..k + 1] + [s] + c.children[k + 1..]
    ensures IndexOfSection(c.children, afterId) == -1 ==> r.children == c.children + [s]
    ensures r.lastModified == now
    ensures r.(children := c.children, lastModified := c.lastModified) == c
  {
    var k := IndexOfSection(c.children, afterId);
    var r := AddSectionToContainer(c, s, if k == -1 then None else Some(k + 1), now);
    assert k >= 0 ==> r.children == c.children[..k + 1] + [s] + c.children[k + 1..] by {
      if k >= 0 { RemovedIsInserted(c.children, r.children, k + 1, s); }
    }
    assert k == -1 ==> r.children == c.children + [s] by {
      if k == -1 { ExtendedIsAppended(c.children, r.children, s); }
    }
    r
  }
}

=== FILE: section_migrations.dfy ===
/** The two section migrations: to version 1 the display state of a
    section's default view becomes a record with a variation, and to
    version 3 that record gains an animation. Both touch only the
    `collection/section/default` items of a view array. */
module SectionMigrations {
  import opened Wrappers
  import opened Views

  /** A variation the source treats as missing: absent or empty. */
  predicate FalsyVariation(o: Option<string>) {
    o.None? || o == Some("")
  }

  /** A section default item whose state is a string or a display record
      holds, after the version-1 rewrite, a display record with a non-empty
      variation. */
  predicate HasVariation(it: ViewItem) {
    it.kind == SectionDefault && (it.state.Bare? || it.state.Display?) ==>
      it.state.Display? && !FalsyVariation(it.state.variation)
  }

  /** The version-1 rewrite of one view item. Only section default items
      change: a bare state `s` becomes the record with display `s` and
      variation `default`; a record with a missing or empty variation gets
      `default` and keeps its display and animation; a present variation
      is kept. */
  function UpdateItemViewState(it: ViewItem): (r: ViewItem)
    ensures r.kind == it.kind && HasVariation(r)
    ensures it.kind != SectionDefault ==> r == it
    ensures it.kind == SectionDefault && it.state.Bare? ==>
              r.state == Display(it.state.name, Some("default"), None)
    ensures it.kind == SectionDefault && it.state.Display? ==>
              && r.state.Display?
              && r.state.display == it.state.display
              && r.state.animation == it.state.animation
              && (!FalsyVariation(it.state.variation) ==> r == it)
    ensures !it.state.Bare? && !it.state.Display? ==> r == it
  {
    if it.kind != SectionDefault then it
    else
      match it.state
      case Bare(s) => it.(state := Display(s, Some("default"), None))
      case Display(d, variation, animation) =>
        if FalsyVariation(variation) then it.(state := Display(d, Some("default"), animation)) else it
      case _ => it
  }

  /** Step to version 1: every item keeps its position and kind and goes
      through the item rewrite above, so every section default item that
      held a string or a record now has a variation. */
  function UpdateSectionViewState(view: seq<ViewItem>): (r: seq<ViewItem>)
    ensures |r| == |view|
    ensures forall i :: 0 <= i < |view| ==> r[i].kind == view[i].kind && HasVariation(r[i])
    ensures forall i :: 0 <= i < |view| && view[i].kind != SectionDefault ==> r[i] == view[i]
    ensures forall i :: 0 <= i < |view| ==> r[i] == UpdateItemViewState(view[i])
  {
    seq(|view|, i requires 0 <= i < |view| => UpdateItemViewState(view[i]))
  }

  lemma UpdateSectionViewStateIdempotent(view: seq<ViewItem>)
    ensures UpdateSectionViewState(UpdateSectionViewState(view)) == UpdateSectionViewState(view)
  {
  }

  /** The version-3 rewrite of one view item: a section default item
      holding a display record gets animation `none`, replacing any earlier
      value, and keeps its display and variation; a bare string state and
      every other item are left alone. */
  function AddItemAnimation(it: ViewItem): (r: ViewItem)
    ensures r.kind == it.kind
    ensures it.kind == SectionDefault && it.state.Display? ==>
              r.state == it.state.(animation := Some("none"))
    ensures !(it.kind == SectionDefault && it.state.Display?) ==> r == it
  {
    if it.kind == SectionDefault && it.state.Display? then it.(state := it.state.(animation := Some("none")))
    else it
  }

  /** Step to version 3: every item keeps its position and kind and goes
      through the item rewrite above. */
  function AddAnimationProperty(view: seq<ViewItem>): (r: seq<ViewItem>)
    ensures |r| == |view|
    ensures forall i :: 0 <= i < |view| ==> r[i].kind == view[i].kind
    ensures forall i :: 0 <= i < |view| ==> r[i] == AddItemAnimation(view[i])
  {
    seq(|view|, i requires 0 <= i < |view| => AddItemAnimation(view[i]))
  }

  lemma AddAnimationPropertyIdempotent(view: seq<ViewItem>)
    ensures AddAnimationProperty(AddAnimationProperty(view)) == AddAnimationProperty(view)
  {
  }

  /** After both section steps, a default item that held a string or a
      record is a record with a variation and animation `none`. */
  lemma SectionStepsComposed(view: seq<ViewItem>)
    ensures var r := AddAnimationProperty(UpdateSectionViewState(view));
            forall i :: 0 <= i < |view| && view[i].kind == SectionDefault &&
                        (view[i].state.Bare? || view[i].state.Display?) ==>
              r[i].state.Display? && !FalsyVariation(r[i].state.variation) &&
              r[i].state.animation == Some("none")
  {
  }
}

=== FILE: seqs.dfy ===
/** Searching sequences: the source's `Array.prototype.findIndex`. */
module Seqs {

  /** The first index whose element satisfies `p`, or -1 when none does. */
  function FindIndex<T>(s: seq<T>, p: T -> bool): (r: int)
    ensures -1 <= r < |s|
    ensures r == -1 <==> forall j :: 0 <= j < |s| ==> !p(s[j])
    ensures r >= 0 ==> p(s[r]) && forall j :: 0 <= j < r ==> !p(s[j])
  {
    if s == [] then -1
    else if p(s[0]) then 0
    else
      var k := FindIndex(s[1..], p);
      assert forall j :: 1 <= j < |s| ==> s[j] == s[1..][j - 1];
      if k == -1 then -1 else k + 1
  }
}

=== FILE: summary.dfy ===
/** Placeholder paragraphs for section summaries. */
module Summary {
  import opened Views
  import opened Content

  /** A new empty paragraph with the default paragraph view; `id` and `now`
      stand for the generated uuid and the creation time. */
  function CreateSummaryParagraph(id: Id, now: Timestamp): (r: Paragraph)
    ensures ValidParagraph(r)
    ensures r.id == id && r.content == ""
    ensures r.created == now && r.lastModified == now
    ensures r.view == [ViewItem(ParagraphDefault, NoState)] && r.activeView == r.view[0].kind
  {
    Paragraph(id, now, now, "", [ViewItem(ParagraphDefault, NoState)], ParagraphDefault)
  }
}

=== FILE: traversal.dfy ===
/** The migration engine's tree walk. A walk visits the content node of a
    document and, recursively, the `children` and then the `summary` of
    every node, applying at each node the visitor registered for its type.
    The three visitors the migrations register only rewrite the visited
    node's own view array, so a visitor is modelled as a view rewrite. The
    walk also reports, in visiting order, the ids of the nodes at which a
    visitor fired. */
module Traversal {
  import opened Wrappers
  import opened Views
  import opened Content
  import opened Collection
  import opened Doc

  type Rewrite = seq<ViewItem> -> seq<ViewItem>

  /** One optional visitor per node type, as in the source's visitor
      record; a heading has a slot although the walk never reaches one. */
  datatype Visitors = Visitors(
    section: Option<Rewrite>,
    sectionContainer: Option<Rewrite>,
    paragraph: Option<Rewrite>,
    heading: Option<Rewrite>,
    untitledSection: Option<Rewrite>)

  const NoVisitors := Visitors(None, None, None, None, None)

  /** The type tags a visitor can be chosen by. */
  datatype Tag = SectionTag | ContainerTag | ParagraphTag | HeadingTag | UntitledTag

  function VisitorFor(v: Visitors, t: Tag): Option<Rewrite> {
    match t
    case SectionTag => v.section
    case ContainerTag => v.sectionContainer
    case ParagraphTag => v.paragraph
    case HeadingTag => v.heading
    case UntitledTag => v.untitledSection
  }

  function TagOf(n: Node): Tag {
    match n
    case Para(_) => ParagraphTag
    case Sec(_) => SectionTag
    case Untitled(_) => UntitledTag
    case Container(_) => ContainerTag
  }

  function Visit(o: Option<Rewrite>, view: seq<ViewItem>): seq<ViewItem> {
    match o
    case None => view
    case Some(f) => f(view)
  }

  function Fired(o: Option<Rewrite>, id: Id): seq<Id> {
    if o.Some? then [id] else []
  }

  /** The rewritten value together with the ids at which a visitor fired. */
  datatype Walk<T> = Walk(result: T, fired: seq<Id>)

  // ---------------------------------------------------------------------
  // The walk

  function WalkNode(n: Node, v: Visitors): (r: Walk<Node>)
    decreases n, 1
    ensures r.result.Id() == n.Id() && TagOf(r.result) == TagOf(n)
  {
    match n
    case Para(p) =>
      Walk(Para(p.(view := Visit(v.paragraph, p.view))), Fired(v.paragraph, p.id))
    case Sec(s) =>
      var w := WalkSection(s, v);
      Walk(Sec(w.result), w.fired)
    case Untitled(u) =>
      var w := WalkNodes(u.children, v);
      Walk(Untitled(u.(view := Visit(v.untitledSection, u.view), children := w.result)),
           Fired(v.untitledSection, u.id) + w.fired)
    case Container(c) =>
      var w := WalkSections(c.children, v);
      Walk(Container(c.(view := Visit(v.sectionContainer, c.view), children := w.result)),
           Fired(v.sectionContainer, c.id) + w.fired)
  }

  /** A section is visited, then its children, then its summary items; its
      heading is a field, not a child, and is never reached. */
  function WalkSection(s: Section, v: Visitors): (r: Walk<Section>)
    decreases s, 0
    ensures r.result.id == s.id && r.result.heading == s.heading
  {
    var wc := WalkNodes(s.children, v);
    var ws := WalkNodes(s.summary, v);
    Walk(s.(view := Visit(v.section, s.view), children := wc.result, summary := ws.result),
         Fired(v.section, s.id) + wc.fired + ws.fired)
  }

  function WalkNodes(ns: seq<Node>, v: Visitors): (r: Walk<seq<Node>>)
    decreases ns, 0
    ensures |r.result| == |ns|
    ensures forall i :: 0 <= i < |ns| ==> r.result[i].Id() == ns[i].Id()
  {
    if ns == [] then Walk([], [])
    else
      var h := WalkNode(ns[0], v);
      var t := WalkNodes(ns[1..], v);
      Walk([h.result] + t.result, h.fired + t.fired)
  }

  function WalkSections(ss: seq<Section>, v: Visitors): (r: Walk<seq<Section>>)
    decreases ss, 0
    ensures |r.result| == |ss|
    ensures forall i :: 0 <= i < |ss| ==> r.result[i].id == ss[i].id
  {
    if ss == [] then Walk([], [])
    else
      var h := WalkSection(ss[0], v);
      var t := WalkSections(ss[1..], v);
      Walk([h.result] + t.result, h.fired + t.fired)
  }

  function TraverseNode(n: Node, v: Visitors): Node {
    WalkNode(n, v).result
  }

  /** The walk runs on a copy: every document field except the content is
      returned as it was, and the content is the walked content node. */
  function TraverseDocument(d: Document, v: Visitors): (r: Document)
    ensures r.id == d.id && r.created == d.created && r.lastModified == d.lastModified
    ensures r.state == d.state && r.version == d.version
    ensures r.content.Id() == d.content.Id()
  {
    d.(content := TraverseNode(d.content, v))
  }

  // ---------------------------------------------------------------------
  // Pre-order enumeration, independent of any visitor

  datatype Entry = Entry(tag: Tag, id: Id)

  /** The nodes of a tree in pre-order: a node, then its children, then its
      summary items. The node itself comes first and no entry is a
      heading. */
  function PreOrder(n: Node): (r: seq<Entry>)
    decreases n, 1
    ensures |r| > 0 && r[0] == Entry(TagOf(n), n.Id())
    ensures forall i :: 0 <= i < |r| ==> r[i].tag != HeadingTag
  {
    match n
    case Para(p) => [Entry(ParagraphTag, p.id)]
    case Sec(s) => SectionPreOrder(s)
    case Untitled(u) => [Entry(UntitledTag, u.id)] + PreOrders(u.children)
    case Container(c) => [Entry(ContainerTag, c.id)] + SectionsPreOrder(c.children)
  }

  function SectionPreOrder(s: Section): (r: seq<Entry>)
    decreases s, 0
    ensures |r| > 0 && r[0] == Entry(SectionTag, s.id)
    ensures forall i :: 0 <= i < |r| ==> r[i].tag != HeadingTag
  {
    [Entry(SectionTag, s.id)] + PreOrders(s.children) + PreOrders(s.summary)
  }

  function PreOrders(ns: seq<Node>): (r: seq<Entry>)
    decreases ns, 0
    ensures forall i :: 0 <= i < |r| ==> r[i].tag != HeadingTag
  {
    if ns == [] then [] else PreOrder(ns[0]) + PreOrders(ns[1..])
  }

  function SectionsPreOrder(ss: seq<Section>): (r: seq<Entry>)
    decreases ss, 0
    ensures forall i :: 0 <= i < |r| ==> r[i].tag != HeadingTag
  {
    if ss == [] then [] else SectionPreOrder(ss[0]) + SectionsPreOrder(ss[1..])
  }

  /** The ids of the entries whose type has a visitor, in order. */
  function FiredIds(es: seq<Entry>, v: Visitors): (r: seq<Id>)
    ensures |r| <= |es|
  {
    if es == [] then []
    else Fired(VisitorFor(v, es[0].tag), es[0].id) + FiredIds(es[1..], v)
  }

  lemma {:induction false} FiredIdsConcat(a: seq<Entry>, b: seq<Entry>, v: Visitors)
    ensures FiredIds(a + b, v) == FiredIds(a, v) + FiredIds(b, v)
    decreases |a|
  {
    if a == [] {
      assert a + b == b;
    } else {
      assert (a + b)[1..] == a[1..] + b;
      FiredIdsConcat(a[1..], b, v);
    }
  }

  // ---------------------------------------------------------------------
  // The walk fires in pre-order, at exactly the nodes whose type has a
  // visitor

  lemma {:induction false} NodeFiresInPreOrder(n: Node, v: Visitors)
    decreases n, 1
    ensures WalkNode(n, v).fired == FiredIds(PreOrder(n), v)
  {
    match n
    case Para(p) =>
    case Sec(s) => SectionFiresInPreOrder(s, v);
    case Untitled(u) =>
      NodesFireInPreOrder(u.children, v);
      FiredIdsConcat([Entry(UntitledTag, u.id)], PreOrders(u.children), v);
    case Container(c) =>
      SectionsFireInPreOrder(c.children, v);
      FiredIdsConcat([Entry(ContainerTag, c.id)], SectionsPreOrder(c.children), v);
  }

  lemma {:induction false} SectionFiresInPreOrder(s: Section, v: Visitors)
    decreases s, 0
    ensures WalkSection(s, v).fired == FiredIds(SectionPreOrder(s), v)
  {
    NodesFireInPreOrder(s.children, v);
    NodesFireInPreOrder(s.summary, v);
    var head := [Entry(SectionTag, s.id)];
    FiredIdsConcat(head, PreOrders(s.children), v);
    FiredIdsConcat(head + PreOrders(s.children), PreOrders(s.summary), v);
  }

  lemma {:induction false} NodesFireInPreOrder(ns: seq<Node>, v: Visitors)
    decreases ns, 0
    ensures WalkNodes(ns, v).fired == FiredIds(PreOrders(ns), v)
  {
    if ns != [] {
      NodeFiresInPreOrder(ns[0], v);
      NodesFireInPreOrder(ns[1..], v);
      FiredIdsConcat(PreOrder(ns[0]), PreOrders(ns[1..]), v);
    }
  }

  lemma {:induction false} SectionsFireInPreOrder(ss: seq<Section>, v: Visitors)
    decreases ss, 0
    ensures WalkSections(ss, v).fired == FiredIds(SectionsPreOrder(ss), v)
  {
    if ss != [] {
      SectionFiresInPreOrder(ss[0], v);
      SectionsFireInPreOrder(ss[1..], v);
      FiredIdsConcat(SectionPreOrder(ss[0]), SectionsPreOrder(ss[1..]), v);
    }
  }

  // ---------------------------------------------------------------------
  // The walk keeps the tree's skeleton: the same nodes, with the same ids,
  // in the same pre-order

  lemma {:induction false} NodeSkeletonKept(n: Node, v: Visitors)
    decreases n, 1
    ensures PreOrder(WalkNode(n, v).result) == PreOrder(n)
  {
    match n
    case Para(p) =>
    case Sec(s) => SectionSkeletonKept(s, v);
    case Untitled(u) => NodesSkeletonKept(u.children, v);
    case Container(c) => SectionsSkeletonKept(c.children, v);
  }

  lemma {:induction false} SectionSkeletonKept(s: Section, v: Visitors)
    decreases s, 0
    ensures SectionPreOrder(WalkSection(s, v).result) == SectionPreOrder(s)
  {
    NodesSkeletonKept(s.children, v);
    NodesSkeletonKept(s.summary, v);
  }

  lemma {:induction false} NodesSkeletonKept(ns: seq<Node>, v: Visitors)
    decreases ns, 0
    ensures PreOrders(WalkNodes(ns, v).result) == PreOrders(ns)
  {
    if ns != [] {
      var w := WalkNodes(ns, v);
      NodeSkeletonKept(ns[0], v);
      NodesSkeletonKept(ns[1..], v);
      assert w.result[1..] == WalkNodes(ns[1..], v).result;
    }
  }

  lemma {:induction false} SectionsSkeletonKept(ss: seq<Section>, v: Visitors)
    decreases ss, 0
    ensures SectionsPreOrder(WalkSections(ss, v).result) == SectionsPreOrder(ss)
  {
    if ss != [] {
      var w := WalkSections(ss, v);
      SectionSkeletonKept(ss[0], v);
      SectionsSkeletonKept(ss[1..], v);
      assert w.result[1..] == WalkSections(ss[1..], v).result;
    }
  }

  // ---------------------------------------------------------------------
  // With no visitors the walk changes nothing and fires nowhere

  lemma {:induction false} NodeUntouched(n: Node)
    decreases n, 1
    ensures WalkNode(n, NoVisitors) == Walk(n, [])
  {
    match n
    case Para(p) =>
    case Sec(s) => SectionUntouched(s);
    case Untitled(u) => NodesUntouched(u.children);
    case Container(c) => SectionsUntouched(c.children);
  }

  lemma {:induction false} SectionUntouched(s: Section)
    decreases s, 0
    ensures WalkSection(s, NoVisitors) == Walk(s, [])
  {
    NodesUntouched(s.children);
    NodesUntouched(s.summary);
  }

  lemma {:induction false} NodesUntouched(ns: seq<Node>)
    decreases ns, 0
    ensures WalkNodes(ns, NoVisitors) == Walk(ns, [])
  {
    if ns != [] {
      NodeUntouched(ns[0]);
      NodesUntouched(ns[1..]);
      assert [ns[0]] + ns[1..] == ns;
    }
  }

  lemma {:induction false} SectionsUntouched(ss: seq<Section>)
    decreases ss, 0
    ensures WalkSections(ss, NoVisitors) == Walk(ss, [])
  {
    if ss != [] {
      SectionUntouched(ss[0]);
      SectionsUntouched(ss[1..]);
      assert [ss[0]] + ss[1..] == ss;
    }
  }

  /** A document walked with no visitors comes back equal. */
  lemma DocumentUntouched(d: Document)
    ensures TraverseDocument(d, NoVisitors) == d
  {
    NodeUntouched(d.content);
  }

  // ---------------------------------------------------------------------
  // The heading visitor never fires

  lemma {:induction false} NodeIgnoresHeadingVisitor(n: Node, v: Visitors)
    decreases n, 1
    ensures WalkNode(n, v.(heading := None)) == WalkNode(n, v)
  {
    match n
    case Para(p) =>
    case Sec(s) => SectionIgnoresHeadingVisitor(s, v);
    case Untitled(u) => NodesIgnoreHeadingVisitor(u.children, v);
    case Container(c) => SectionsIgnoreHeadingVisitor(c.children, v);
  }

  lemma {:induction false} SectionIgnoresHeadingVisitor(s: Section, v: Visitors)
    decreases s, 0
    ensures WalkSection(s, v.(heading := None)) == WalkSection(s, v)
  {
    NodesIgnoreHeadingVisitor(s.children, v);
    NodesIgnoreHeadingVisitor(s.summary, v);
  }

  lemma {:induction false} NodesIgnoreHeadingVisitor(ns: seq<Node>, v: Visitors)
    decreases ns, 0
    ensures WalkNodes(ns, v.(heading := None)) == WalkNodes(ns, v)
  {
    if ns != [] {
      NodeIgnoresHeadingVisitor(ns[0], v);
      NodesIgnoreHeadingVisitor(ns[1..], v);
    }
  }

  lemma {:induction false} SectionsIgnoreHeadingVisitor(ss: seq<Section>, v: Visitors)
    decreases ss, 0
    ensures WalkSections(ss, v.(heading := None)) == WalkSections(ss, v)
  {
    if ss != [] {
      SectionIgnoresHeadingVisitor(ss[0], v);
      SectionsIgnoreHeadingVisitor(ss[1..], v);
    }
  }

  // ---------------------------------------------------------------------
  // Walking twice with idempotent rewrites is walking once

  ghost predicate IdempotentRewrite(o: Option<Rewrite>) {
    o.Some? ==> forall view :: o.value(o.value(view)) == o.value(view)
  }

  ghost predicate IdempotentVisitors(v: Visitors) {
    && IdempotentRewrite(v.section)
    && IdempotentRewrite(v.sectionContainer)
    && IdempotentRewrite(v.paragraph)
    && IdempotentRewrite(v.untitledSection)
  }

  lemma VisitTwice(o: Option<Rewrite>, view: seq<ViewItem>)
    requires IdempotentRewrite(o)
    ensures Visit(o, Visit(o, view)) == Visit(o, view)
  {
  }

  lemma {:induction false} NodeWalkIdempotent(n: Node, v: Visitors)
    requires IdempotentVisitors(v)
    decreases n, 1
    ensures TraverseNode(TraverseNode(n, v), v) == TraverseNode(n, v)
  {
    match n
    case Para(p) => VisitTwice(v.paragraph, p.view);
    case Sec(s) => SectionWalkIdempotent(s, v);
    case Untitled(u) =>
      VisitTwice(v.untitledSection, u.view);
      NodesWalkIdempotent(u.children, v);
    case Container(c) =>
      VisitTwice(v.sectionContainer, c.view);
      SectionsWalkIdempotent(c.children, v);
  }

  lemma {:induction false} SectionWalkIdempotent(s: Section, v: Visitors)
    requires IdempotentVisitors(v)
    decreases s, 0
    ensures WalkSection(WalkSection(s, v).result, v).result == WalkSection(s, v).result
  {
    VisitTwice(v.section, s.view);
    NodesWalkIdempotent(s.children, v);
    NodesWalkIdempotent(s.summary, v);
  }

  lemma {:induction false} NodesWalkIdempotent(ns: seq<Node>, v: Visitors)
    requires IdempotentVisitors(v)
    decreases ns, 0
    ensures WalkNodes(WalkNodes(ns, v).result, v).result == WalkNodes(ns, v).result
  {
    if ns != [] {
      var w := WalkNodes(ns, v).result;
      NodeWalkIdempotent(ns[0], v);
      NodesWalkIdempotent(ns[1..], v);
      assert w[1..] == WalkNodes(ns[1..], v).result;
    }
  }

  lemma {:induction false} SectionsWalkIdempotent(ss: seq<Section>, v: Visitors)
    requires IdempotentVisitors(v)
    decreases ss, 0
    ensures WalkSections(WalkSections(ss, v).result, v).result == WalkSections(ss, v).result
  {
    if ss != [] {
      var w := WalkSections(ss, v).result;
      SectionWalkIdempotent(ss[0], v);
      SectionsWalkIdempotent(ss[1..], v);
      assert w[1..] == WalkSections(ss[1..], v).result;
    }
  }

  lemma DocumentWalkIdempotent(d: Document, v: Visitors)
    requires IdempotentVisitors(v)
    ensures TraverseDocument(TraverseDocument(d, v), v) == TraverseDocument(d, v)
  {
    NodeWalkIdempotent(d.content, v);
  }

  // ---------------------------------------------------------------------
  // The walk rewrites view arrays and nothing else: with every view array
  // emptied the tree is the same, and the views, listed in pre-order, are
  // each rewritten by the visitor of their node's type

  /** The tree with the view array of every reachable node emptied. A
      heading is a field and keeps its view. */
  function Strip(n: Node): Node
    decreases n, 1
  {
    match n
    case Para(p) => Para(p.(view := []))
    case Sec(s) => Sec(StripSection(s))
    case Untitled(u) => Untitled(u.(view := [], children := StripNodes(u.children)))
    case Container(c) => Container(c.(view := [], children := StripSections(c.children)))
  }

  function StripSection(s: Section): Section
    decreases s, 0
  {
    s.(view := [], children := StripNodes(s.children), summary := StripNodes(s.summary))
  }

  function StripNodes(ns: seq<Node>): seq<Node>
    decreases ns, 0
  {
    if ns == [] then [] else [Strip(ns[0])] + StripNodes(ns[1..])
  }

  function StripSections(ss: seq<Section>): seq<Section>
    decreases ss, 0
  {
    if ss == [] then [] else [StripSection(ss[0])] + StripSections(ss[1..])
  }

  lemma {:induction false} NodeOnlyViewsChange(n: Node, v: Visitors)
    decreases n, 1
    ensures Strip(WalkNode(n, v).result) == Strip(n)
  {
    match n
    case Para(p) =>
    case Sec(s) => SectionOnlyViewsChange(s, v);
    case Untitled(u) => NodesOnlyViewsChange(u.children, v);
    case Container(c) => SectionsOnlyViewsChange(c.children, v);
  }

  lemma {:induction false} SectionOnlyViewsChange(s: Section, v: Visitors)
    decreases s, 0
    ensures StripSection(WalkSection(s, v).result) == StripSection(s)
  {
    NodesOnlyViewsChange(s.children, v);
    NodesOnlyViewsChange(s.summary, v);
  }

  lemma {:induction false} NodesOnlyViewsChange(ns: seq<Node>, v: Visitors)
    decreases ns, 0
    ensures StripNodes(WalkNodes(ns, v).result) == StripNodes(ns)
  {
    if ns != [] {
      var w := WalkNodes(ns, v);
      NodeOnlyViewsChange(ns[0], v);
      NodesOnlyViewsChange(ns[1..], v);
      assert w.result[1..] == WalkNodes(ns[1..], v).result;
    }
  }

  lemma {:induction false} SectionsOnlyViewsChange(ss: seq<Section>, v: Visitors)
    decreases ss, 0
    ensures StripSections(WalkSections(ss, v).result) == StripSections(ss)
  {
    if ss != [] {
      var w := WalkSections(ss, v);
      SectionOnlyViewsChange(ss[0], v);
      SectionsOnlyViewsChange(ss[1..], v);
      assert w.result[1..] == WalkSections(ss[1..], v).result;
    }
  }

  /** A view array together with the type of the node that holds it. */
  datatype HeldView = HeldView(tag: Tag, view: seq<ViewItem>)

  /** The view arrays of a tree in the walk's pre-order. */
  function ViewOrder(n: Node): seq<HeldView>
    decreases n, 1
  {
    match n
    case Para(p) => [HeldView(ParagraphTag, p.view)]
    case Sec(s) => SectionViewOrder(s)
    case Untitled(u) => [HeldView(UntitledTag, u.view)] + ViewOrders(u.children)
    case Container(c) => [HeldView(ContainerTag, c.view)] + SectionsViewOrder(c.children)
  }

  function SectionViewOrder(s: Section): seq<HeldView>
    decreases s, 0
  {
    [HeldView(SectionTag, s.view)] + ViewOrders(s.children) + ViewOrders(s.summary)
  }

  function ViewOrders(ns: seq<Node>): seq<HeldView>
    decreases ns, 0
  {
    if ns == [] then [] else ViewOrder(ns[0]) + ViewOrders(ns[1..])
  }

  function SectionsViewOrder(ss: seq<Section>): seq<HeldView>
    decreases ss, 0
  {
    if ss == [] then [] else SectionViewOrder(ss[0]) + SectionsViewOrder(ss[1..])
  }

  /** Each listed view rewritten by the visitor of its node's type, if
      there is one; the list keeps its length and its types. */
  function Rewritten(hs: seq<HeldView>, v: Visitors): (r: seq<HeldView>)
    ensures |r| == |hs|
    ensures forall i :: 0 <= i < |hs| ==>
              r[i] == HeldView(hs[i].tag, Visit(VisitorFor(v, hs[i].tag), hs[i].view))
  {
    seq(|hs|, i requires 0 <= i < |hs| => HeldView(hs[i].tag, Visit(VisitorFor(v, hs[i].tag), hs[i].view)))
  }

  lemma RewrittenConcat(a: seq<HeldView>, b: seq<HeldView>, v: Visitors)
    ensures Rewritten(a + b, v) == Rewritten(a, v) + Rewritten(b, v)
  {
    var l, r := Rewritten(a + b, v), Rewritten(a, v) + Rewritten(b, v);
    assert forall i :: 0 <= i < |l| ==> l[i] == r[i] by {
      forall i | 0 <= i < |l|
        ensures l[i] == r[i]
      {
        if i < |a| {
          assert (a + b)[i] == a[i];
        } else {
          assert (a + b)[i] == b[i - |a|];
        }
      }
    }
  }

  lemma {:induction false} NodeViewsRewritten(n: Node, v: Visitors)
    decreases n, 1
    ensures ViewOrder(WalkNode(n, v).result) == Rewritten(ViewOrder(n), v)
  {
    match n
    case Para(p) =>
    case Sec(s) => SectionViewsRewritten(s, v);
    case Untitled(u) =>
      NodesViewsRewritten(u.children, v);
      RewrittenConcat([HeldView(UntitledTag, u.view)], ViewOrders(u.children), v);
    case Container(c) =>
      SectionsViewsRewritten(c.children, v);
      RewrittenConcat([HeldView(ContainerTag, c.view)], SectionsViewOrder(c.children), v);
  }

  lemma {:induction false} SectionViewsRewritten(s: Section, v: Visitors)
    decreases s, 0
    ensures SectionViewOrder(WalkSection(s, v).result) == Rewritten(SectionViewOrder(s), v)
  {
    NodesViewsRewritten(s.children, v);
    NodesViewsRewritten(s.summary, v);
    var head := [HeldView(SectionTag, s.view)];
    RewrittenConcat(head, ViewOrders(s.children), v);
    RewrittenConcat(head + ViewOrders(s.children), ViewOrders(s.summary), v);
  }

  lemma {:induction false} NodesViewsRewritten(ns: seq<Node>, v: Visitors)
    decreases ns, 0
    ensures ViewOrders(WalkNodes(ns, v).result) == Rewritten(ViewOrders(ns), v)
  {
    if ns != [] {
      var w := WalkNodes(ns, v);
      NodeViewsRewritten(ns[0], v);
      NodesViewsRewritten(ns[1..], v);
      assert w.result[1..] == WalkNodes(ns[1..], v).result;
      RewrittenConcat(ViewOrder(ns[0]), ViewOrders(ns[1..]), v);
    }
  }

  lemma {:induction false} SectionsViewsRewritten(ss: seq<Section>, v: Visitors)
    decreases ss, 0
    ensures SectionsViewOrder(WalkSections(ss, v).result) == Rewritten(SectionsViewOrder(ss), v)
  {
    if ss != [] {
      var w := WalkSections(ss, v);
      SectionViewsRewritten(ss[0], v);
      SectionsViewsRewritten(ss[1..], v);
      assert w.result[1..] == WalkSections(ss[1..], v).result;
      RewrittenConcat(SectionViewOrder(ss[0]), SectionsViewOrder(ss[1..]), v);
    }
  }

  /** What a traversal does to a document: only the view arrays of its
      content tree change, each to its own node type's visitor applied to
      it, or left as it is when that type has no visitor. */
  lemma DocumentRewritesViewsOnly(d: Document, v: Visitors)
    ensures var r := TraverseDocument(d, v);
            && r == d.(content := r.content)
            && Strip(r.content) == Strip(d.content)
            && ViewOrder(r.content) == Rewritten(ViewOrder(d.content), v)
  {
    NodeOnlyViewsChange(d.content, v);
    NodeViewsRewritten(d.content, v);
  }
}

=== FILE: views.dfy ===
/** View descriptors carried by every node: a presentation variant (its
    `type` tag, here `kind`) and the state payload that variant holds.
    The state is a loose sum so that documents written under older schema
    versions (a bare string display state, a card state without
    `multilevel`) can be represented and migrated. */
module Views {
  import opened Wrappers
  import opened Seqs

  /** One layout direction of the table-of-contents view. */
  datatype DirectionBase = DirectionBase(
    interGenerationGap: int,
    innerGap: int,
    gap: int,
    innerDirection: string)

  datatype Direction =
    | Column(base: DirectionBase)
    | Row(perRow: int, base: DirectionBase)

  datatype ViewState =
      /** No `state` field; a `null` state is not modelled. */
    | NoState
      /** A display state stored as a plain string (`'expanded'`, ...). */
    | Bare(name: string)
      /** The record form a section's display state takes from version 1 on. */
    | Display(display: string, variation: Option<string>, animation: Option<string>)
    | Card(perRow: int, gap: int, multilevel: Option<bool>)
    | Toc(directions: seq<Direction>)
    | Sidebar(percentageWidth: int, activeIndex: int)
    | Tabs(gap: int, activeIndex: int)

  datatype ViewItem = ViewItem(kind: string, state: ViewState)

  const HeadingDefault := "content/heading/default"
  const ParagraphDefault := "content/paragraph/default"

  const SectionDefault := "collection/section/default"
  const SectionStatic := "collection/section/static"
  const SectionPage := "collection/section/page"

  const UntitledDefault := "collection/untitled-section/default"
  const UntitledStatic := "static"

  const ContainerDefault := "collection/section-container/default"
  const ContainerStatic := "collection/section-container/static"
  const ContainerCard := "collection/section-container/card"
  const ContainerBrick := "collection/section-container/brick"
  const ContainerToc := "collection/section-container/table-of-contents"
  const ContainerSidebar := "collection/section-container/sidebar"
  const ContainerTabs := "collection/section-container/tabs"

  /** The section display states the schema admits. */
  const SectionDisplayStates: set<string> := {"expanded", "summary", "collapsed"}
  const UntitledDisplayStates: set<string> := {"expanded", "summary"}

  /** The kinds of a view array, in order: what `activeView` may name. */
  function Kinds(view: seq<ViewItem>): (r: seq<string>)
    ensures |r| == |view|
    ensures forall i :: 0 <= i < |view| ==> r[i] == view[i].kind
  {
    if view == [] then [] else [view[0].kind] + Kinds(view[1..])
  }

  predicate ValidDirectionBase(b: DirectionBase) {
    && 0 <= b.interGenerationGap <= 36
    && 0 <= b.innerGap <= 36
    && 0 <= b.gap <= 72
    && b.innerDirection in {"column", "row"}
  }

  predicate ValidDirection(d: Direction) {
    match d
    case Column(b) => ValidDirectionBase(b)
    case Row(perRow, b) => 1 <= perRow <= 4 && ValidDirectionBase(b)
  }

  predicate ValidCardState(st: ViewState) {
    st.Card? && 1 <= st.perRow <= 4 && 0 <= st.gap <= 36
  }

  predicate ValidTabsState(st: ViewState) {
    st.Tabs? && 0 <= st.gap <= 72 && st.activeIndex >= 0
  }

  predicate ValidTocState(st: ViewState) {
    st.Toc? && forall i :: 0 <= i < |st.directions| ==> ValidDirection(st.directions[i])
  }

  predicate ValidSidebarState(st: ViewState) {
    st.Sidebar? && 0 <= st.percentageWidth <= 100 && st.activeIndex >= 0
  }

  /** The one-item view of a heading. */
  predicate ValidHeadingView(view: seq<ViewItem>, active: string) {
    view == [ViewItem(HeadingDefault, NoState)] && active == HeadingDefault
  }

  /** The one-item view of a paragraph. */
  predicate ValidParagraphView(view: seq<ViewItem>, active: string) {
    view == [ViewItem(ParagraphDefault, NoState)] && active == ParagraphDefault
  }

  /** The three section variants in canonical order, the default one
      carrying one of the three schema display states. */
  predicate ValidSectionView(view: seq<ViewItem>, active: string) {
    && |view| == 3
    && view[0].kind == SectionDefault
    && view[0].state.Bare?
    && view[0].state.name in SectionDisplayStates
    && view[1] == ViewItem(SectionStatic, NoState)
    && view[2] == ViewItem(SectionPage, NoState)
    && active in Kinds(view)
  }

  predicate ValidUntitledView(view: seq<ViewItem>, active: string) {
    && |view| == 2
    && view[0].kind == UntitledDefault
    && view[0].state.Bare?
    && view[0].state.name in UntitledDisplayStates
    && view[1] == ViewItem(UntitledStatic, NoState)
    && active in Kinds(view)
  }

  /** The seven container variants in canonical order with bounded states. */
  predicate ValidContainerView(view: seq<ViewItem>, active: string) {
    && |view| == 7
    && view[0] == ViewItem(ContainerDefault, NoState)
    && view[1] == ViewItem(ContainerStatic, NoState)
    && view[2].kind == ContainerCard && ValidCardState(view[2].state)
    && view[3] == ViewItem(ContainerBrick, NoState)
    && view[4].kind == ContainerToc && ValidTocState(view[4].state)
    && view[5].kind == ContainerSidebar && ValidSidebarState(view[5].state)
    && view[6].kind == ContainerTabs && ValidTabsState(view[6].state)
    && active in Kinds(view)
  }

  /** The first index of an item of the given kind, or -1 (the source's
      `view.findIndex(v => v.type === kind)`). */
  function IndexOfKind(view: seq<ViewItem>, kind: string): (r: int)
    ensures -1 <= r < |view|
    ensures r == -1 <==> forall j :: 0 <= j < |view| ==> view[j].kind != kind
    ensures r >= 0 ==> view[r].kind == kind && forall j :: 0 <= j < r ==> view[j].kind != kind
  {
    FindIndex(view, (v: ViewItem) => v.kind == kind)
  }
}

=== FILE: wrappers.dfy ===
/** Failure-compatible optional values, used for the lookups the editing
    operations receive from their surroundings and for optional fields. */
module Wrappers {

  datatype Option<+T> = None | Some(value: T) {

    /** The value in Some, or the default when None (the `??` operator). */
    function GetOr(default: T): T {
      match this
      case Some(v) => v
      case None => default
    }
  }
}
